=== FILE: README.md ===
# Audible book notes, modelled in Dafny

The plugin turns an Audible product page into a Markdown note in an Obsidian
vault. It works in five steps:

1. It reads the page's JSON-LD blocks and picks the object that describes the book.
2. It gathers the fields from that object, with the page's Open Graph tags and
   bylines as fallbacks:
   - title and canonical URL;
   - cover;
   - description;
   - authors, with the URLs of their author pages;
   - series and book number;
   - topic tags.
3. It normalises every field:
   - the title becomes a safe file name;
   - URLs lose their query and fragment;
   - tags become PascalCase words without repeats;
   - authors are deduplicated by name, ignoring case.
4. It adds the settings' base tags, plus extra tags for one category folder.
5. It renders a note template by replacing seventeen `{{placeholders}}` in a
   fixed order. It then collapses runs of blank lines and trims the result.

The settings side does three things:
- It normalises vault paths.
- It reads the tag rules from their JSON text.
- It builds the tag list for a category folder from those rules.

The model follows both source files, `main.ts` and `settings.ts`:
- Pure code becomes functions:
  - normalisers;
  - JSON-LD selection;
  - field cascades;
  - path normalisation.
- Code that pushes into arrays, fills sets and maps in loops, or rewrites a
  string step by step becomes methods with loops. Each method is proved equal
  to a specification function. Lemmas then state what that function
  guarantees.
- The browser's DOM, `JSON.parse` and the network become plain inputs:
  - the texts of the elements that selectors would find;
  - (text, href) pairs for links;
  - parse results as `Option<Json>`.

Modules, one file each:

| file | module | what |
|---|---|---|
| strings.dfy | `Wrappers`, `Strings` | `Option`/`Result`; whitespace, `trim`, ASCII case, search, `split`, split/join replace |
| normalize.dfy | `Normalize` | `normalizeSpace`, `normalizeTitle`, `cleanUrl`, `absAudibleUrl` |
| dedupe.dfy | `Dedupe` | `dedupeKeepOrder` (the same code appears in both source files) |
| tagify.dfy | `TagTokens` | `tagify` |
| jsonld.dfy | `JsonLd` | a JSON datatype, `extractJsonLdObjects`, `pickBookishJsonLd` |
| fields.dfy | `Fields` | `scrapeTitleAndUrl`, `scrapeCover`, `scrapeDescription` |
| authors.dfy | `Authors` | `dedupeAuthorsByName`, `scrapeAuthors` |
| series.dfy | `Series` | `scrapeSeries` and its `findBookNum` |
| tags.dfy | `PageTags` | `scrapeTags`, and the book tags assembled in `scrapeAudible` |
| render.dfy | `Render` | `renderFromTemplate` and the template path rewrite of `readTemplate` |
| settings.dfy | `Settings` | `safeNormalizePath`, `parseTagRules`, `buildTagsForCategory`, the default rules |
| book.dfy | `Book` | `scrapeAudible` once the page has been fetched and parsed |

Behaviour a reader may not expect, which the model follows as written:
- `cleanUrl` has no exception for `/search` URLs. Their query is dropped like any other (`Normalize.CleanUrlDropsQuery`).
- `dedupeKeepOrder` is case-sensitive: "Fantasy" and "fantasy" are both kept.
- `tagify` keeps hyphens (`Self-help`).
- `scrapeCover` checks a single `image` string for a leading "http". It does not check the first element of an `image` array (`Fields.CoverArrayImage`).
- `scrapeAudible` compares the category with "adult fantasy" after trimming and lower-casing. `buildTagsForCategory` looks up the exact trimmed name, so "adult fantasy" does not find the "Adult Fantasy" rules (`Settings.DefaultLowerCaseCategory`).
- `normalizeTitle` is not idempotent as written, and `safeNormalizePath` can leave a trailing `/`. Both are described under Findings.

## Model

| member | source | states |
|---|---|---|
| Strings.TrimIsSlice | main.ts:72 | `trim` removes a whitespace prefix and a whitespace suffix and nothing else, and its result is trimmed |
| Strings.TrimEmptyIffAllSpace | main.ts:55-56 | a string trims to "" exactly when it is all whitespace |
| Strings.TrimIdempotent | main.ts:72 | trimming twice is trimming once |
| Strings.LowerIdempotent | main.ts:230 | lower-casing twice is lower-casing once |
| Strings.FindNone | main.ts:64 | the search for a separator reaches the end exactly when the separator does not occur |
| Strings.SplitAtFirst | main.ts:79-80 | `split` on a separator cuts right after the text before its first occurrence |
| Strings.ReplaceAllAbsent | main.ts:441 | split/join with a pattern that does not occur leaves the text unchanged |
| Strings.ReplaceAllChars | main.ts:441 | every character after a split/join replacement comes from the text or from the replacement |
| Strings.ReplaceAllRemovesChar | settings.ts:87 | replacing one character by text that lacks it removes every occurrence |
| Normalize.CollapseSpaces | main.ts:71 | each whitespace run becomes one plain space; the result is empty only for empty input and keeps every non-space character in order |
| Normalize.NormalizeSpace | main.ts:68-73 | the result is trimmed with single plain spaces and keeps the input's non-space characters in order |
| Normalize.NormalizeSpaceIdempotent | main.ts:68-73 | normalising twice is normalising once |
| Normalize.NormalizeSpaceFixed | main.ts:68-73 | normalised text is a fixed point |
| Normalize.NormalizeSpaceBlank | main.ts:68-73 | the result is "" exactly when the input is blank |
| Normalize.NormalizeSpaceChars | main.ts:68-73 | every output character is a plain space or an input character |
| Normalize.RemoveIllegal | main.ts:83 | no illegal filename or control character survives, and nothing new is introduced |
| Normalize.CleanTitleProps | main.ts:76-86 | before the cut, the title is normalised, free of `< > : " / \ \| ? *`, control characters and `&`, and does not end in a dot or space |
| Normalize.CutProps | main.ts:88 | cutting to 180 characters and trimming keeps the text normalised and safe, at most 180 characters long |
| Normalize.NormalizeTitleAsWrittenSafe | main.ts:75-90 | the title as written is normalised, filename-safe, without `&`, and at most 180 characters long |
| Normalize.NormalizeTitleAsWrittenNotIdempotent | main.ts:86-88 | for any plain 179-character name `a`, the title as written of `a + ".b"` is `a + "."`, and a second pass changes it to `a` |
| Normalize.NormalizeTitle | main.ts:75-90 | corrected title: normalised, filename-safe, at most 180 characters, never ending in a dot |
| Normalize.NormalizeTitleIdempotent | main.ts:75-90 | the corrected title is idempotent |
| Normalize.NormalizeTitleDropsCutDot | main.ts:86-88 | on the same input `a + ".b"` the corrected title gives `a` |
| Normalize.CleanUrl | main.ts:54-66 | the string fallback keeps a prefix of the trimmed input with no `?` or `#`: either all of it, or the part before a `?` or `#` at which it stops; blank input gives "" |
| Normalize.CleanUrlDropsFragment | main.ts:64 | `base#fragment` becomes `base`, even when the fragment holds a `?` |
| Normalize.CleanUrlOfPlain | main.ts:64 | input without `?` or `#` is only trimmed |
| Normalize.CleanUrlTwiceIsClean | main.ts:54-66 | clean input is a fixed point, and cleaning twice always yields clean text |
| Normalize.CleanUrlDropsQuery | main.ts:64 | `base?query` becomes `base`, `/search` URLs included |
| Normalize.CleanUrlAgainNonEmpty | main.ts:54-66 | a non-empty cleaned URL stays non-empty when cleaned again |
| Normalize.AbsAudibleUrlPrefix | main.ts:138-143 | the site origin is prefixed exactly when the trimmed href starts with `/`; the result has no query or fragment |
| Dedupe.DedupeKeepOrder | main.ts:92-103 | the `seen`-set loop returns the deduplicated list |
| Dedupe.DedupeWellFormed | settings.ts:118-129 | output entries are trimmed, non-empty and pairwise distinct |
| Dedupe.DedupeMembers | settings.ts:118-129 | a string is in the output exactly when it is the non-empty trimmed form of some input |
| Dedupe.DedupeConcatMembers | settings.ts:131-141 | membership in the deduplication of two lists pushed one after the other, in terms of either list |
| Dedupe.DedupeFromInputs | main.ts:92-103 | when the inputs are trimmed, every output is an input |
| Dedupe.DedupePrefix | main.ts:92-103 | first-occurrence order: the output for a prefix of the input is a prefix of the output |
| Dedupe.DedupeOfDeduped | settings.ts:118-129 | trimmed, non-empty, distinct lists pass through unchanged |
| Dedupe.DedupeIdempotent | settings.ts:118-129 | deduplicating twice is deduplicating once |
| Dedupe.DedupeAllBlank | main.ts:96-97 | blank inputs give the empty list |
| TagTokens.AbsorbNoSep | main.ts:110-112 | text without separators is left alone by the separator rewrite |
| TagTokens.AbsorbAt | main.ts:110-112 | a separator with its surrounding spaces becomes the replacement |
| TagTokens.TrimNonEmpty | main.ts:114 | the kept parts are non-empty and trimmed |
| TagTokens.KeepTagChars | main.ts:123 | only word characters, `-` and whitespace survive the punctuation strip |
| TagTokens.TokenIsTag | main.ts:123-131 | a cleaned non-empty sub-part always gives a well-formed token, so the `if (token)` guard never rejects one |
| TagTokens.SubPartTokens | main.ts:122-132 | the inner loop pushes the tokens of the sub-parts in order |
| TagTokens.CollectTokens | main.ts:117-133 | the outer loop pushes the tokens of every part in order |
| TagTokens.TagifyValue | main.ts:105-136 | the method computes `tagify`'s result |
| TagTokens.TagifyWellFormed | main.ts:105-136 | every tag is non-empty, made of `[A-Za-z0-9_-]`, does not start with a lower-case letter, and no tag repeats |
| TagTokens.TagifyBlank | main.ts:106-107 | blank input gives no tags |
| TagTokens.DecodedPlain | main.ts:106 | normalised text without `;` is not changed by the `&amp;` decoding |
| TagTokens.TagWordToken | main.ts:123-129 | a single tag word is its own cleaned text, and its token is the word capitalised |
| TagTokens.TagifyAmpersandPair | main.ts:110-135 | `a & b` gives the capitalised words `a`, `b`; `Sci-Fi & Fantasy` gives `[Sci-Fi, Fantasy]` |
| TagTokens.TagifyCommaPair | main.ts:110-135 | `a, b` gives the capitalised words, so `self-help, Productivity` gives `[Self-help, Productivity]` |
| TagTokens.CapitalizedPair | main.ts:135 | distinct words that already start with a capital pass the final deduplication as they are |
| JsonLd.ExtractJsonLdObjects | main.ts:151-169 | the block loops collect the objects of every parsed block in order |
| JsonLd.CollectedAreObjects | main.ts:159-163 | everything collected is an object or an array |
| JsonLd.CollectedAppend | main.ts:154-167 | blocks contribute independently, in document order |
| JsonLd.CollectedSkipsFailure | main.ts:164-166 | a block that fails to parse contributes nothing |
| JsonLd.CollectedObjectBlock | main.ts:161-162 | a block holding one object contributes exactly that object |
| JsonLd.FirstBookishSpec | main.ts:172-178 | the search without a throwing `@type` finds nothing exactly when no object is bookish; otherwise it finds the first bookish one |
| JsonLd.SearchOutcomeSpec | main.ts:172-178 | the loop throws the TypeError exactly when an object whose `@type` does not convert comes before any bookish one, all earlier `@type`s converting; otherwise it finds what the search without throwing finds |
| JsonLd.PickBookishSpec | main.ts:171-180 | the function throws exactly when its loop does; when it returns, the choice is the first bookish object wherever it sits, otherwise the first object, and nothing only for an empty list; it always returns when every `@type` converts |
| JsonLd.PickBookishSkipsFirst | main.ts:171-178 | a bookish object wins over a non-bookish one placed before it when both `@type`s convert; otherwise the call throws the TypeError |
| JsonLd.StringTypeBookish | main.ts:173-177 | a string `@type` is compared after lower-casing |
| JsonLd.ArrayTypeBookish | main.ts:174-177 | an array `@type` is bookish when any element is; placed first, its object is picked if every element converts, and otherwise the call throws, since `map` converts every element before `some` compares |
| JsonLd.NoTypeNotBookish | main.ts:173-177 | an object without `@type` is never bookish |
| Fields.UnknownTitleNormalized | main.ts:196 | the placeholder title is itself normalised |
| Fields.TitleAndUrlShape | main.ts:183-197 | the title is normalised; the URL is the cleaned JSON-LD `url` or the cleaned page URL, with no query or fragment |
| Fields.JsonLdTitleWins | main.ts:184-187 | a non-blank JSON-LD name, with a usable JSON-LD url, decides both fields |
| Fields.OgTitleFallback | main.ts:189-194 | without a usable JSON-LD name, the Open Graph title and the page URL are used |
| Fields.BlankOgTitleGivesEmptyTitle | main.ts:194 | a whitespace-only Open Graph title counts as present and gives an empty title, not "Unknown Title" |
| Fields.JsonLdTitlePageUrl | main.ts:184-187 | a non-blank JSON-LD name with a missing JSON-LD url, or one that cleans to "", takes the cleaned page URL |
| Fields.NoTitleSource | main.ts:183-196 | with no usable source the title is "Unknown Title" and the URL is the cleaned page URL; no usable source means no JSON-LD string name, or a blank one, and an og:title that is missing or has empty content |
| Fields.CoverIsClean | main.ts:199-210 | the cover URL never has a query or fragment |
| Fields.CoverStringImage | main.ts:201 | a string `image` is used only when it starts with "http"; otherwise the Open Graph fallback applies |
| Fields.CoverArrayImage | main.ts:202 | the first element of an `image` array is used without the "http" check |
| Fields.CoverFallback | main.ts:204-209 | without JSON-LD the cover is the cleaned Open Graph image, or "" |
| Fields.DescriptionSpec | main.ts:212-222 | the description is normalised; a non-blank JSON-LD string description wins; when there is no string description, or it is blank, the Open Graph one is used |
| Authors.KeepFirstLoop | main.ts:225-234 | the `seen`-set loop keeps the first entry for each lower-cased name |
| Authors.DedupeAuthorsByName | main.ts:224-236 | the method computes `dedupeAuthorsByName` |
| Authors.DedupeAuthorsWellFormed | main.ts:224-236 | names are normalised and non-empty, their lower-cased forms differ, and URLs have no query or fragment |
| Authors.KeepFirstKeys | main.ts:229-232 | a lower-cased name is kept exactly when some entry with a non-blank name has it |
| Authors.DedupeAuthorsFirstWins | main.ts:227-233 | the first entry with a name wins whole: its URL is kept, and a later duplicate never supplies one |
| Authors.DedupeAuthorsFrom | main.ts:224-236 | every output entry is some input entry, prepared |
| Authors.DedupeAuthorsOfDistinct | main.ts:224-236 | normalised entries with distinct names all pass; only their URLs are cleaned |
| Authors.DedupeAuthorsIdempotentOnClean | main.ts:224-236 | when the URLs are already clean, deduplicating again changes nothing |
| Authors.CollectJsonLdAuthors | main.ts:241-258 | the JSON-LD pass collects the authors of an array, an object or a string `author` |
| Authors.WrittenByHasBy | main.ts:283 | the "Written by" alternative of the keyword test implies the "By" alternative |
| Authors.ByPrefixHasKeyword | main.ts:283 | text starting with "By " passes the keyword test |
| Authors.NoKeywordWithoutB | main.ts:283 | text without the letters b and u never passes the keyword test |
| Authors.CollectKeywordContainers | main.ts:280-285 | the element loop keeps, in order, the elements whose text has a keyword and which hold an author link |
| Authors.PutSpec | main.ts:294 | `Map.set`: the key reads back its new value, other keys are unchanged, an existing key keeps its position, and keys stay distinct |
| Authors.PutLinkEntries | main.ts:291-295 | the inner link loop sets one candidate per named link |
| Authors.CollectCandidates | main.ts:288-296 | the container loop builds the candidate map from all containers in order |
| Authors.CandidatesWellFormed | main.ts:288-296 | candidate keys are lower-cased normalised names, non-empty and distinct |
| Authors.CandidatesLastWins | main.ts:294 | the last link with a given name decides that name's URL |
| Authors.SynthesizeAuthors | main.ts:309-313 | the loop over the candidates builds one author per candidate |
| Authors.ScrapeAuthors | main.ts:238-315 | the method computes `scrapeAuthors`, in the source's order of passes |
| Authors.ScrapedAuthorsWellFormed | main.ts:238-315 | whatever the page, authors have normalised non-empty names that differ ignoring case, and URLs without query or fragment |
| Authors.CompleteAuthorsIgnorePage | main.ts:260-263 | when JSON-LD gives every author a URL, the result is that list, and the page is never consulted |
| Authors.FillKeepsAuthors | main.ts:299-305 | filling keeps length, order and names; a present URL is only cleaned again; a missing one becomes the candidate URL for the name, or "" |
| Authors.TitleCaseProps | main.ts:311 | upper-casing word starts keeps the lower-cased form and the whitespace |
| Authors.SynthesizedKeepsCandidates | main.ts:309-314 | each candidate becomes one author, in candidate order, named by its key with word starts upper-cased, with its URL cleaned (twice, by the fallback and by the deduplication) |
| Authors.ScrapedAuthorsFromPage | main.ts:308-314 | when JSON-LD names nobody, the result has one author per candidate of the bylines and keyword containers, in order, with the candidate's name title-cased and its URL cleaned twice |
| Series.DigitRun | main.ts:320 | the maximal run of leading ASCII digits |
| Series.FindBookNumSpec | main.ts:318-322 | the book number is "" exactly when the normalised text has no `\bBook\s+(\d+)\b` match; otherwise it is the digits of the leftmost match |
| Series.FindBookNumDigits | main.ts:318-322 | the book number is "" or digits |
| Series.BookWordThenDigits | main.ts:320 | "Book" in any case, then a space and digits, gives those digits |
| Series.FindLabeledLine | main.ts:330-340 | the loop with its `break` returns the first line labelled "series" |
| Series.FirstLabeledLine | main.ts:332-338 | the first labelled line is chosen, whatever follows it |
| Series.ReadLine | main.ts:346-353 | name, URL and number are read from the chosen line |
| Series.ReadAncestors | main.ts:361-365 | the ancestor loop yields the number it specifies |
| Series.LineBookNumKept | main.ts:362 | a number found in the line is kept; the ancestors are read only when there is none |
| Series.AncestorsFirstFour | main.ts:362 | only the four nearest ancestors are read |
| Series.AncestorFirstMatch | main.ts:361-365 | the first of those ancestors with a number gives it |
| Series.ScrapeSeries | main.ts:317-371 | the method computes `scrapeSeries` |
| Series.SeriesShape | main.ts:369-370 | a series is returned exactly when both a name and a link were found; its URL is clean and its number is "" or digits |
| Series.LineLinkWins | main.ts:355-356 | a series line with a link makes the page-wide fallback link irrelevant |
| Series.DetailLineFirst | main.ts:325-330 | the details line is preferred over any labelled line |
| Series.AbsAudibleUrlClean | main.ts:370 | cleaning an absolute series URL keeps it non-empty and without query or fragment |
| PageTags.TagsOfText | main.ts:381-382 | one chip or category text is tagified when it is not blank |
| PageTags.PushTextTags | main.ts:380-383 | the chip and category loops push each text's tags in order |
| PageTags.TagsOfGenreItem | main.ts:399 | one element of a `genre` array contributes only when it is a string |
| PageTags.PushStringTags | main.ts:398-400 | the `genre` array loop pushes every string element's tags in order |
| PageTags.GenreTagsOf | main.ts:396-400 | the genre step computes its tags |
| PageTags.RemoveJunk | main.ts:403-404 | the filter keeps exactly the non-junk tags, in order |
| PageTags.ScrapeTags | main.ts:373-407 | the method computes `scrapeTags` |
| PageTags.UnjunkedMembers | main.ts:404 | a tag survives the filter exactly when it is not audible/audiobooks/audiobook in any case |
| PageTags.UnjunkedAppend | main.ts:404 | the filter distributes over concatenation |
| PageTags.ScrapedTagsWellFormed | main.ts:373-407 | scraped tags are well formed, distinct, and never junk in any letter case |
| PageTags.ScrapedTagsMembers | main.ts:402-406 | a tag is scraped exactly when a chip, a category or the genre yields it and it is not junk |
| PageTags.ChipTagsFirst | main.ts:376-406 | chips come first: the result for the chips alone is a prefix of the result |
| PageTags.ChipAndCategoryTagsFirst | main.ts:376-406 | the result for the chips and the category links together, before any genre, is a prefix of the result |
| PageTags.ScrapedTagsInOrder | main.ts:376-406 | the result is the deduplication of the junk-filtered chips, then category links, then genres, in that order |
| PageTags.GenreStringOrArray | main.ts:396-400 | a string `genre` and a one-element array holding it give the same tags |
| PageTags.BookTagsSpec | main.ts:490-497 | book tags are trimmed, non-empty and distinct; the deduplicated base tags come first; a tag is present exactly when it is the trimmed form of a pushed entry |
| PageTags.CleanBaseTagsFirst | main.ts:490-497 | clean base tags open the list exactly as given, without the junk filter |
| PageTags.AdultFantasyOnly | main.ts:494-496 | the adult-fantasy tags are added exactly when the category, trimmed and lower-cased, is "adult fantasy" |
| Render.AuthorsMdSpec | main.ts:425-427 | no authors render as `_Unknown_`; otherwise the entries are joined by `",  \n"` |
| Render.AuthorWithUrl | main.ts:426 | an author with a URL renders as `[name](cleaned url)` |
| Render.UnescapeEscape | main.ts:436 | the escaping used by `JSON.stringify` loses nothing |
| Render.JsonQuoteRoundTrip | main.ts:436 | a quoted tag reads back as the tag and holds no control character |
| Render.EscapeNoControl | main.ts:436 | escaped text holds no control character |
| Render.Substitutions | main.ts:443-465 | no placeholder key is empty and no two keys are equal, so each `rep` call has its own placeholder |
| Render.ApplySubstitutions | main.ts:441-465 | the seventeen `rep` calls apply the pairs in turn |
| Render.RenderFromTemplate | main.ts:423-469 | the method computes the rendered note |
| Render.TokenInToken | main.ts:443-465 | one placeholder occurs inside another only when they are the same |
| Render.TokenNamesShape | main.ts:443-465 | the seventeen placeholder names are distinct and free of braces |
| Render.ApplyAllAbsent | main.ts:441 | replacements that find nothing leave the text unchanged |
| Render.ApplyAllSkip | main.ts:443-465 | pairs that find nothing can be skipped |
| Render.NoTokenTemplate | main.ts:423-469 | a template with no placeholder is only collapsed, trimmed and given its final newline |
| Render.BracelessTemplate | main.ts:423-469 | in particular a template without `{` |
| Render.DescriptionThenRatingTable | main.ts:461-462 | a table in replacement order rewrites `{{description}}` whose value is `{{rating}}` to the rating |
| Render.DescriptionThenRating | main.ts:461-462 | replacement order matters: a description reading `{{rating}}` renders as the rating |
| Render.CollapseNoQuad | main.ts:467 | after the collapse no four newlines are in a row |
| Render.CollapseFixed | main.ts:467 | text without four newlines in a row is unchanged |
| Render.FinishShape | main.ts:467-468 | the note is trimmed text followed by exactly one newline, with no four newlines in a row |
| Render.RenderedShape | main.ts:423-469 | every rendered note ends in `\n` and never holds four newlines in a row |
| Render.TemplatePathSpec | main.ts:410-414 | a blank path is refused; any other gives a path without backslashes that does not start with `/` |
| Render.TemplatePathOfClean | main.ts:411-414 | a clean relative path is used as it is |
| Settings.SafeNormalizePathAsWrittenSpec | settings.ts:85-91 | as written: no backslash, "" for empty input, and no `/` at either end for input without whitespace |
| Settings.SafeNormalizePathTrailingSlashKept | settings.ts:88-90 | as written, `c/ /` becomes `c/`; the corrected form gives `c` |
| Settings.SafeNormalizePathAsWrittenEndsInSlash | settings.ts:88-90 | the input `a/ /` leaves a trailing `/` as written; the corrected form gives `a` |
| Settings.SafeNormalizePathSpec | settings.ts:85-91 | corrected: no backslash, trimmed, no `/` at either end, "" for empty input, and a contiguous part of the slash-converted input |
| Settings.SafeNormalizePathIdempotent | settings.ts:85-91 | the corrected normaliser is idempotent |
| Settings.SafeNormalizePathAgrees | settings.ts:85-91 | without whitespace in the input, corrected and as-written results agree |
| Settings.ParseTagRules | settings.ts:93-116 | the key loop over `categoryTags` builds the rules of the parse outcome, whatever the key order, and a `map(String)` that throws leaves for the catch path |
| Settings.ParseErrorPath | settings.ts:93-115 | the error is "" exactly when the text parses and every conversion returns; any error gives empty rules; a parse failure keeps its message (or "Invalid JSON"), and a conversion that throws gives the TypeError's message |
| Settings.ToStringBaseTagFails | settings.ts:93-115 | `{"baseTags":[{"toString":0}]}` parses but yields no rules and the TypeError's message |
| Settings.BaseTagsField | settings.ts:96 | `baseTags` is [] unless the value holds an array there |
| Settings.BaseTagsArray | settings.ts:96 | when every conversion returns, an array `baseTags` gives one entry per element, and string elements are kept as they are; otherwise there are no base tags |
| Settings.CategoryTagsKeys | settings.ts:97-104 | when every conversion returns, an object `categoryTags` keeps exactly its array-valued keys, each with one string per element; otherwise no category is kept |
| Settings.CategoryTagsAbsent | settings.ts:97 | a missing or non-object `categoryTags` gives no category tags |
| Settings.BuildTagsForCategory | settings.ts:131-141 | the pushes and the final deduplication compute the category's tags |
| Settings.BaseTagsFirst | settings.ts:131-141 | the deduplicated base tags come first; the output is trimmed, non-empty and distinct |
| Settings.BlankCategory | settings.ts:135-136 | a blank category gives the deduplicated base tags |
| Settings.CategoryLookup | settings.ts:135-138 | the lookup uses the exact trimmed name: its tags are added when it is a key, and nothing is added otherwise |
| Settings.CategoryTagsMembers | settings.ts:131-141 | a tag is present exactly when it is the trimmed form of a base tag or of one of the category's tags |
| Settings.CleanCategoryTags | settings.ts:131-141 | clean base and category tags under a trimmed key come back as given, base tags first |
| Settings.UnknownCategoryTags | settings.ts:131-141 | an unknown trimmed category gives clean base tags unchanged |
| Settings.DefaultRulesParse | settings.ts:73-83 | the default rules parse without error to base tags Book, Audible and the one category "Adult Fantasy" |
| Settings.DefaultAdultFantasy | settings.ts:73-83 | with the default rules, "Adult Fantasy" gives `[Book, Audible, Adult, Fantasy, Erotic]` |
| Settings.DefaultLowerCaseCategory | settings.ts:136 | the lookup is case-sensitive: "adult fantasy" gets only `[Book, Audible]` |
| Book.PushBookTags | main.ts:490-497 | the pushes and the final deduplication compute the book's tags |
| Book.ScrapeAudible | main.ts:472-514 | fails with the TypeError exactly when `pickBookishJsonLd` throws; otherwise the scrapers in source order assemble the record |
| Book.BookTitleShape | main.ts:480-481 | the record's title is a normalised safe file name of at most 180 characters |
| Book.CorrectedBookShape | main.ts:480-481 | with the corrected title normaliser, only the title changes, and it never ends in a dot |
| Book.BookUrlShape | main.ts:480-501 | the record's URL is trimmed, with no query and no fragment, whichever of the page URL and the JSON-LD `url` was taken |
| Book.BookCoverAndDescriptionShape | main.ts:483-484 | the cover has no query or fragment; the description is normalised |
| Book.BookRecordShape | main.ts:486-513 | authors are well formed and distinct by name; a series has a name, a clean URL and a digit number; category, type and the defaults come from the inputs |
| Book.BookTagsShape | main.ts:490-497 | the book's tags are trimmed, non-empty and distinct, and start with the deduplicated base tags |
| Book.DefaultBaseTagsFirst | main.ts:42-51 | with the default settings every book's tags start with Book, Audible, unaffected by the junk filter |

## Left out

- **The WHATWG `URL` branch of `cleanUrl`** (main.ts:57-61): it is a foreign parser. `Normalize.CleanUrl` models the string fallback on line 64 for every input, so for absolute URLs the model does not capture the parser's own normalisation.
- **The DOM**: `DOMParser` and every `querySelector`/`querySelectorAll`. The model takes as inputs the element texts, the (text, href) link pairs and the ancestor texts that the selectors would find. The selector strings are not modelled.
- **`JSON.parse`**: parse results are inputs. In `extractJsonLdObjects` a block is `None` when it is blank or does not parse. `parseTagRules` receives a parsed value or a failure message.
- **I/O and network**:
  - `requestUrl` (main.ts:473);
  - the vault lookup and read of `readTemplate` (main.ts:415-420); only its path rewrite is modelled;
  - the note creation of `createBookFromAudible`;
  - `listBookCategories` (main.ts:517-526), which also depends on locale-aware `localeCompare`.
- **The plugin UI**: the modal and the settings tabs, and the rating-number settings (floating point).
- **Unicode handling**:
  - case conversion is ASCII only;
  - `\s` is ASCII whitespace plus U+00A0, U+202F and U+2009;
  - the 180-character limit counts characters, not UTF-16 code units.
- **Number formatting in `String()`**: a JSON number carries its JavaScript text as given, so the model does not compute how JavaScript prints numbers. Other values follow `String()`: `null`, booleans, arrays joined by commas, and `[object Object]`. An object with its own `toString` key, or an array holding one, does not convert: `String()` throws a TypeError ("Cannot convert object to primitive value"). `JsonLd.Stringable` says which values convert, and `JsonLd.PickBookishOutcome`, `Settings.TagRulesOf` and `Book.ScrapeAudible` take the throwing path for the rest. The message text is the one V8 gives.
- **Prototype-chain keys** such as `__proto__` in `categoryTags` are not modelled.
- **`categoryTags` as a map**: `Object.keys` order is not kept, and `Settings.ParseTagRules` visits the keys in an arbitrary order. Lookups do not depend on that order.
- **The `rep` closure**: `Render.ApplySubstitutions` models it as a loop over a table of (placeholder, value) pairs in source order.
- **Authors and tag sources**: bylines, keyword containers, chips and category links are given as already selected lists.
- **`Normalize.CleanUrl`**: it is not idempotent on the fallback (`"a ?b"` gives `"a "`, then `"a"`). The model proves stability after two applications (`Normalize.CleanUrlTwiceIsClean`) instead.
- Authors.FieldText: a JSON-LD author `name` or `url` that is neither a string nor `null` (an array, a number, an object) is read as "". The source passes it to `add` (main.ts:252, main.ts:255), where `normalizeSpace` (main.ts:69) or `cleanUrl` (main.ts:55) throws a TypeError and `scrapeAudible` fails. Examples are `"author": {"name": ["Jane Doe"]}` and `{"name": "X", "url": 5}`. The model has no exceptions on this path.
- Authors.CollectJsonLdAuthors: for the same inputs it skips the name (or keeps the author with an empty URL) where the source throws, because it reads fields through `Authors.FieldText`.
- Authors.ScrapeAuthors: for the same inputs it returns a list where the source throws, because it reads fields through `Authors.FieldText`.
- **esbuild.config.mjs** is not part of this model. It is build configuration.

## Findings

| source | as written | input that shows it | evidently intended | confidence | as-written member | corrected member |
|---|---|---|---|---|---|---|
| main.ts:86-88 | the dot/space tail is stripped before the 180-character cut, so the cut can end the title in `.` and a second call removes it (not idempotent) | any 179-character plain name followed by `.b`, e.g. 179 × `a` + `.b` | a file name that never ends in a dot, stable under a second call | not executed | Normalize.NormalizeTitleAsWrittenNotIdempotent | Normalize.NormalizeTitleIdempotent |
| settings.ts:88-90 | slashes are stripped before trimming, so whitespace between slashes hides a slash that the trim then exposes | `a/ /` gives `a/` | a path without a leading or trailing `/` | not executed | Settings.SafeNormalizePathAsWrittenEndsInSlash | Settings.SafeNormalizePathSpec |

`Book.ScrapeAudible` and `Book.BookOf` follow the code and call `Normalize.NormalizeTitleAsWritten`, so a book title can end in a dot. `Book.CorrectedBookOf` is the same record with the corrected `Normalize.NormalizeTitle`. `Settings.SafeNormalizePath` is the corrected path normaliser. The as-written `Settings.SafeNormalizePathAsWritten` has its own guarantees (`Settings.SafeNormalizePathAsWrittenSpec`), and `Settings.SafeNormalizePathAgrees` proves that the two agree on input without whitespace. The source calls `safeNormalizePath` only from the settings tab (settings.ts:212), which is not modelled.

=== FILE: authors.dfy ===
/** Authors (main.ts:224-315): names and links from JSON-LD, de-duplicated
    case-insensitively; when a URL is missing, author links found in the
    page's byline containers fill it in, and when JSON-LD names nobody
    those links become the author list. */
module Authors {
  import opened Wrappers
  import opened Strings
  import opened Normalize
  import opened JsonLd

  /** `PersonLink`. */
  datatype Person = Person(name: string, url: string)

  /** An `<a href*="/author/">` element: its text and its `href` attribute
      (a missing attribute reads as ""). */
  datatype Anchor = Anchor(text: string, href: string)

  /** A `div`, `span` or `section` element of the page: its text and the
      author links inside it, in document order. */
  datatype Element = Element(text: string, authorLinks: seq<Anchor>)

  // ---------------------------------------------------------------- dedupeAuthorsByName

  /** The lower-cased names of `ps`, in order. */
  function KeysOf(ps: seq<Person>): seq<string> {
    seq(|ps|, i requires 0 <= i < |ps| => Lower(ps[i].name))
  }

  /** One input entry as `dedupeAuthorsByName` would keep it: name
      normalised, URL cleaned. */
  function Prepared(a: Person): Person {
    Person(NormalizeSpace(a.name), CleanUrl(a.url))
  }

  function PreparedAll(items: seq<Person>): seq<Person> {
    seq(|items|, i requires 0 <= i < |items| => Prepared(items[i]))
  }

  /** Keeps each prepared entry whose name is not blank and whose
      lower-cased name no earlier kept entry has. */
  function KeepFirst(ps: seq<Person>): seq<Person> {
    if ps == [] then []
    else
      var rest := KeepFirst(ps[..|ps| - 1]);
      var p := ps[|ps| - 1];
      if p.name == [] || Lower(p.name) in KeysOf(rest) then rest else rest + [p]
  }

  /** What `dedupeAuthorsByName` returns. */
  function DedupedAuthors(items: seq<Person>): seq<Person> {
    KeepFirst(PreparedAll(items))
  }

  lemma KeepFirstSnoc(ps: seq<Person>, p: Person)
    ensures KeepFirst(ps + [p])
      == if p.name == [] || Lower(p.name) in KeysOf(KeepFirst(ps)) then KeepFirst(ps) else KeepFirst(ps) + [p]
  {
    assert (ps + [p])[..|ps|] == ps;
  }

  lemma KeysOfSnoc(out: seq<Person>, p: Person)
    ensures KeysOf(out + [p]) == KeysOf(out) + [Lower(p.name)]
  {
  }

  /** The `seen`-set loop of `dedupeAuthorsByName`, over the prepared
      entries. */
  method KeepFirstLoop(ps: seq<Person>) returns (out: seq<Person>)
    ensures out == KeepFirst(ps)
  {
    var seen: set<string> := {};
    out := [];
    for i := 0 to |ps|
      invariant out == KeepFirst(ps[..i])
      invariant forall k :: k in seen <==> k in KeysOf(out)
    {
      var p := ps[i];
      assert ps[..i + 1] == ps[..i] + [p];
      KeepFirstSnoc(ps[..i], p);
      if p.name != [] {
        var key := Lower(p.name);
        if key !in seen {
          seen := seen + {key};
          KeysOfSnoc(out, p);
          out := out + [p];
        }
      }
    }
    assert ps[..|ps|] == ps;
  }

  /** `dedupeAuthorsByName`. */
  method DedupeAuthorsByName(items: seq<Person>) returns (out: seq<Person>)
    ensures out == DedupedAuthors(items)
  {
    var ps := PreparedAll(items);
    out := KeepFirstLoop(ps);
  }

  /** Names normalised and non-empty, URLs without query or fragment. */
  predicate PeopleOk(ps: seq<Person>) {
    forall i :: 0 <= i < |ps| ==> ps[i].name != [] && Normalized(ps[i].name) && '?' !in ps[i].url && '#' !in ps[i].url
  }

  /** No two entries share a lower-cased name. */
  predicate KeysDistinct(ps: seq<Person>) {
    forall i, j :: 0 <= i < j < |ps| ==> Lower(ps[i].name) != Lower(ps[j].name)
  }

  lemma {:induction false} KeepFirstProps(ps: seq<Person>)
    ensures KeysDistinct(KeepFirst(ps))
    ensures forall p :: p in KeepFirst(ps) ==> p in ps && p.name != []
  {
    if ps != [] {
      var init := ps[..|ps| - 1];
      KeepFirstProps(init);
      var rest := KeepFirst(init);
      forall i | 0 <= i < |rest| ensures Lower(rest[i].name) == KeysOf(rest)[i] { }
      assert forall p :: p in init ==> p in ps;
    }
  }

  lemma PreparedOk(items: seq<Person>)
    ensures forall p :: p in PreparedAll(items) && p.name != [] ==>
      Normalized(p.name) && '?' !in p.url && '#' !in p.url
  {
  }

  lemma DedupeAuthorsWellFormed(items: seq<Person>)
    ensures PeopleOk(DedupedAuthors(items)) && KeysDistinct(DedupedAuthors(items))
  {
    KeepFirstProps(PreparedAll(items));
    PreparedOk(items);
    var out := DedupedAuthors(items);
    assert forall i :: 0 <= i < |out| ==> out[i] in out;
  }

  /** A lower-cased name is a key of the output exactly when some prepared
      entry with a non-blank name has it. */
  lemma {:induction false} KeepFirstKeys(ps: seq<Person>, k: string)
    ensures k in KeysOf(KeepFirst(ps)) <==>
      exists i :: 0 <= i < |ps| && ps[i].name != [] && Lower(ps[i].name) == k
  {
    if ps != [] {
      var init := ps[..|ps| - 1];
      KeepFirstKeys(init, k);
      var rest := KeepFirst(init);
      var p := ps[|ps| - 1];
      if !(p.name == [] || Lower(p.name) in KeysOf(rest)) {
        assert KeysOf(rest + [p]) == KeysOf(rest) + [Lower(p.name)];
      }
      if exists i :: 0 <= i < |ps| && ps[i].name != [] && Lower(ps[i].name) == k {
        var i :| 0 <= i < |ps| && ps[i].name != [] && Lower(ps[i].name) == k;
        if i < |init| {
          assert init[i] == ps[i];
        }
      }
    }
  }

  /** The first prepared entry with a given key is kept whole. */
  lemma {:induction false} KeepFirstWins(ps: seq<Person>, i: nat)
    requires i < |ps| && ps[i].name != []
    requires forall j :: 0 <= j < i ==> ps[j].name == [] || Lower(ps[j].name) != Lower(ps[i].name)
    ensures ps[i] in KeepFirst(ps)
  {
    var init := ps[..|ps| - 1];
    if i == |ps| - 1 {
      KeepFirstKeys(init, Lower(ps[i].name));
      assert forall j :: 0 <= j < |init| ==> init[j] == ps[j];
    } else {
      forall j | 0 <= j < i ensures init[j].name == [] || Lower(init[j].name) != Lower(init[i].name) {
        assert init[j] == ps[j];
      }
      KeepFirstWins(init, i);
    }
  }

  /** The key an input entry is compared by. */
  function Key(name: string): string {
    Lower(NormalizeSpace(name))
  }

  /** The first entry with a given name wins whole: its URL is kept, and a
      later entry with the same name never supplies one. */
  lemma DedupeAuthorsFirstWins(items: seq<Person>, i: nat)
    requires i < |items| && NormalizeSpace(items[i].name) != []
    requires forall j :: 0 <= j < i ==> Key(items[j].name) != Key(items[i].name)
    ensures Prepared(items[i]) in DedupedAuthors(items)
    ensures forall p :: p in DedupedAuthors(items) && Lower(p.name) == Key(items[i].name) ==> p == Prepared(items[i])
  {
    var ps := PreparedAll(items);
    KeepFirstWins(ps, i);
    KeepFirstProps(ps);
    var out := KeepFirst(ps);
    forall p | p in out && Lower(p.name) == Key(items[i].name) ensures p == Prepared(items[i]) {
      var a :| 0 <= a < |out| && out[a] == p;
      var b :| 0 <= b < |out| && out[b] == ps[i];
      assert Lower(out[a].name) == Lower(out[b].name);
      assert a == b;
    }
  }

  /** Every output entry is some input entry, prepared. */
  lemma DedupeAuthorsFrom(items: seq<Person>)
    ensures forall p :: p in DedupedAuthors(items) ==> exists i :: 0 <= i < |items| && p == Prepared(items[i])
  {
    KeepFirstProps(PreparedAll(items));
  }

  lemma DistinctInit(ps: seq<Person>)
    requires ps != [] && KeysDistinct(ps)
    ensures KeysDistinct(ps[..|ps| - 1])
  {
    var init := ps[..|ps| - 1];
    forall i, j | 0 <= i < j < |init|
      ensures Lower(init[i].name) != Lower(init[j].name)
    {
      assert init[i] == ps[i] && init[j] == ps[j];
    }
  }

  lemma DistinctLast(ps: seq<Person>)
    requires ps != [] && KeysDistinct(ps)
    ensures Lower(ps[|ps| - 1].name) !in KeysOf(ps[..|ps| - 1])
  {
    var init := ps[..|ps| - 1];
    forall j | 0 <= j < |init|
      ensures KeysOf(init)[j] != Lower(ps[|ps| - 1].name)
    {
      assert init[j] == ps[j];
    }
  }

  /** Prepared entries with distinct keys all pass. */
  lemma {:induction false} KeepFirstOfDistinct(ps: seq<Person>)
    requires forall i :: 0 <= i < |ps| ==> ps[i].name != []
    requires KeysDistinct(ps)
    ensures KeepFirst(ps) == ps
  {
    if ps != [] {
      var init := ps[..|ps| - 1];
      var p := ps[|ps| - 1];
      DistinctInit(ps);
      KeepFirstOfDistinct(init);
      DistinctLast(ps);
      assert init + [p] == ps;
    }
  }

  /** Entries already normalised, with distinct keys, all pass; only their
      URLs are cleaned again. */
  lemma DedupeAuthorsOfDistinct(xs: seq<Person>)
    requires forall i :: 0 <= i < |xs| ==> xs[i].name != [] && Normalized(xs[i].name)
    requires KeysDistinct(xs)
    ensures DedupedAuthors(xs) == seq(|xs|, i requires 0 <= i < |xs| => Person(xs[i].name, CleanUrl(xs[i].url)))
  {
    var ps := PreparedAll(xs);
    forall i | 0 <= i < |xs| ensures ps[i] == Person(xs[i].name, CleanUrl(xs[i].url)) {
      NormalizeSpaceFixed(xs[i].name);
    }
    KeepFirstOfDistinct(ps);
  }

  /** Cleaned entries are a fixed point. */
  lemma DedupeAuthorsIdempotentOnClean(items: seq<Person>)
    requires forall p :: p in DedupedAuthors(items) ==> IsClean(p.url)
    ensures DedupedAuthors(DedupedAuthors(items)) == DedupedAuthors(items)
  {
    var out := DedupedAuthors(items);
    DedupeAuthorsWellFormed(items);
    DedupeAuthorsOfDistinct(out);
    forall i | 0 <= i < |out| ensures CleanUrl(out[i].url) == out[i].url {
      assert out[i] in out;
      CleanUrlTwiceIsClean(out[i].url);
    }
  }

  // ---------------------------------------------------------------- JSON-LD authors

  /** A JSON-LD `name` or `url` field read as text: a string is itself, a
      missing or `null` field is "". Any other value is read as "" too,
      where the source's `normalizeSpace` or `cleanUrl` would throw. */
  function FieldText(obj: Json, key: string): string {
    match Get(obj, key)
    case Some(JStr(s)) => s
    case _ => ""
  }

  /** The `add` helper: a blank name adds nothing. */
  function Added(name: string, url: string): seq<Person> {
    var n := NormalizeSpace(name);
    if n == [] then [] else [Person(n, CleanUrl(url))]
  }

  /** What one element of an `author` array adds. */
  function EntryPeople(a: Json): seq<Person> {
    if a.JStr? then Added(a.s, "")
    else if IsObjectLike(a) then Added(FieldText(a, "name"), FieldText(a, "url"))
    else []
  }

  /** What the elements of an `author` array add, in order. */
  function ArrayPeople(xs: seq<Json>): seq<Person> {
    if xs == [] then [] else ArrayPeople(xs[..|xs| - 1]) + EntryPeople(xs[|xs| - 1])
  }

  /** The authors JSON-LD lists, before de-duplication. */
  function JsonLdPeople(jsonld: Option<Json>): seq<Person> {
    var jdAuth := if jsonld.Some? then Get(jsonld.value, "author") else None;
    if jdAuth.None? then []
    else
      var v := jdAuth.value;
      if v.JArr? then ArrayPeople(v.items)
      else if v.JObj? then Added(FieldText(v, "name"), FieldText(v, "url"))
      else if v.JStr? then Added(v.s, "")
      else []
  }

  /** The JSON-LD pass of `scrapeAuthors`. */
  method CollectJsonLdAuthors(jsonld: Option<Json>) returns (authors: seq<Person>)
    ensures authors == JsonLdPeople(jsonld)
  {
    authors := [];
    var jdAuth := if jsonld.Some? then Get(jsonld.value, "author") else None;
    if jdAuth.Some? && jdAuth.value.JArr? {
      var xs := jdAuth.value.items;
      for i := 0 to |xs|
        invariant authors == ArrayPeople(xs[..i])
      {
        assert xs[..i + 1][..i] == xs[..i];
        authors := authors + EntryPeople(xs[i]);
      }
      assert xs[..|xs|] == xs;
    } else if jdAuth.Some? && jdAuth.value.JObj? {
      authors := Added(FieldText(jdAuth.value, "name"), FieldText(jdAuth.value, "url"));
    } else if jdAuth.Some? && jdAuth.value.JStr? {
      authors := Added(jdAuth.value.s, "");
    }
  }

  /** The list needs links from the page when it is empty or some author
      has no URL. */
  predicate NeedFill(result: seq<Person>) {
    result == [] || exists i :: 0 <= i < |result| && result[i].url == []
  }

  // ---------------------------------------------------------------- byline containers

  /** `w` (lower case) occurs at `i` as a whole word, ignoring ASCII case:
      `\b` on both sides. */
  predicate WordAt(t: string, i: int, w: string) {
    && 0 <= i && i + |w| <= |t|
    && Lower(t[i..i + |w|]) == w
    && (i == 0 || !IsWordChar(t[i - 1]))
    && (i + |w| == |t| || !IsWordChar(t[i + |w|]))
  }

  /** `/(\bBy\b|\bWritten by\b|\bAuthor\b)/i.test(t)`. */
  predicate HasKeyword(t: string) {
    exists i :: 0 <= i <= |t| && (WordAt(t, i, "by") || WordAt(t, i, "written by") || WordAt(t, i, "author"))
  }

  /** The "Written by" alternative adds nothing: its "by" is a match of the
      first alternative. */
  lemma WrittenByHasBy(t: string, i: int)
    requires WordAt(t, i, "written by")
    ensures WordAt(t, i + 8, "by")
  {
    var w := t[i..i + 10];
    assert Lower(w)[7] == ' ';
    assert t[i + 7] == w[7];
    assert t[i + 8..i + 10] == w[8..10];
    assert Lower(w[8..10]) == Lower(w)[8..10];
  }

  /** "By " followed by anything has the keyword. */
  lemma ByPrefixHasKeyword(rest: string)
    ensures HasKeyword("By " + rest)
  {
    var t := "By " + rest;
    assert t[0..2] == "By";
    assert WordAt(t, 0, "by");
  }

  /** Text with none of the letters "b", "B", "u", "U" never has a keyword:
      "by" and "written by" need a "b", "author" needs a "u". */
  lemma NoKeywordWithoutB(t: string)
    requires 'b' !in t && 'B' !in t && 'u' !in t && 'U' !in t
    ensures !HasKeyword(t)
  {
    forall i | 0 <= i <= |t|
      ensures !WordAt(t, i, "by") && !WordAt(t, i, "written by") && !WordAt(t, i, "author")
    {
      assert i + 2 <= |t| ==> t[i] in t && Lower(t[i..i + 2])[0] == ToLower(t[i]);
      assert i + 10 <= |t| ==> t[i + 8] in t && Lower(t[i..i + 10])[8] == ToLower(t[i + 8]);
      assert i + 6 <= |t| ==> t[i + 1] in t && Lower(t[i..i + 6])[1] == ToLower(t[i + 1]);
    }
  }

  /** The elements kept as containers: text with the keyword and at least
      one author link. */
  function KeywordContainers(els: seq<Element>): seq<seq<Anchor>> {
    if els == [] then []
    else
      var e := els[|els| - 1];
      KeywordContainers(els[..|els| - 1]) + (if HasKeyword(e.text) && e.authorLinks != [] then [e.authorLinks] else [])
  }

  /** The keyword scan over `div`, `span` and `section` elements. */
  method CollectKeywordContainers(els: seq<Element>) returns (cs: seq<seq<Anchor>>)
    ensures cs == KeywordContainers(els)
  {
    cs := [];
    for i := 0 to |els|
      invariant cs == KeywordContainers(els[..i])
    {
      assert els[..i + 1][..i] == els[..i];
      if HasKeyword(els[i].text) && els[i].authorLinks != [] {
        cs := cs + [els[i].authorLinks];
      }
    }
    assert els[..|els|] == els;
  }

  // ---------------------------------------------------------------- candidates

  /** A JavaScript `Map` from string to string: entries in insertion order,
      one per key. */
  type Entries = seq<(string, string)>

  /** The position of `k`, or `|m|` when absent. */
  function KeyIndex(m: Entries, k: string): (i: nat)
    ensures i <= |m|
    ensures i < |m| ==> m[i].0 == k
    ensures forall j :: 0 <= j < i ==> m[j].0 != k
  {
    if m == [] then 0 else if m[0].0 == k then 0 else 1 + KeyIndex(m[1..], k)
  }

  /** `m.get(k)`. */
  function Lookup(m: Entries, k: string): Option<string> {
    var i := KeyIndex(m, k);
    if i < |m| then Some(m[i].1) else None
  }

  /** `m.set(k, v)`: a present key keeps its position and takes the new
      value; a new key goes last. */
  function Put(m: Entries, k: string, v: string): Entries {
    var i := KeyIndex(m, k);
    if i < |m| then m[i := (k, v)] else m + [(k, v)]
  }

  /** The keys of `m`, in order. */
  function EntryKeys(m: Entries): seq<string> {
    seq(|m|, i requires 0 <= i < |m| => m[i].0)
  }

  predicate EntryKeysDistinct(m: Entries) {
    forall i, j :: 0 <= i < j < |m| ==> m[i].0 != m[j].0
  }

  lemma KeyIndexOfKeys(m: Entries, m': Entries, k: string)
    requires EntryKeys(m) == EntryKeys(m')
    ensures KeyIndex(m, k) == KeyIndex(m', k)
  {
    assert |m| == |EntryKeys(m)| == |m'|;
    assert forall j :: 0 <= j < |m| ==> m[j].0 == EntryKeys(m)[j] == EntryKeys(m')[j] == m'[j].0;
  }

  lemma LookupAppend(m: Entries, k: string, v: string, k': string)
    requires KeyIndex(m, k) == |m| && k' != k
    ensures Lookup(m + [(k, v)], k') == Lookup(m, k')
  {
    var m2 := m + [(k, v)];
    assert forall j :: 0 <= j < |m| ==> m2[j] == m[j];
    assert m2[|m|].0 != k';
  }

  /** `Put` behaves as a map update: the key reads back its new value,
      other keys are untouched, existing keys keep their order, and keys
      stay distinct. */
  lemma PutSpec(m: Entries, k: string, v: string)
    requires EntryKeysDistinct(m)
    ensures EntryKeysDistinct(Put(m, k, v))
    ensures Lookup(Put(m, k, v), k) == Some(v)
    ensures forall k' :: k' != k ==> Lookup(Put(m, k, v), k') == Lookup(m, k')
    ensures EntryKeys(Put(m, k, v)) == EntryKeys(m) + (if Lookup(m, k).None? then [k] else [])
  {
    var i := KeyIndex(m, k);
    var m2 := Put(m, k, v);
    if i < |m| {
      assert EntryKeys(m2) == EntryKeys(m);
      forall k' | k' != k ensures Lookup(m2, k') == Lookup(m, k') {
        KeyIndexOfKeys(m2, m, k');
      }
      KeyIndexOfKeys(m2, m, k);
    } else {
      assert EntryKeys(m2) == EntryKeys(m) + [k];
      forall k' | k' != k ensures Lookup(m2, k') == Lookup(m, k') {
        LookupAppend(m, k, v, k');
      }
      assert m2[|m|] == (k, v);
    }
  }

  /** What one author link contributes to the candidate map: its
      lower-cased normalised name and its absolute URL, or nothing when the
      name is blank. */
  function LinkEntry(a: Anchor): Option<(string, string)> {
    var name := NormalizeSpace(a.text);
    if name == [] then None else Some((Lower(name), AbsAudibleUrl(a.href)))
  }

  function LinkEntries(links: seq<Anchor>): seq<Option<(string, string)>> {
    seq(|links|, j requires 0 <= j < |links| => LinkEntry(links[j]))
  }

  lemma LinkEntriesAppend(a: seq<Anchor>, b: seq<Anchor>)
    ensures LinkEntries(a + b) == LinkEntries(a) + LinkEntries(b)
  {
    var l, r := LinkEntries(a + b), LinkEntries(a) + LinkEntries(b);
    assert |l| == |r|;
    forall j | 0 <= j < |l| ensures l[j] == r[j] {
      assert l[j] == LinkEntry((a + b)[j]);
      if j < |a| {
        assert (a + b)[j] == a[j];
        assert r[j] == LinkEntries(a)[j] == LinkEntry(a[j]);
      } else {
        assert (a + b)[j] == b[j - |a|];
        assert r[j] == LinkEntries(b)[j - |a|] == LinkEntry(b[j - |a|]);
      }
    }
    assert l == r;
  }

  /** The map the `set` calls build from the link entries, in order. */
  function CandidatesOf(es: seq<Option<(string, string)>>): Entries {
    if es == [] then []
    else
      var m := CandidatesOf(es[..|es| - 1]);
      var e := es[|es| - 1];
      if e.None? then m else Put(m, e.value.0, e.value.1)
  }

  /** The candidate map built from the author links of the containers,
      flattened in order; the last link for a name gives the URL. */
  function Candidates(links: seq<Anchor>): Entries {
    CandidatesOf(LinkEntries(links))
  }

  lemma CandidatesOfSnoc(es: seq<Option<(string, string)>>, e: Option<(string, string)>)
    ensures CandidatesOf(es + [e]) == if e.None? then CandidatesOf(es) else Put(CandidatesOf(es), e.value.0, e.value.1)
  {
    assert (es + [e])[..|es|] == es;
  }

  /** One more entry of `es` after `before`: a present entry is put into
      the map, an absent one leaves it as it is. */
  lemma CandidatesOfStep(before: seq<Option<(string, string)>>, es: seq<Option<(string, string)>>, j: nat)
    requires j < |es|
    ensures CandidatesOf(before + es[..j + 1])
      == if es[j].None? then CandidatesOf(before + es[..j])
         else Put(CandidatesOf(before + es[..j]), es[j].value.0, es[j].value.1)
  {
    CandidatesOfSnoc(before + es[..j], es[j]);
    PrefixSnoc(es, j);
    AppendAssoc(before, es[..j], [es[j]]);
  }

  /** The inner loop of the candidate scan: one container's links. */
  method PutLinkEntries(cands0: Entries, ghost before: seq<Option<(string, string)>>, es: seq<Option<(string, string)>>)
    returns (cands: Entries)
    requires cands0 == CandidatesOf(before)
    ensures cands == CandidatesOf(before + es)
  {
    cands := cands0;
    assert before + es[..0] == before;
    for j := 0 to |es|
      invariant cands == CandidatesOf(before + es[..j])
    {
      var e := es[j];
      CandidatesOfStep(before, es, j);
      if e.Some? {
        cands := Put(cands, e.value.0, e.value.1);
      }
    }
    assert es[..|es|] == es;
  }

  lemma CandidatesStep(containers: seq<seq<Anchor>>, i: nat)
    requires i < |containers|
    ensures Candidates(Flatten(containers[..i + 1]))
      == CandidatesOf(LinkEntries(Flatten(containers[..i])) + LinkEntries(containers[i]))
  {
    LinkEntriesAppend(Flatten(containers[..i]), containers[i]);
    assert containers[..i + 1] == containers[..i] + [containers[i]];
    FlattenAppendOne(containers[..i], containers[i]);
  }

  /** The candidate scan over all containers. */
  method CollectCandidates(containers: seq<seq<Anchor>>) returns (cands: Entries)
    ensures cands == Candidates(Flatten(containers))
  {
    cands := [];
    for i := 0 to |containers|
      invariant cands == Candidates(Flatten(containers[..i]))
    {
      var es := LinkEntries(containers[i]);
      cands := PutLinkEntries(cands, LinkEntries(Flatten(containers[..i])), es);
      CandidatesStep(containers, i);
    }
    assert containers[..|containers|] == containers;
  }

  /** A link entry's key is non-empty, normalised and lower case. */
  predicate EntryOk(e: Option<(string, string)>) {
    e.Some? ==> e.value.0 != [] && Normalized(e.value.0) && Lower(e.value.0) == e.value.0
  }

  lemma LinkEntryOk(a: Anchor)
    ensures EntryOk(LinkEntry(a))
  {
    var name := NormalizeSpace(a.text);
    LowerNormalized(name);
    LowerIdempotent(name);
  }

  /** Candidate keys are distinct, non-empty, normalised and lower case. */
  predicate CandidatesOk(m: Entries) {
    && EntryKeysDistinct(m)
    && forall i :: 0 <= i < |m| ==> m[i].0 != [] && Normalized(m[i].0) && Lower(m[i].0) == m[i].0
  }

  lemma {:induction false} CandidatesOfWellFormed(es: seq<Option<(string, string)>>)
    requires forall j :: 0 <= j < |es| ==> EntryOk(es[j])
    ensures CandidatesOk(CandidatesOf(es))
  {
    if es != [] {
      var m := CandidatesOf(es[..|es| - 1]);
      CandidatesOfWellFormed(es[..|es| - 1]);
      var e := es[|es| - 1];
      assert EntryOk(e);
      if e.Some? {
        var k := e.value.0;
        PutSpec(m, k, e.value.1);
        var m2 := Put(m, k, e.value.1);
        forall i | 0 <= i < |m2| ensures m2[i].0 != [] && Normalized(m2[i].0) && Lower(m2[i].0) == m2[i].0 {
          assert m2[i].0 == EntryKeys(m2)[i];
          if i < |m| {
            assert EntryKeys(m2)[i] == EntryKeys(m)[i];
          }
        }
      }
    }
  }

  lemma CandidatesWellFormed(links: seq<Anchor>)
    ensures CandidatesOk(Candidates(links))
  {
    forall j | 0 <= j < |links| ensures EntryOk(LinkEntries(links)[j]) {
      LinkEntryOk(links[j]);
    }
    CandidatesOfWellFormed(LinkEntries(links));
  }

  lemma {:induction false} CandidatesOfDistinct(es: seq<Option<(string, string)>>)
    ensures EntryKeysDistinct(CandidatesOf(es))
  {
    if es != [] {
      CandidatesOfDistinct(es[..|es| - 1]);
      var e := es[|es| - 1];
      if e.Some? {
        PutSpec(CandidatesOf(es[..|es| - 1]), e.value.0, e.value.1);
      }
    }
  }

  /** The last entry for a key decides that key's value. */
  lemma {:induction false} CandidatesOfLastWins(es: seq<Option<(string, string)>>, i: nat)
    requires i < |es| && es[i].Some?
    requires forall j :: i < j < |es| ==> es[j].None? || es[j].value.0 != es[i].value.0
    ensures Lookup(CandidatesOf(es), es[i].value.0) == Some(es[i].value.1)
  {
    var init := es[..|es| - 1];
    var e := es[|es| - 1];
    if e.Some? {
      CandidatesOfDistinct(init);
      PutSpec(CandidatesOf(init), e.value.0, e.value.1);
    }
    if i < |es| - 1 {
      assert forall j :: 0 <= j < |init| ==> init[j] == es[j];
      CandidatesOfLastWins(init, i);
    }
  }

  /** The last link with a given name decides that name's URL. */
  lemma CandidatesLastWins(links: seq<Anchor>, i: nat)
    requires i < |links| && LinkEntry(links[i]).Some?
    requires forall j :: i < j < |links| ==> LinkEntry(links[j]).None? || LinkEntry(links[j]).value.0 != LinkEntry(links[i]).value.0
    ensures Lookup(Candidates(links), LinkEntry(links[i]).value.0) == Some(LinkEntry(links[i]).value.1)
  {
    CandidatesOfLastWins(LinkEntries(links), i);
  }

  // ---------------------------------------------------------------- filling and synthesis

  function LookupOr(m: Entries, k: string): string {
    if Lookup(m, k).Some? then Lookup(m, k).value else ""
  }

  /** `result.map(…)`: an author without URL takes the candidate URL for
      its lower-cased name, or "". */
  function Filled(result: seq<Person>, cands: Entries): seq<Person> {
    seq(|result|, i requires 0 <= i < |result| =>
      if result[i].url != [] then result[i]
      else Person(result[i].name, CleanUrl(LookupOr(cands, Lower(result[i].name)))))
  }

  /** `k.replace(/\b\w/g, c => c.toUpperCase())`: a word character that
      starts a word is upper-cased. */
  function TitleCase(k: string): string {
    seq(|k|, i requires 0 <= i < |k| =>
      if IsWordChar(k[i]) && (i == 0 || !IsWordChar(k[i - 1])) then ToUpper(k[i]) else k[i])
  }

  /** The authors made from the candidates, one per entry. */
  function Synthesized(cands: Entries): seq<Person> {
    seq(|cands|, i requires 0 <= i < |cands| => Person(TitleCase(cands[i].0), CleanUrl(cands[i].1)))
  }

  /** The loop over the candidate entries when JSON-LD names nobody. */
  method SynthesizeAuthors(cands: Entries) returns (filled: seq<Person>)
    ensures filled == Synthesized(cands)
  {
    filled := [];
    for i := 0 to |cands|
      invariant |filled| == i
      invariant forall j :: 0 <= j < i ==> filled[j] == Person(TitleCase(cands[j].0), CleanUrl(cands[j].1))
    {
      filled := filled + [Person(TitleCase(cands[i].0), CleanUrl(cands[i].1))];
    }
  }

  /** `scrapeAuthors`. */
  function ScrapedAuthors(jsonld: Option<Json>, bylines: seq<seq<Anchor>>, els: seq<Element>): seq<Person> {
    var result := DedupedAuthors(JsonLdPeople(jsonld));
    if !NeedFill(result) then result
    else
      var cands := Candidates(Flatten(bylines + KeywordContainers(els)));
      if result != [] then DedupedAuthors(Filled(result, cands))
      else DedupedAuthors(Synthesized(cands))
  }

  /** `scrapeAuthors`, in its own order of passes. */
  method ScrapeAuthors(jsonld: Option<Json>, bylines: seq<seq<Anchor>>, els: seq<Element>) returns (r: seq<Person>)
    ensures r == ScrapedAuthors(jsonld, bylines, els)
  {
    var authors := CollectJsonLdAuthors(jsonld);
    var result := DedupeAuthorsByName(authors);
    if !NeedFill(result) {
      return result;
    }
    var keyword := CollectKeywordContainers(els);
    var cands := CollectCandidates(bylines + keyword);
    if |result| > 0 {
      r := DedupeAuthorsByName(Filled(result, cands));
      return;
    }
    var filled := SynthesizeAuthors(cands);
    r := DedupeAuthorsByName(filled);
  }

  /** Whatever the page, the authors have normalised non-empty names that
      differ ignoring case, and URLs without query or fragment. */
  lemma ScrapedAuthorsWellFormed(jsonld: Option<Json>, bylines: seq<seq<Anchor>>, els: seq<Element>)
    ensures PeopleOk(ScrapedAuthors(jsonld, bylines, els)) && KeysDistinct(ScrapedAuthors(jsonld, bylines, els))
  {
    var result := DedupedAuthors(JsonLdPeople(jsonld));
    DedupeAuthorsWellFormed(JsonLdPeople(jsonld));
    var cands := Candidates(Flatten(bylines + KeywordContainers(els)));
    DedupeAuthorsWellFormed(Filled(result, cands));
    DedupeAuthorsWellFormed(Synthesized(cands));
  }

  /** When JSON-LD gives every author a URL, the page is never consulted. */
  lemma CompleteAuthorsIgnorePage(jsonld: Option<Json>, bylines: seq<seq<Anchor>>, els: seq<Element>)
    requires !NeedFill(DedupedAuthors(JsonLdPeople(jsonld)))
    ensures ScrapedAuthors(jsonld, bylines, els) == DedupedAuthors(JsonLdPeople(jsonld))
    ensures ScrapedAuthors(jsonld, bylines, els) == ScrapedAuthors(jsonld, [], [])
  {
  }

  /** Filling changes only URLs, and only of authors that had none: the
      list keeps its length, order and names; a present URL is only cleaned
      again; a missing one becomes the candidate URL for the name, or stays
      empty. */
  lemma FillKeepsAuthors(result: seq<Person>, cands: Entries)
    requires PeopleOk(result) && KeysDistinct(result)
    ensures var out := DedupedAuthors(Filled(result, cands));
      && |out| == |result|
      && forall i :: 0 <= i < |result| ==>
        && out[i].name == result[i].name
        && (result[i].url != [] ==> out[i].url == CleanUrl(result[i].url))
        && (result[i].url == [] ==> out[i].url == CleanUrl(CleanUrl(LookupOr(cands, Lower(result[i].name)))))
  {
    var f := Filled(result, cands);
    assert forall i :: 0 <= i < |f| ==> f[i].name == result[i].name;
    DedupeAuthorsOfDistinct(f);
  }

  /** Upper-casing word starts changes neither the lower-case form nor the
      whitespace. */
  lemma TitleCaseProps(k: string)
    ensures Lower(TitleCase(k)) == Lower(k)
    ensures Normalized(k) ==> Normalized(TitleCase(k))
    ensures k != [] ==> TitleCase(k) != []
  {
  }

  /** When JSON-LD names nobody, every candidate becomes one author, in
      candidate order, named by its key with word starts upper-cased. */
  lemma SynthesizedKeepsCandidates(cands: Entries)
    requires CandidatesOk(cands)
    ensures var out := DedupedAuthors(Synthesized(cands));
      && |out| == |cands|
      && forall i :: 0 <= i < |cands| ==>
        && out[i].name == TitleCase(cands[i].0) && Lower(out[i].name) == cands[i].0
        && out[i].url == CleanUrl(CleanUrl(cands[i].1))
  {
    var s := Synthesized(cands);
    forall i | 0 <= i < |s| ensures s[i].name != [] && Normalized(s[i].name) && Lower(s[i].name) == cands[i].0 {
      TitleCaseProps(cands[i].0);
    }
    DedupeAuthorsOfDistinct(s);
  }

  /** The page fallback of `scrapeAuthors` in terms of the candidates. */
  lemma ScrapedAuthorsFromPage(jsonld: Option<Json>, bylines: seq<seq<Anchor>>, els: seq<Element>)
    requires DedupedAuthors(JsonLdPeople(jsonld)) == []
    ensures var cands := Candidates(Flatten(bylines + KeywordContainers(els)));
      var out := ScrapedAuthors(jsonld, bylines, els);
      && |out| == |cands|
      && forall i :: 0 <= i < |cands| ==>
        out[i].name == TitleCase(cands[i].0) && out[i].url == CleanUrl(CleanUrl(cands[i].1))
  {
    var cands := Candidates(Flatten(bylines + KeywordContainers(els)));
    CandidatesWellFormed(Flatten(bylines + KeywordContainers(els)));
    SynthesizedKeepsCandidates(cands);
  }
}

=== FILE: book.dfy ===
/** `scrapeAudible` (main.ts:472-514): the book record assembled from one
    product page, with the page's DOM and parsed JSON-LD blocks given as
    plain inputs. */
module Book {
  import opened Wrappers
  import opened Strings
  import opened Normalize
  import opened Dedupe
  import JsonLd
  import Fields
  import Authors
  import Series
  import PageTags
  import Render

  /** What the product page offers the scrapers. */
  datatype Page = Page(
    jsonLdBlocks: seq<Option<JsonLd.Json>>,   // each `ld+json` block, None when it failed to parse
    ogTitle: Fields.Meta,
    ogImage: Fields.Meta,
    ogDescription: Fields.Meta,
    bylines: seq<seq<Authors.Anchor>>,         // author links of each byline container
    authorElements: seq<Authors.Element>,      // elements searched for "By:" / "Written by"
    seriesDetail: Option<Series.Line>,         // the series line of the product details
    seriesLines: seq<Series.Line>,             // the other candidate lines
    seriesLink: Option<Series.PageLink>,       // the first `/series/` link and its ancestors
    tagChips: seq<string>,
    categoryLinks: seq<string>)

  /** The settings `scrapeAudible` reads (main.ts:31-40). */
  datatype CreatorSettings = CreatorSettings(
    defaultStatus: string,
    defaultAcquired: string,
    defaultSource: string,
    defaultRating: string,
    baseTags: seq<string>,
    adultFantasyTags: seq<string>)

  /** `DEFAULT_SETTINGS` (main.ts:42-51). */
  const DefaultSettings := CreatorSettings("", "Owned", "Audible", "⭐⭐⭐", ["Book", "Audible"], ["Adult", "Fantasy", "Erotic"])

  /** The JSON-LD object the scrapers read. */
  function JsonLdOf(page: Page): Option<JsonLd.Json> {
    JsonLd.PickBookish(JsonLd.Collected(page.jsonLdBlocks))
  }

  /** The record `scrapeAudible` returns. */
  function BookOf(page: Page, url: string, category: string, settings: CreatorSettings): Render.BookData {
    var jsonld := JsonLdOf(page);
    var tu := Fields.ScrapeTitleAndUrl(jsonld, page.ogTitle, url);
    Render.BookData(
      NormalizeTitleAsWritten(tu.title),
      CleanUrl(tu.url),
      Fields.ScrapeCover(jsonld, page.ogImage),
      Authors.ScrapedAuthors(jsonld, page.bylines, page.authorElements),
      Series.SeriesOf(page.seriesDetail, page.seriesLines, page.seriesLink),
      Fields.ScrapeDescription(jsonld, page.ogDescription),
      category,
      settings.defaultStatus,
      settings.defaultAcquired,
      settings.defaultSource,
      settings.defaultRating,
      PageTags.BookTags(settings.baseTags, PageTags.ScrapedTags(page.tagChips, page.categoryLinks, jsonld), category, settings.adultFantasyTags),
      "book")
  }

  /** The tag pushes of `scrapeAudible` (main.ts:490-497) and the final
      `dedupeKeepOrder`. */
  method PushBookTags(baseTags: seq<string>, scraped: seq<string>, category: string, adultTags: seq<string>)
    returns (tags: seq<string>)
    ensures tags == PageTags.BookTags(baseTags, scraped, category, adultTags)
  {
    tags := [];
    tags := tags + baseTags;
    tags := tags + scraped;
    if Lower(Trim(category)) == PageTags.AdultFantasy {
      tags := tags + adultTags;
    } else {
      assert tags + [] == tags;
    }
    assert [] + baseTags == baseTags;
    tags := DedupeKeepOrder(tags);
  }

  /** `scrapeAudible` after the page has been fetched and parsed: the
      scrapers in source order, then the tag pushes and the final
      deduplication. It fails with the TypeError of `pickBookishJsonLd`
      when a JSON-LD `@type` does not convert to a string, and otherwise
      returns `BookOf`. */
  method ScrapeAudible(page: Page, url: string, category: string, settings: CreatorSettings)
    returns (book: Result<Render.BookData, string>)
    ensures var picked := JsonLd.PickBookishOutcome(JsonLd.Collected(page.jsonLdBlocks));
      && (picked.Err? ==> book == Err(JsonLd.ToPrimitiveError))
      && (picked.Ok? ==> book == Ok(BookOf(page, url, category, settings)))
  {
    var jsonlds := JsonLd.ExtractJsonLdObjects(page.jsonLdBlocks);
    var picked := JsonLd.PickBookishOutcome(jsonlds);
    JsonLd.PickBookishSpec(jsonlds);
    JsonLd.SearchOutcomeSpec(jsonlds);
    if picked.Err? {
      return Err(picked.error);
    }
    var jsonld := picked.value;
    var tu := Fields.ScrapeTitleAndUrl(jsonld, page.ogTitle, url);
    var title := NormalizeTitleAsWritten(tu.title);
    var coverUrl := Fields.ScrapeCover(jsonld, page.ogImage);
    var description := Fields.ScrapeDescription(jsonld, page.ogDescription);
    var authors := Authors.ScrapeAuthors(jsonld, page.bylines, page.authorElements);
    var series := Series.ScrapeSeries(page.seriesDetail, page.seriesLines, page.seriesLink);

    var scraped := PageTags.ScrapeTags(page.tagChips, page.categoryLinks, jsonld);
    var tags := PushBookTags(settings.baseTags, scraped, category, settings.adultFantasyTags);

    book := Ok(Render.BookData(title, CleanUrl(tu.url), coverUrl, authors, series, description, category,
      settings.defaultStatus, settings.defaultAcquired, settings.defaultSource, settings.defaultRating, tags, "book"));
  }

  /** The title is a safe file name of at most 180 characters. (It can end
      in a dot; see `CorrectedBookOf`.) */
  lemma BookTitleShape(page: Page, url: string, category: string, settings: CreatorSettings)
    ensures var b := BookOf(page, url, category, settings);
      Normalized(b.title) && AllTitleSafe(b.title) && |b.title| <= MaxTitleLength
  {
    var tu := Fields.ScrapeTitleAndUrl(JsonLdOf(page), page.ogTitle, url);
    BookTitleAndUrlOf(page, url, category, settings);
    NormalizedTitleShape(BookOf(page, url, category, settings), tu.title);
  }

  /** A record whose title went through `normalizeTitle` has a safe title. */
  lemma NormalizedTitleShape(b: Render.BookData, title: string)
    requires b.title == NormalizeTitleAsWritten(title)
    ensures Normalized(b.title) && AllTitleSafe(b.title) && |b.title| <= MaxTitleLength
  {
    NormalizeTitleAsWrittenSafe(title);
  }

  /** The record with the corrected title normaliser in place of the one
      `scrapeAudible` calls; every other field is the same. */
  function CorrectedBookOf(page: Page, url: string, category: string, settings: CreatorSettings): Render.BookData {
    var tu := Fields.ScrapeTitleAndUrl(JsonLdOf(page), page.ogTitle, url);
    BookOf(page, url, category, settings).(title := NormalizeTitle(tu.title))
  }

  /** The corrected record differs from `BookOf` in the title alone, and
      its title is a safe file name of at most 180 characters that never
      ends in a dot. */
  lemma CorrectedBookShape(page: Page, url: string, category: string, settings: CreatorSettings)
    ensures var c := CorrectedBookOf(page, url, category, settings);
      var b := BookOf(page, url, category, settings);
      && c.(title := b.title) == b
      && Normalized(c.title) && AllTitleSafe(c.title) && |c.title| <= MaxTitleLength
      && (c.title == [] || c.title[|c.title| - 1] != '.')
  {
    var tu := Fields.ScrapeTitleAndUrl(JsonLdOf(page), page.ogTitle, url);
    CorrectedTitleShape(CorrectedBookOf(page, url, category, settings), BookOf(page, url, category, settings), tu.title);
  }

  /** A record that is another with its title replaced by the corrected
      normalisation. */
  lemma CorrectedTitleShape(c: Render.BookData, b: Render.BookData, title: string)
    requires c == b.(title := NormalizeTitle(title))
    ensures c.(title := b.title) == b
    ensures Normalized(c.title) && AllTitleSafe(c.title) && |c.title| <= MaxTitleLength
    ensures c.title == [] || c.title[|c.title| - 1] != '.'
  {
  }

  /** The URL is trimmed, with no query or fragment. */
  lemma BookUrlShape(page: Page, url: string, category: string, settings: CreatorSettings)
    ensures IsClean(BookOf(page, url, category, settings).url)
  {
    var tu := Fields.ScrapeTitleAndUrl(JsonLdOf(page), page.ogTitle, url);
    ScrapedUrlCleanAgain(JsonLdOf(page), page.ogTitle, url);
    assert BookOf(page, url, category, settings).url == CleanUrl(tu.url);
  }

  /** The record's title and URL are the scraped ones, normalised and
      cleaned once more. */
  lemma BookTitleAndUrlOf(page: Page, url: string, category: string, settings: CreatorSettings)
    ensures var tu := Fields.ScrapeTitleAndUrl(JsonLdOf(page), page.ogTitle, url);
      var b := BookOf(page, url, category, settings);
      b.title == NormalizeTitleAsWritten(tu.title) && b.url == CleanUrl(tu.url)
  {
  }

  /** The scraped URL comes out of the second cleaning clean. */
  lemma ScrapedUrlCleanAgain(jsonld: Option<JsonLd.Json>, ogTitle: Fields.Meta, url: string)
    ensures IsClean(CleanUrl(Fields.ScrapeTitleAndUrl(jsonld, ogTitle, url).url))
  {
    var tu := Fields.ScrapeTitleAndUrl(jsonld, ogTitle, url);
    Fields.TitleAndUrlShape(jsonld, ogTitle, url);
    if tu.url == CleanUrl(url) {
      CleanedAgainIsClean(tu.url, url, url);
    } else {
      CleanedAgainIsClean(tu.url, url, Fields.StringField(jsonld, "url").value);
    }
  }

  /** A URL that is already the cleaning of one of two candidates comes out
      of a second cleaning clean. */
  lemma CleanedAgainIsClean(u: string, a: string, b: string)
    requires u == CleanUrl(a) || u == CleanUrl(b)
    ensures IsClean(CleanUrl(u))
  {
    if u == CleanUrl(a) {
      CleanUrlTwiceIsClean(a);
    } else {
      CleanUrlTwiceIsClean(b);
    }
  }

  /** The cover URL has no query or fragment and the description is
      space-normalised. */
  lemma BookCoverAndDescriptionShape(page: Page, url: string, category: string, settings: CreatorSettings)
    ensures var b := BookOf(page, url, category, settings);
      && '?' !in b.coverUrl && '#' !in b.coverUrl
      && Normalized(b.description)
  {
    var jsonld := JsonLdOf(page);
    Fields.CoverIsClean(jsonld, page.ogImage);
    Fields.DescriptionSpec(jsonld, page.ogDescription);
  }

  /** The authors have normalised, non-empty names that differ ignoring
      case; a series, when present, has a name, a clean URL and a book
      number of digits; the category is kept as given and the record is of
      kind "book" with the settings' defaults. */
  lemma BookRecordShape(page: Page, url: string, category: string, settings: CreatorSettings)
    ensures var b := BookOf(page, url, category, settings);
      && Authors.PeopleOk(b.authors) && Authors.KeysDistinct(b.authors)
      && (b.series.Some? ==>
            b.series.value.name != [] && b.series.value.url != []
            && '?' !in b.series.value.url && '#' !in b.series.value.url
            && Series.AllDigits(b.series.value.book))
      && b.category == category && b.kind == "book"
      && b.status == settings.defaultStatus && b.acquired == settings.defaultAcquired
      && b.source == settings.defaultSource && b.rating == settings.defaultRating
  {
    var jsonld := JsonLdOf(page);
    Authors.ScrapedAuthorsWellFormed(jsonld, page.bylines, page.authorElements);
    Series.SeriesShape(page.seriesDetail, page.seriesLines, page.seriesLink);
  }

  /** The tags are trimmed, non-empty and distinct, and start with the
      deduplicated base tags. */
  lemma BookTagsShape(page: Page, url: string, category: string, settings: CreatorSettings)
    ensures var b := BookOf(page, url, category, settings);
      && AllTrimmedNonEmpty(b.tags) && Distinct(b.tags)
      && Deduped(settings.baseTags) <= b.tags
  {
    var scraped := PageTags.ScrapedTags(page.tagChips, page.categoryLinks, JsonLdOf(page));
    PageTags.BookTagsSpec(settings.baseTags, scraped, category, settings.adultFantasyTags, []);
  }

  /** Base tags are not junk-filtered: with the default settings every book
      is tagged "Book" and "Audible", first and in that order, although
      "audible" is dropped from the page's own tags. */
  lemma DefaultBaseTagsFirst(scraped: seq<string>, category: string)
    ensures var t := PageTags.BookTags(DefaultSettings.baseTags, scraped, category, DefaultSettings.adultFantasyTags);
      |t| >= 2 && t[..2] == ["Book", "Audible"]
  {
    PageTags.CleanBaseTagsFirst(DefaultSettings.baseTags, scraped, category, DefaultSettings.adultFantasyTags);
  }
}

=== FILE: dedupe.dfy ===
/** `dedupeKeepOrder` (main.ts, and the identical copy in settings.ts): trim
    every entry, drop empty ones and repeats (compared exactly, so
    case-sensitively), and keep first-occurrence order. */
module Dedupe {
  import opened Strings

  /** The list `dedupeKeepOrder` returns, built from the back: the last item
      is kept (trimmed) when it is non-empty and not already kept. */
  function Deduped(items: seq<string>): seq<string> {
    if items == [] then []
    else
      var rest := Deduped(items[..|items| - 1]);
      var v := Trim(items[|items| - 1]);
      if v == [] || v in rest then rest else rest + [v]
  }

  /** No entry appears twice. */
  predicate Distinct(xs: seq<string>) {
    forall i, j :: 0 <= i < j < |xs| ==> xs[i] != xs[j]
  }

  /** Every entry is trimmed and non-empty. */
  predicate AllTrimmedNonEmpty(xs: seq<string>) {
    forall i :: 0 <= i < |xs| ==> xs[i] != [] && Trimmed(xs[i])
  }

  /** The `seen`-set loop of `dedupeKeepOrder`. */
  method DedupeKeepOrder(items: seq<string>) returns (out: seq<string>)
    ensures out == Deduped(items)
  {
    var seen: set<string> := {};
    out := [];
    for i := 0 to |items|
      invariant out == Deduped(items[..i])
      invariant forall v :: v in seen <==> v in out
    {
      assert items[..i + 1][..i] == items[..i];
      var v := Trim(items[i]);
      if v != [] && v !in seen {
        seen := seen + {v};
        out := out + [v];
      }
    }
    assert items[..|items|] == items;
  }

  /** The output is trimmed, non-empty and duplicate-free. */
  lemma {:induction false} DedupeWellFormed(items: seq<string>)
    ensures AllTrimmedNonEmpty(Deduped(items)) && Distinct(Deduped(items))
  {
    if items != [] {
      DedupeWellFormed(items[..|items| - 1]);
      TrimIsSlice(items[|items| - 1]);
    }
  }

  /** Membership after one more item: what was kept before, or the new
      item's non-empty trimmed form. */
  lemma DedupedSnocMembers(items: seq<string>, v: string)
    requires items != []
    ensures var t := Trim(items[|items| - 1]);
      v in Deduped(items) <==> v in Deduped(items[..|items| - 1]) || (v == t && t != [])
  {
    var rest := Deduped(items[..|items| - 1]);
    var t := Trim(items[|items| - 1]);
    if t == [] || t in rest {
      assert Deduped(items) == rest;
    } else {
      assert Deduped(items) == rest + [t];
      assert v in rest + [t] <==> v in rest || v == t;
    }
  }

  /** Some item maps to `v` exactly when one before the last does or the
      last does. */
  lemma SomewhereSnoc(items: seq<string>, init: seq<string>, f: string -> string, v: string)
    requires items != [] && init == items[..|items| - 1]
    ensures (exists i :: 0 <= i < |items| && f(items[i]) == v) <==>
      (exists i :: 0 <= i < |init| && f(init[i]) == v) || f(items[|items| - 1]) == v
  {
    if exists i :: 0 <= i < |items| && f(items[i]) == v {
      var i :| 0 <= i < |items| && f(items[i]) == v;
      if i < |init| {
        assert init[i] == items[i];
      }
    }
    if exists i :: 0 <= i < |init| && f(init[i]) == v {
      var i :| 0 <= i < |init| && f(init[i]) == v;
      assert items[i] == init[i];
    }
  }

  /** A string is kept exactly when it is the non-empty trimmed form of some
      input. */
  lemma {:induction false} DedupeMembers(items: seq<string>, v: string)
    ensures v in Deduped(items) <==>
      v != [] && exists i :: 0 <= i < |items| && Trim(items[i]) == v
  {
    if items != [] {
      DedupeMembers(items[..|items| - 1], v);
      DedupedSnocMembers(items, v);
      SomewhereSnoc(items, items[..|items| - 1], Trim, v);
    }
  }

  /** Membership in the deduplication of a concatenation. */
  lemma DedupeConcatMembers(a: seq<string>, b: seq<string>, v: string)
    ensures v in Deduped(a + b) <==>
      v != [] && ((exists i :: 0 <= i < |a| && Trim(a[i]) == v) || (exists i :: 0 <= i < |b| && Trim(b[i]) == v))
  {
    var all := a + b;
    DedupeMembers(all, v);
    if v != [] && exists i :: 0 <= i < |all| && Trim(all[i]) == v {
      var i :| 0 <= i < |all| && Trim(all[i]) == v;
      if i >= |a| {
        assert all[i] == b[i - |a|];
      }
    }
    if v != [] && exists i :: 0 <= i < |b| && Trim(b[i]) == v {
      var i :| 0 <= i < |b| && Trim(b[i]) == v;
      assert all[|a| + i] == b[i];
    }
    if v != [] && exists i :: 0 <= i < |a| && Trim(a[i]) == v {
      var i :| 0 <= i < |a| && Trim(a[i]) == v;
      assert all[i] == a[i];
    }
  }

  /** When every input is already trimmed, every output is one of the inputs. */
  lemma {:induction false} DedupeFromInputs(items: seq<string>)
    requires forall i :: 0 <= i < |items| ==> Trimmed(items[i])
    ensures forall v :: v in Deduped(items) ==> v in items
  {
    if items != [] {
      var init := items[..|items| - 1];
      DedupeFromInputs(init);
      TrimOfTrimmed(items[|items| - 1]);
      assert forall v :: v in init ==> v in items;
    }
  }

  /** Appending items never disturbs what was already kept: the output for a
      prefix is a prefix of the output. */
  lemma {:induction false} DedupePrefix(a: seq<string>, b: seq<string>)
    ensures Deduped(a) <= Deduped(a + b)
    decreases |b|
  {
    if b == [] {
      assert a + b == a;
    } else {
      var b' := b[..|b| - 1];
      assert (a + b)[..|a + b| - 1] == a + b';
      DedupePrefix(a, b');
    }
  }

  /** Already trimmed, non-empty, distinct entries pass through unchanged. */
  lemma {:induction false} DedupeOfDeduped(xs: seq<string>)
    requires AllTrimmedNonEmpty(xs) && Distinct(xs)
    ensures Deduped(xs) == xs
  {
    if xs != [] {
      var init := xs[..|xs| - 1];
      DedupeOfDeduped(init);
      TrimOfTrimmed(xs[|xs| - 1]);
      assert init + [xs[|xs| - 1]] == xs;
    }
  }

  /** `dedupeKeepOrder` is idempotent. */
  lemma DedupeIdempotent(items: seq<string>)
    ensures Deduped(Deduped(items)) == Deduped(items)
  {
    DedupeWellFormed(items);
    DedupeOfDeduped(Deduped(items));
  }

  /** Blank entries only give the empty list. */
  lemma {:induction false} DedupeAllBlank(items: seq<string>)
    requires forall i :: 0 <= i < |items| ==> AllSpace(items[i])
    ensures Deduped(items) == []
  {
    if items != [] {
      DedupeAllBlank(items[..|items| - 1]);
      TrimEmptyIffAllSpace(items[|items| - 1]);
    }
  }
}

=== FILE: fields.dfy ===
/** The single-valued scrapers (main.ts:183-222): title and canonical URL,
    cover image and description, each read from the chosen JSON-LD object
    first and from the page's Open Graph `<meta>` tags after that. */
module Fields {
  import opened Wrappers
  import opened Strings
  import opened Normalize
  import opened JsonLd

  /** What the page offers for one Open Graph key: the `content` of the
      first `meta[property=…]` element, if there is one, and of the first
      `meta[name=…]` element. A present element with no `content` gives "". */
  datatype Meta = Meta(byProperty: Option<string>, byName: Option<string>)

  /** `propertyMeta?.content ?? nameMeta?.content ?? ""`: the property form
      wins whenever the element exists, even with empty content. */
  function MetaContent(m: Meta): string {
    if m.byProperty.Some? then m.byProperty.value
    else if m.byName.Some? then m.byName.value
    else ""
  }

  /** `typeof jsonld?.[key] === "string" ? jsonld[key] : …`. */
  function StringField(jsonld: Option<Json>, key: string): Option<string> {
    if jsonld.Some? && Get(jsonld.value, key).Some? && Get(jsonld.value, key).value.JStr? then
      Some(Get(jsonld.value, key).value.s)
    else None
  }

  // ---------------------------------------------------------------- scrapeTitleAndUrl

  datatype TitleAndUrl = TitleAndUrl(title: string, url: string)

  const UnknownTitle: string := "Unknown Title"

  /** `scrapeTitleAndUrl`. */
  function ScrapeTitleAndUrl(jsonld: Option<Json>, ogTitle: Meta, inputUrl: string): TitleAndUrl {
    var jdTitle := if StringField(jsonld, "name").Some? then NormalizeSpace(StringField(jsonld, "name").value) else "";
    var jdUrl := if StringField(jsonld, "url").Some? then CleanUrl(StringField(jsonld, "url").value) else "";
    if jdTitle != [] then TitleAndUrl(jdTitle, if jdUrl != [] then jdUrl else CleanUrl(inputUrl))
    else
      var og := MetaContent(ogTitle);
      if og != [] then TitleAndUrl(NormalizeSpace(og), CleanUrl(inputUrl))
      else TitleAndUrl(UnknownTitle, CleanUrl(inputUrl))
  }

  lemma UnknownTitleNormalized()
    ensures Normalized(UnknownTitle)
  {
    assert forall i :: 0 <= i < |UnknownTitle| - 1 ==> UnknownTitle[i] != ' ' || UnknownTitle[i + 1] != ' ';
  }

  /** The title is always space-normalised, and the URL never keeps a query
      or a fragment; the page URL is used unless JSON-LD gave both a title
      and a URL. */
  lemma TitleAndUrlShape(jsonld: Option<Json>, ogTitle: Meta, inputUrl: string)
    ensures var r := ScrapeTitleAndUrl(jsonld, ogTitle, inputUrl);
      && Normalized(r.title)
      && '?' !in r.url && '#' !in r.url
      && (r.url == CleanUrl(inputUrl) || r.url == CleanUrl(StringField(jsonld, "url").value))
  {
    UnknownTitleNormalized();
  }

  /** A JSON-LD `name` that is not blank decides the title, and a non-empty
      cleaned JSON-LD `url` then decides the URL. */
  lemma JsonLdTitleWins(jsonld: Option<Json>, ogTitle: Meta, inputUrl: string, name: string, url: string)
    requires StringField(jsonld, "name") == Some(name) && !AllSpace(name)
    requires StringField(jsonld, "url") == Some(url) && CleanUrl(url) != []
    ensures ScrapeTitleAndUrl(jsonld, ogTitle, inputUrl) == TitleAndUrl(NormalizeSpace(name), CleanUrl(url))
  {
    NormalizeSpaceBlank(name);
  }

  /** A JSON-LD `name` that is not blank decides the title; when the
      JSON-LD `url` is missing or cleans to "", the page URL is used. */
  lemma JsonLdTitlePageUrl(jsonld: Option<Json>, ogTitle: Meta, inputUrl: string, name: string)
    requires StringField(jsonld, "name") == Some(name) && !AllSpace(name)
    requires StringField(jsonld, "url").None? || CleanUrl(StringField(jsonld, "url").value) == []
    ensures ScrapeTitleAndUrl(jsonld, ogTitle, inputUrl) == TitleAndUrl(NormalizeSpace(name), CleanUrl(inputUrl))
  {
    NormalizeSpaceBlank(name);
  }

  /** Without a usable JSON-LD name the Open Graph title is used, however
      the JSON-LD `url` reads. */
  lemma OgTitleFallback(jsonld: Option<Json>, ogTitle: Meta, inputUrl: string)
    requires StringField(jsonld, "name").None? || AllSpace(StringField(jsonld, "name").value)
    requires MetaContent(ogTitle) != []
    ensures ScrapeTitleAndUrl(jsonld, ogTitle, inputUrl)
      == TitleAndUrl(NormalizeSpace(MetaContent(ogTitle)), CleanUrl(inputUrl))
  {
    if StringField(jsonld, "name").Some? {
      NormalizeSpaceBlank(StringField(jsonld, "name").value);
    }
  }

  /** An Open Graph title made of spaces only is still "found": the title
      comes back empty rather than "Unknown Title". */
  lemma BlankOgTitleGivesEmptyTitle(ogTitle: Meta, inputUrl: string)
    requires MetaContent(ogTitle) != [] && AllSpace(MetaContent(ogTitle))
    ensures ScrapeTitleAndUrl(None, ogTitle, inputUrl).title == []
  {
    NormalizeSpaceBlank(MetaContent(ogTitle));
  }

  /** With neither source the title is "Unknown Title": no usable JSON-LD
      name (none, or a blank one) and an Open Graph title that is missing
      or empty. */
  lemma NoTitleSource(jsonld: Option<Json>, ogTitle: Meta, inputUrl: string)
    requires StringField(jsonld, "name").None? || AllSpace(StringField(jsonld, "name").value)
    requires MetaContent(ogTitle) == []
    ensures ScrapeTitleAndUrl(jsonld, ogTitle, inputUrl) == TitleAndUrl(UnknownTitle, CleanUrl(inputUrl))
  {
    if StringField(jsonld, "name").Some? {
      NormalizeSpaceBlank(StringField(jsonld, "name").value);
    }
  }

  // ---------------------------------------------------------------- scrapeCover

  /** `scrapeCover`. */
  function ScrapeCover(jsonld: Option<Json>, ogImage: Meta): string {
    var img := if jsonld.Some? then Get(jsonld.value, "image") else None;
    if img.Some? && img.value.JStr? && StartsWith(img.value.s, "http") then CleanUrl(img.value.s)
    else if img.Some? && img.value.JArr? && |img.value.items| > 0 && img.value.items[0].JStr? then
      CleanUrl(img.value.items[0].s)
    else
      var og := MetaContent(ogImage);
      if og != [] then CleanUrl(og) else ""
  }

  /** The cover URL never keeps a query or a fragment. */
  lemma CoverIsClean(jsonld: Option<Json>, ogImage: Meta)
    ensures '?' !in ScrapeCover(jsonld, ogImage) && '#' !in ScrapeCover(jsonld, ogImage)
  {
  }

  /** A JSON-LD `image` string is used only when it starts with "http"; any
      other string falls through to Open Graph. */
  lemma CoverStringImage(obj: Json, ogImage: Meta, s: string)
    requires Get(obj, "image") == Some(JStr(s))
    ensures StartsWith(s, "http") ==> ScrapeCover(Some(obj), ogImage) == CleanUrl(s)
    ensures !StartsWith(s, "http") ==> ScrapeCover(Some(obj), ogImage) == ScrapeCover(None, ogImage)
  {
  }

  /** The first element of an `image` array is taken when it is a string,
      without the "http" check the single-string form gets. */
  lemma CoverArrayImage(obj: Json, ogImage: Meta, s: string, rest: seq<Json>)
    requires Get(obj, "image") == Some(JArr([JStr(s)] + rest))
    ensures ScrapeCover(Some(obj), ogImage) == CleanUrl(s)
  {
  }

  /** Without a JSON-LD image the cover is the cleaned Open Graph image, or
      empty. */
  lemma CoverFallback(ogImage: Meta)
    ensures ScrapeCover(None, ogImage) == (if MetaContent(ogImage) != [] then CleanUrl(MetaContent(ogImage)) else [])
  {
  }

  // ---------------------------------------------------------------- scrapeDescription

  /** `scrapeDescription`. */
  function ScrapeDescription(jsonld: Option<Json>, ogDescription: Meta): string {
    var jd := if StringField(jsonld, "description").Some? then NormalizeSpace(StringField(jsonld, "description").value) else "";
    if jd != [] then jd
    else
      var og := MetaContent(ogDescription);
      if og != [] then NormalizeSpace(og) else ""
  }

  /** The description is space-normalised; a non-blank JSON-LD description
      wins, and otherwise (no string description, or a blank one) the Open
      Graph one is used. */
  lemma DescriptionSpec(jsonld: Option<Json>, ogDescription: Meta)
    ensures Normalized(ScrapeDescription(jsonld, ogDescription))
    ensures StringField(jsonld, "description").Some? && !AllSpace(StringField(jsonld, "description").value) ==>
      ScrapeDescription(jsonld, ogDescription) == NormalizeSpace(StringField(jsonld, "description").value)
    ensures StringField(jsonld, "description").None? || AllSpace(StringField(jsonld, "description").value) ==>
      ScrapeDescription(jsonld, ogDescription) == NormalizeSpace(MetaContent(ogDescription))
  {
    if StringField(jsonld, "description").Some? {
      NormalizeSpaceBlank(StringField(jsonld, "description").value);
    }
    var og := MetaContent(ogDescription);
    if og == [] {
      assert AllSpace(og);
      NormalizeSpaceBlank(og);
    }
  }
}

=== FILE: jsonld.dfy ===
/** JSON-LD blocks of the product page (main.ts:151-180): the parsed
    `<script type="application/ld+json">` blocks are flattened to a list of
    objects, and the first "bookish" one is picked. */
module JsonLd {
  import opened Wrappers
  import opened Strings

  /** A parsed JSON value. A number keeps the text JavaScript's `String()`
      gives for it, so string coercion is exact. */
  datatype Json =
    | JNull
    | JBool(b: bool)
    | JNum(repr: string)
    | JStr(s: string)
    | JArr(items: seq<Json>)
    | JObj(fields: map<string, Json>)

  /** `typeof x === "object"` for a non-null value: objects and arrays. */
  predicate IsObjectLike(j: Json) {
    j.JObj? || j.JArr?
  }

  /** `obj?.[key]`: a property of an object; arrays and other values have
      none of the keys read here. */
  function Get(j: Json, key: string): Option<Json> {
    if j.JObj? && key in j.fields then Some(j.fields[key]) else None
  }

  /** Whether `String(x)` returns. A parsed object with its own `toString`
      key has that key bound to data, never to a function, and its
      `valueOf` gives back the object itself, so the conversion throws a
      TypeError. An array converts its elements through `join`, so it
      throws when one of them does. Every other value converts. */
  predicate Stringable(j: Json) {
    match j
    case JObj(fields) => "toString" !in fields
    case JArr(items) => forall i :: 0 <= i < |items| ==> Stringable(items[i])
    case _ => true
  }

  /** The message of the TypeError a failed conversion throws. */
  const ToPrimitiveError := "Cannot convert object to primitive value"

  /** `String(x)` for a value that converts (`Stringable`); the text given
      for any other object is never observed, since the source throws
      there. */
  function JsString(j: Json): string
    decreases j, 1
  {
    match j
    case JNull => "null"
    case JBool(b) => if b then "true" else "false"
    case JNum(r) => r
    case JStr(s) => s
    case JArr(items) => ElementsString(items)
    case JObj(_) => "[object Object]"
  }

  /** `items.join(",")`: `null` elements print as the empty string. */
  function ElementsString(items: seq<Json>): string
    decreases items, 0
  {
    if items == [] then []
    else
      var first := if items[0].JNull? then [] else JsString(items[0]);
      if |items| == 1 then first else first + "," + ElementsString(items[1..])
  }

  // ---------------------------------------------------------------- extractJsonLdObjects

  /** The objects one parsed block contributes: an array gives its
      object-like elements, an object gives itself, anything else and a
      block that failed to parse (`None`) give nothing. */
  function Contribution(block: Option<Json>): seq<Json> {
    if block.None? then []
    else if block.value.JArr? then ObjectsIn(block.value.items)
    else if block.value.JObj? then [block.value]
    else []
  }

  /** The object-like elements of `xs`, in order. */
  function ObjectsIn(xs: seq<Json>): seq<Json> {
    if xs == [] then []
    else ObjectsIn(xs[..|xs| - 1]) + (if IsObjectLike(xs[|xs| - 1]) then [xs[|xs| - 1]] else [])
  }

  /** What `extractJsonLdObjects` returns for the blocks in document order. */
  function Collected(blocks: seq<Option<Json>>): seq<Json> {
    if blocks == [] then []
    else Collected(blocks[..|blocks| - 1]) + Contribution(blocks[|blocks| - 1])
  }

  /** The loops of `extractJsonLdObjects`, over already-parsed blocks. */
  method ExtractJsonLdObjects(blocks: seq<Option<Json>>) returns (out: seq<Json>)
    ensures out == Collected(blocks)
  {
    out := [];
    for i := 0 to |blocks|
      invariant out == Collected(blocks[..i])
    {
      assert blocks[..i + 1][..i] == blocks[..i];
      if blocks[i].Some? && blocks[i].value.JArr? {
        var xs := blocks[i].value.items;
        ghost var before := out;
        for j := 0 to |xs|
          invariant out == before + ObjectsIn(xs[..j])
        {
          assert xs[..j + 1][..j] == xs[..j];
          if IsObjectLike(xs[j]) {
            out := out + [xs[j]];
          }
        }
        assert xs[..|xs|] == xs;
      } else if blocks[i].Some? && blocks[i].value.JObj? {
        out := out + [blocks[i].value];
      }
    }
    assert blocks[..|blocks|] == blocks;
  }

  lemma {:induction false} ObjectsInAreObjects(xs: seq<Json>)
    ensures forall k :: 0 <= k < |ObjectsIn(xs)| ==> IsObjectLike(ObjectsIn(xs)[k])
    ensures forall k :: 0 <= k < |ObjectsIn(xs)| ==> ObjectsIn(xs)[k] in xs
  {
    if xs != [] {
      ObjectsInAreObjects(xs[..|xs| - 1]);
      assert forall x :: x in xs[..|xs| - 1] ==> x in xs;
    }
  }

  /** Everything collected is an object or an array. */
  lemma {:induction false} CollectedAreObjects(blocks: seq<Option<Json>>)
    ensures forall k :: 0 <= k < |Collected(blocks)| ==> IsObjectLike(Collected(blocks)[k])
  {
    if blocks != [] {
      CollectedAreObjects(blocks[..|blocks| - 1]);
      var last := blocks[|blocks| - 1];
      if last.Some? && last.value.JArr? {
        ObjectsInAreObjects(last.value.items);
      }
    }
  }

  /** Blocks contribute independently and in document order. */
  lemma {:induction false} CollectedAppend(a: seq<Option<Json>>, b: seq<Option<Json>>)
    ensures Collected(a + b) == Collected(a) + Collected(b)
    decreases |b|
  {
    if b == [] {
      assert a + b == a;
    } else {
      var b' := b[..|b| - 1];
      var c := Contribution(b[|b| - 1]);
      assert (a + b)[..|a + b| - 1] == a + b';
      assert (a + b)[|a + b| - 1] == b[|b| - 1];
      assert Collected(a + b) == Collected(a + b') + c;
      assert Collected(b) == Collected(b') + c;
      CollectedAppend(a, b');
      AppendAssoc(Collected(a), Collected(b'), c);
    }
  }

  /** A block that failed to parse changes nothing. */
  lemma CollectedSkipsFailure(a: seq<Option<Json>>, b: seq<Option<Json>>)
    ensures Collected(a + [None] + b) == Collected(a + b)
  {
    var none: seq<Option<Json>> := [None];
    assert none[..0] == [];
    assert Collected(none) == [];
    CollectedAppend(a + none, b);
    CollectedAppend(a, none);
    CollectedAppend(a, b);
  }

  /** A block holding one object contributes exactly that object. */
  lemma CollectedObjectBlock(a: seq<Option<Json>>, f: map<string, Json>)
    ensures Collected(a + [Some(JObj(f))]) == Collected(a) + [JObj(f)]
  {
    assert (a + [Some(JObj(f))])[..|a|] == a;
  }

  // ---------------------------------------------------------------- pickBookishJsonLd

  /** The `@type` values accepted as a book. */
  const BookishTypes: set<string> := {"book", "audiobook", "product", "creativework"}

  /** The lower-cased `@type` names of an object: each element of an array
      `@type`, or the one value, where a missing or `null` value reads as
      the empty string. */
  function TypeNames(obj: Json): seq<string> {
    match Get(obj, "@type")
    case Some(JArr(xs)) => seq(|xs|, i requires 0 <= i < |xs| => Lower(JsString(xs[i])))
    case Some(JNull) => [""]
    case None => [""]
    case Some(t) => [Lower(JsString(t))]
  }

  predicate IsBookish(obj: Json) {
    exists i :: 0 <= i < |TypeNames(obj)| && TypeNames(obj)[i] in BookishTypes
  }

  /** No object before index `k` is bookish. */
  predicate NoneBookishBefore(objs: seq<Json>, k: int)
    requires 0 <= k <= |objs|
  {
    forall j :: 0 <= j < k ==> !IsBookish(objs[j])
  }

  /** The first bookish object, if any. */
  function FirstBookish(objs: seq<Json>): Option<Json> {
    if objs == [] then None
    else if IsBookish(objs[0]) then Some(objs[0])
    else FirstBookish(objs[1..])
  }

  /** `pickBookishJsonLd` when no examined `@type` throws. */
  function PickBookish(objs: seq<Json>): Option<Json> {
    match FirstBookish(objs)
    case Some(o) => Some(o)
    case None => if objs != [] then Some(objs[0]) else None
  }

  /** `String(t)` (or `t.map(String)`) on the `@type` of `obj` returns. */
  predicate TypeStringable(obj: Json) {
    match Get(obj, "@type")
    case Some(t) => Stringable(t)
    case None => true
  }

  /** The `for` loop of `pickBookishJsonLd` with its exception: each object
      in turn has its `@type` converted, which throws when it cannot be,
      and the first bookish one is returned. */
  function SearchOutcome(objs: seq<Json>): Result<Option<Json>, string> {
    if objs == [] then Ok(None)
    else if !TypeStringable(objs[0]) then Err(ToPrimitiveError)
    else if IsBookish(objs[0]) then Ok(Some(objs[0]))
    else SearchOutcome(objs[1..])
  }

  /** `pickBookishJsonLd`: the TypeError of the search, or the first bookish
      object, or else the first object, or `null`. */
  function PickBookishOutcome(objs: seq<Json>): Result<Option<Json>, string> {
    match SearchOutcome(objs)
    case Err(e) => Err(e)
    case Ok(Some(o)) => Ok(Some(o))
    case Ok(None) => Ok(if objs != [] then Some(objs[0]) else None)
  }

  /** The search throws exactly when it meets an object whose `@type` does
      not convert before it meets a bookish one; otherwise it finds what
      `FirstBookish` finds. */
  lemma {:induction false} SearchOutcomeSpec(objs: seq<Json>)
    ensures SearchOutcome(objs).Err? <==>
      exists k :: 0 <= k < |objs| && !TypeStringable(objs[k]) && ConvertsBefore(objs, k) && NoneBookishBefore(objs, k)
    ensures SearchOutcome(objs).Err? ==> SearchOutcome(objs).error == ToPrimitiveError
    ensures SearchOutcome(objs).Ok? ==> SearchOutcome(objs).value == FirstBookish(objs)
  {
    if objs != [] {
      var tail := objs[1..];
      assert forall k :: 1 <= k < |objs| ==> objs[k] == tail[k - 1];
      if TypeStringable(objs[0]) && !IsBookish(objs[0]) {
        SearchOutcomeSpec(tail);
        if SearchOutcome(objs).Err? {
          var k :| 0 <= k < |tail| && !TypeStringable(tail[k]) && ConvertsBefore(tail, k) && NoneBookishBefore(tail, k);
          assert !TypeStringable(objs[k + 1]) && ConvertsBefore(objs, k + 1) && NoneBookishBefore(objs, k + 1);
        } else {
          forall k | 0 <= k < |objs| && ConvertsBefore(objs, k) && NoneBookishBefore(objs, k)
            ensures TypeStringable(objs[k])
          {
            if k > 0 {
              assert ConvertsBefore(tail, k - 1) && NoneBookishBefore(tail, k - 1);
            }
          }
        }
      } else if TypeStringable(objs[0]) {
        assert forall k :: 0 < k < |objs| ==> !NoneBookishBefore(objs, k);
      } else {
        assert !TypeStringable(objs[0]) && ConvertsBefore(objs, 0) && NoneBookishBefore(objs, 0);
      }
    }
  }

  /** Every object before index `k` has a `@type` that converts. */
  predicate ConvertsBefore(objs: seq<Json>, k: int)
    requires 0 <= k <= |objs|
  {
    forall j :: 0 <= j < k ==> TypeStringable(objs[j])
  }

  lemma {:induction false} FirstBookishSpec(objs: seq<Json>)
    ensures FirstBookish(objs).None? <==> forall k :: 0 <= k < |objs| ==> !IsBookish(objs[k])
    ensures FirstBookish(objs).Some? ==>
      exists k :: 0 <= k < |objs| && IsBookish(objs[k]) && FirstBookish(objs) == Some(objs[k])
        && forall j :: 0 <= j < k ==> !IsBookish(objs[j])
  {
    if objs != [] && !IsBookish(objs[0]) {
      FirstBookishSpec(objs[1..]);
      if FirstBookish(objs).Some? {
        var k :| 0 <= k < |objs[1..]| && IsBookish(objs[1..][k]) && FirstBookish(objs[1..]) == Some(objs[1..][k])
          && forall j :: 0 <= j < k ==> !IsBookish(objs[1..][j]);
        assert objs[k + 1] == objs[1..][k];
        assert forall j :: 1 <= j < k + 1 ==> objs[j] == objs[1..][j - 1];
      }
      assert forall k :: 1 <= k < |objs| ==> objs[k] == objs[1..][k - 1];
    }
  }

  /** `pickBookishJsonLd` throws exactly when the search does; otherwise it
      returns the first bookish object wherever it sits, otherwise the
      first object, and nothing only for an empty list. */
  lemma PickBookishSpec(objs: seq<Json>)
    ensures PickBookishOutcome(objs).Err? <==> SearchOutcome(objs).Err?
    ensures PickBookishOutcome(objs).Ok? ==> PickBookishOutcome(objs).value == PickBookish(objs)
    ensures (forall k :: 0 <= k < |objs| ==> TypeStringable(objs[k])) ==> PickBookishOutcome(objs) == Ok(PickBookish(objs))
    ensures PickBookish(objs).None? <==> objs == []
    ensures forall k :: 0 <= k < |objs| && IsBookish(objs[k]) && NoneBookishBefore(objs, k) ==>
      PickBookish(objs) == Some(objs[k])
    ensures (forall k :: 0 <= k < |objs| ==> !IsBookish(objs[k])) && objs != [] ==>
      PickBookish(objs) == Some(objs[0])
  {
    assert SearchOutcome(objs).Ok? ==> SearchOutcome(objs).value == FirstBookish(objs) by {
      SearchOutcomeSpec(objs);
    }
    if forall k :: 0 <= k < |objs| ==> TypeStringable(objs[k]) {
      AllConvertSearchOk(objs);
    }
    PickBookishChoice(objs);
  }

  /** Which object the search without exceptions picks. */
  lemma PickBookishChoice(objs: seq<Json>)
    ensures PickBookish(objs).None? <==> objs == []
    ensures forall k :: 0 <= k < |objs| && IsBookish(objs[k]) && NoneBookishBefore(objs, k) ==>
      PickBookish(objs) == Some(objs[k])
    ensures (forall k :: 0 <= k < |objs| ==> !IsBookish(objs[k])) && objs != [] ==>
      PickBookish(objs) == Some(objs[0])
  {
    FirstBookishSpec(objs);
  }

  /** When every `@type` converts, the search does not throw. */
  lemma {:induction false} AllConvertSearchOk(objs: seq<Json>)
    requires forall k :: 0 <= k < |objs| ==> TypeStringable(objs[k])
    ensures SearchOutcome(objs).Ok?
  {
    if objs != [] && !IsBookish(objs[0]) {
      assert forall k :: 0 <= k < |objs[1..]| ==> objs[1..][k] == objs[k + 1];
      AllConvertSearchOk(objs[1..]);
    }
  }

  /** A bookish object wins over a non-bookish one placed before it, unless
      the `@type` of either one does not convert, which throws. */
  lemma PickBookishSkipsFirst(x: Json, y: Json, rest: seq<Json>)
    requires !IsBookish(x) && IsBookish(y)
    ensures PickBookishOutcome([x, y] + rest)
      == if TypeStringable(x) && TypeStringable(y) then Ok(Some(y)) else Err(ToPrimitiveError)
  {
    var objs := [x, y] + rest;
    assert objs[0] == x && objs[1..] == [y] + rest && objs[1..][0] == y;
    if TypeStringable(x) {
      assert SearchOutcome(objs) == SearchOutcome([y] + rest);
    }
  }

  /** An object whose `@type` string lower-cases to a bookish name is
      bookish, whatever its case. */
  lemma StringTypeBookish(obj: Json, t: string)
    requires Get(obj, "@type") == Some(JStr(t)) && Lower(t) in BookishTypes
    ensures IsBookish(obj)
  {
    assert TypeNames(obj)[0] == Lower(t);
  }

  /** An array `@type` is bookish as soon as one element is; the object is
      then picked when it comes first, unless another element does not
      convert, since every element is converted before any is compared. */
  lemma ArrayTypeBookish(obj: Json, xs: seq<Json>, i: nat, rest: seq<Json>)
    requires Get(obj, "@type") == Some(JArr(xs)) && i < |xs| && Lower(JsString(xs[i])) in BookishTypes
    ensures IsBookish(obj)
    ensures PickBookishOutcome([obj] + rest) == if Stringable(JArr(xs)) then Ok(Some(obj)) else Err(ToPrimitiveError)
  {
    assert TypeNames(obj)[i] == Lower(JsString(xs[i]));
  }

  /** An object without `@type` is never bookish. */
  lemma NoTypeNotBookish(obj: Json)
    requires Get(obj, "@type").None?
    ensures !IsBookish(obj)
  {
    assert TypeNames(obj) == [""];
    assert "" !in BookishTypes;
  }
}

=== FILE: normalize.dfy ===
/** The plugin's text normalisers: whitespace collapsing, filename-safe
    titles, and URL clean-up (main.ts, "utils"). */
module Normalize {
  import opened Strings

  // ---------------------------------------------------------------- normalizeSpace

  predicate IsSpaceVariant(c: char) {
    c == '\U{00A0}' || c == '\U{202F}' || c == '\U{2009}'
  }

  /** `s.replace(/ | | /g, " ")`. */
  function ReplaceSpaceVariants(s: string): string {
    if s == [] then [] else [if IsSpaceVariant(s[0]) then ' ' else s[0]] + ReplaceSpaceVariants(s[1..])
  }

  /** Whitespace in `t` is only the plain space, never two in a row. */
  predicate SpacesCollapsed(t: string) {
    && (forall i :: 0 <= i < |t| && IsSpace(t[i]) ==> t[i] == ' ')
    && (forall i :: 0 <= i < |t| - 1 ==> !(t[i] == ' ' && t[i + 1] == ' '))
  }

  /** What `normalizeSpace` produces: collapsed whitespace and trimmed ends. */
  predicate Normalized(t: string) {
    SpacesCollapsed(t) && Trimmed(t)
  }

  /** `s.replace(/\s+/g, " ")`: every maximal whitespace run becomes one space. */
  function CollapseSpaces(s: string): (r: string)
    ensures |r| <= |s|
    ensures r == [] <==> s == []
    ensures s != [] ==> (r[0] == ' ' <==> IsSpace(s[0]))
    ensures SpacesCollapsed(r)
    ensures NonSpace(r) == NonSpace(s)
    decreases |s|
  {
    if s == [] then []
    else if IsSpace(s[0]) then
      var rest := CollapseSpaces(TrimStart(s[1..]));
      NonSpaceTrimStart(s[1..]);
      assert NonSpace([' '] + rest) == NonSpace(rest);
      [' '] + rest
    else
      var rest := CollapseSpaces(s[1..]);
      assert NonSpace([s[0]] + rest) == [s[0]] + NonSpace(rest);
      [s[0]] + rest
  }

  /** `normalizeSpace` (main.ts:68-73). */
  function NormalizeSpace(s: string): (r: string)
    ensures Normalized(r)
    ensures NonSpace(r) == NonSpace(s)
  {
    var c := CollapseSpaces(ReplaceSpaceVariants(s));
    TrimIsSlice(c);
    NonSpaceTrim(c);
    VariantsKeepNonSpace(s);
    Trim(c)
  }

  lemma {:induction false} VariantsKeepNonSpace(s: string)
    ensures NonSpace(ReplaceSpaceVariants(s)) == NonSpace(s)
  {
    if s != [] {
      VariantsKeepNonSpace(s[1..]);
    }
  }

  lemma {:induction false} VariantsAbsent(s: string)
    requires SpacesCollapsed(s)
    ensures ReplaceSpaceVariants(s) == s
  {
    if s != [] {
      assert SpacesCollapsed(s[1..]);
      VariantsAbsent(s[1..]);
    }
  }

  lemma {:induction false} CollapseFixed(s: string)
    requires SpacesCollapsed(s)
    ensures CollapseSpaces(s) == s
    decreases |s|
  {
    if s != [] {
      assert SpacesCollapsed(s[1..]);
      if IsSpace(s[0]) {
        assert TrimStart(s[1..]) == s[1..] by {
          assert |s| > 1 ==> s[1] != ' ';
        }
      }
      CollapseFixed(s[1..]);
    }
  }

  /** Normalised text is a fixed point of `normalizeSpace`. */
  lemma NormalizeSpaceFixed(t: string)
    requires Normalized(t)
    ensures NormalizeSpace(t) == t
  {
    VariantsAbsent(t);
    CollapseFixed(t);
    TrimOfTrimmed(t);
  }

  /** `normalizeSpace` is idempotent. */
  lemma NormalizeSpaceIdempotent(s: string)
    ensures NormalizeSpace(NormalizeSpace(s)) == NormalizeSpace(s)
  {
    NormalizeSpaceFixed(NormalizeSpace(s));
  }

  /** Trimmed non-empty text has a non-space character. */
  lemma TrimmedHasNonSpace(r: string)
    requires Trimmed(r)
    ensures r != [] ==> NonSpace(r) != []
  {
  }

  /** Blank input normalises to the empty string, and only blank input does. */
  lemma NormalizeSpaceBlank(s: string)
    ensures NormalizeSpace(s) == [] <==> AllSpace(s)
  {
    var r := NormalizeSpace(s);
    NonSpaceMembers(s);
    TrimmedHasNonSpace(r);
    if AllSpace(s) {
      NonSpaceOfAllSpace(s);
    } else {
      var i :| 0 <= i < |s| && !IsSpace(s[i]);
      assert s[i] in NonSpace(s);
    }
  }

  /** Every character of `normalizeSpace(s)` is a plain space or comes from `s`. */
  lemma NormalizeSpaceChars(s: string)
    ensures forall c :: c in NormalizeSpace(s) ==> c == ' ' || c in s
  {
    NonSpaceMembers(s);
    NonSpaceMembers(NormalizeSpace(s));
  }

  /** A prefix of collapsed text is collapsed; trimming it gives normalised text. */
  lemma CollapsedPrefix(t: string, k: nat)
    requires SpacesCollapsed(t) && k <= |t|
    ensures SpacesCollapsed(t[..k])
  {
  }

  lemma TrimCollapsed(t: string)
    requires SpacesCollapsed(t)
    ensures Normalized(Trim(t))
  {
    TrimIsSlice(t);
  }

  // ---------------------------------------------------------------- normalizeTitle

  /** Characters `normalizeTitle` strips: `< > : " / \ | ? *` and 0x00-0x1F. */
  predicate IsIllegalFileChar(c: char) {
    c == '<' || c == '>' || c == ':' || c == '"' || c == '/' || c == '\\' || c == '|'
    || c == '?' || c == '*' || (c as int) < 0x20
  }

  /** A character a title may keep: legal in filenames and not `&`. */
  predicate TitleSafe(c: char) {
    !IsIllegalFileChar(c) && c != '&'
  }

  predicate AllTitleSafe(t: string) {
    forall i :: 0 <= i < |t| ==> TitleSafe(t[i])
  }

  /** `t.replace(/[<>:"/\\|?*\x00-\x1F]/g, "")`. */
  function RemoveIllegal(s: string): (r: string)
    ensures forall i :: 0 <= i < |r| ==> !IsIllegalFileChar(r[i])
    ensures forall c :: c in r ==> c in s
  {
    if s == [] then []
    else (if IsIllegalFileChar(s[0]) then [] else [s[0]]) + RemoveIllegal(s[1..])
  }

  lemma {:induction false} RemoveIllegalNone(s: string)
    requires forall i :: 0 <= i < |s| ==> !IsIllegalFileChar(s[i])
    ensures RemoveIllegal(s) == s
  {
    if s != [] {
      RemoveIllegalNone(s[1..]);
    }
  }

  predicate IsDotOrSpace(c: char) { c == '.' || c == ' ' }

  /** Length of the trailing run of dots and spaces. */
  function TrailDotCount(s: string): (n: nat)
    ensures n <= |s|
    ensures forall i :: |s| - n <= i < |s| ==> IsDotOrSpace(s[i])
    ensures n < |s| ==> !IsDotOrSpace(s[|s| - 1 - n])
  {
    if s != [] && IsDotOrSpace(s[|s| - 1]) then 1 + TrailDotCount(s[..|s| - 1]) else 0
  }

  /** `t.replace(/[. ]+$/g, "")`. */
  function StripTrailingDots(s: string): string {
    s[..|s| - TrailDotCount(s)]
  }

  const MaxTitleLength: nat := 180

  /** The steps of `normalizeTitle` before the dot strip (main.ts:76-85). */
  function PreStrip(title: string): string {
    var t1 := NormalizeSpace(title);
    var t2 := ReplaceAll(t1, ":", " - ");
    var t3 := ReplaceAll(t2, "&", " and ");
    var t4 := RemoveIllegal(t3);
    NormalizeSpace(t4)
  }

  /** The steps of `normalizeTitle` before the length cap (main.ts:76-86). */
  function CleanTitle(title: string): string {
    Trim(StripTrailingDots(PreStrip(title)))
  }

  /** Normalised text that ends in neither a dot nor a space stays as it is
      under `Trim(StripTrailingDots(_))`, and so does the empty string. */
  lemma CleanEndFixed(t: string)
    requires Normalized(t) && (t == [] || !IsDotOrSpace(t[|t| - 1]))
    ensures Trim(StripTrailingDots(t)) == t
  {
    TrimOfTrimmed(t);
  }

  /** Stripping the dot/space tail of collapsed text that starts with a
      non-space leaves normalised text ending in neither. */
  lemma StripDotsCollapsed(t: string)
    requires SpacesCollapsed(t) && (t == [] || !IsSpace(t[0]))
    ensures var p := Trim(StripTrailingDots(t));
      Normalized(p) && (p == [] || !IsDotOrSpace(p[|p| - 1])) && |p| <= |t|
      && (forall i :: 0 <= i < |p| ==> p[i] == t[i])
  {
    var p := StripTrailingDots(t);
    assert p == t[..|p|];
    CollapsedPrefix(t, |p|);
    assert Trimmed(p);
    TrimOfTrimmed(p);
  }

  /** Without `&` to begin with, what `RemoveIllegal` keeps is title-safe. */
  lemma RemoveIllegalSafe(s: string)
    requires '&' !in s
    ensures forall c :: c in RemoveIllegal(s) ==> TitleSafe(c)
  {
    var r := RemoveIllegal(s);
    forall c | c in r ensures TitleSafe(c) {
      var i :| 0 <= i < |r| && r[i] == c;
    }
  }

  /** `normalizeSpace` adds only plain spaces, which are title-safe. */
  lemma NormalizeSpaceSafe(u: string)
    requires forall c :: c in u ==> TitleSafe(c)
    ensures AllTitleSafe(NormalizeSpace(u))
  {
    var t := NormalizeSpace(u);
    NormalizeSpaceChars(u);
    forall i | 0 <= i < |t| ensures TitleSafe(t[i]) {
      assert t[i] in t;
    }
  }

  /** Before the dot strip the title is normalised and title-safe. */
  lemma PreStripProps(title: string)
    ensures var t := PreStrip(title);
      Normalized(t) && AllTitleSafe(t)
  {
    var t2 := ReplaceAll(NormalizeSpace(title), ":", " - ");
    var t3 := ReplaceAll(t2, "&", " and ");
    ReplaceAllRemovesChar(t2, '&', " and ");
    RemoveIllegalSafe(t3);
    NormalizeSpaceSafe(RemoveIllegal(t3));
  }

  lemma CleanTitleProps(title: string)
    ensures var t := CleanTitle(title);
      Normalized(t) && AllTitleSafe(t) && (t == [] || !IsDotOrSpace(t[|t| - 1]))
  {
    var t5 := PreStrip(title);
    PreStripProps(title);
    StripDotsCollapsed(t5);
    var p := Trim(StripTrailingDots(t5));
    assert forall i :: 0 <= i < |p| ==> TitleSafe(t5[i]);
  }

  /** `normalizeTitle` exactly as written (main.ts:75-90): the 180-character
      cut is trimmed but not stripped of dots again. */
  function NormalizeTitleAsWritten(title: string): string {
    var t := CleanTitle(title);
    if |t| > MaxTitleLength then Trim(t[..MaxTitleLength]) else t
  }

  /** Cutting normalised, title-safe text to 180 characters and trimming it
      keeps it normalised and title-safe. */
  lemma CutProps(t: string)
    requires Normalized(t) && AllTitleSafe(t) && |t| > MaxTitleLength
    ensures var r := Trim(t[..MaxTitleLength]);
      Normalized(r) && AllTitleSafe(r) && |r| <= MaxTitleLength
  {
    var q := t[..MaxTitleLength];
    CollapsedPrefix(t, MaxTitleLength);
    TrimCollapsed(q);
    TrimIsSlice(q);
  }

  /** The as-written title is normalised, filename-safe, free of `&` and at
      most 180 characters long. */
  lemma NormalizeTitleAsWrittenSafe(title: string)
    ensures var r := NormalizeTitleAsWritten(title);
      Normalized(r) && AllTitleSafe(r) && |r| <= MaxTitleLength
  {
    var t := CleanTitle(title);
    CleanTitleProps(title);
    if |t| > MaxTitleLength {
      CutProps(t);
    }
  }

  /** `normalizeTitle` with the dot/space strip re-applied after the cut, so
      that the cut cannot end the name in a dot. The book record follows
      the code and uses `NormalizeTitleAsWritten`; this corrected version
      gives `Book.CorrectedBookOf`. */
  function NormalizeTitle(title: string): (r: string)
    ensures Normalized(r) && AllTitleSafe(r) && |r| <= MaxTitleLength
    ensures r == [] || r[|r| - 1] != '.'
  {
    var t := CleanTitle(title);
    CleanTitleProps(title);
    if |t| > MaxTitleLength then
      CutStripProps(t);
      Trim(StripTrailingDots(t[..MaxTitleLength]))
    else t
  }

  /** Cutting normalised, title-safe text to 180 characters and stripping
      the dots and spaces again keeps it normalised and title-safe, and
      leaves no final dot. */
  lemma CutStripProps(t: string)
    requires Normalized(t) && AllTitleSafe(t) && |t| > MaxTitleLength
    ensures var r := Trim(StripTrailingDots(t[..MaxTitleLength]));
      Normalized(r) && AllTitleSafe(r) && |r| <= MaxTitleLength && (r == [] || r[|r| - 1] != '.')
  {
    var q := t[..MaxTitleLength];
    CollapsedPrefix(t, MaxTitleLength);
    StripDotsCollapsed(q);
  }

  /** Normalised, title-safe text passes the steps before the dot strip
      unchanged. */
  lemma CleanTitleOfSafe(t: string)
    requires Normalized(t) && AllTitleSafe(t)
    ensures CleanTitle(t) == Trim(StripTrailingDots(t))
  {
    NormalizeSpaceFixed(t);
    assert ':' !in t && '&' !in t by {
      forall i | 0 <= i < |t| ensures t[i] != ':' && t[i] != '&' {
        assert TitleSafe(t[i]);
      }
    }
    AbsentByChar(t, ":", ':');
    ReplaceAllAbsent(t, ":", " - ");
    AbsentByChar(t, "&", '&');
    ReplaceAllAbsent(t, "&", " and ");
    RemoveIllegalNone(t);
  }

  /** The corrected `normalizeTitle` is idempotent. */
  lemma NormalizeTitleIdempotent(title: string)
    ensures NormalizeTitle(NormalizeTitle(title)) == NormalizeTitle(title)
  {
    var r := NormalizeTitle(title);
    CleanTitleOfSafe(r);
    CleanEndFixed(r);
    NormalizeTitleOfShort(r);
  }

  /** A title whose cleaned form fits in 180 characters is not cut. */
  lemma NormalizeTitleOfShort(t: string)
    requires |CleanTitle(t)| <= MaxTitleLength
    ensures NormalizeTitle(t) == CleanTitle(t)
  {
  }

  /** Text without whitespace or unsafe characters passes the pre-cut steps
      with only its dot tail removed. */
  lemma CleanTitleOfPlain(t: string)
    requires NoSpace(t) && AllTitleSafe(t)
    ensures CleanTitle(t) == StripTrailingDots(t)
  {
    assert Normalized(t);
    CleanTitleOfSafe(t);
    var p := StripTrailingDots(t);
    assert p == t[..|p|];
    assert Trimmed(p);
    TrimOfTrimmed(p);
  }

  /** A plain name whose last character is not a dot or space. */
  predicate PlainName(a: string) {
    NoSpace(a) && AllTitleSafe(a) && a != [] && !IsDotOrSpace(a[|a| - 1])
  }

  /** The as-written `normalizeTitle` is not idempotent: any plain 179-character
      name followed by a dot and one more letter is cut to a name ending in a
      dot, which a second application strips (for instance 179 letters `a`
      followed by `.b`). */
  lemma NormalizeTitleAsWrittenNotIdempotent(a: string)
    requires |a| == MaxTitleLength - 1 && PlainName(a)
    ensures var y := NormalizeTitleAsWritten(a + ".b");
      y == a + "." && NormalizeTitleAsWritten(y) == a && NormalizeTitleAsWritten(y) != y
  {
    CutEndsInDot(a);
    CutDotStripped(a);
    assert |a| != |a + "."|;
  }

  /** A plain name followed by `.b` is plain text without a dot tail. */
  lemma PlainThenDotB(a: string)
    requires PlainName(a)
    ensures var x := a + ".b";
      NoSpace(x) && AllTitleSafe(x) && StripTrailingDots(x) == x
  {
    var x := a + ".b";
    assert TitleSafe('.') && TitleSafe('b');
    assert forall i :: 0 <= i < |x| ==> x[i] == (if i < |a| then a[i] else ".b"[i - |a|]);
    assert TrailDotCount(x) == 0;
  }

  /** A plain name followed by a dot is trimmed plain text whose dot tail is
      that one dot. */
  lemma PlainThenDot(a: string)
    requires PlainName(a)
    ensures var y := a + ".";
      NoSpace(y) && AllTitleSafe(y) && Trim(y) == y && StripTrailingDots(y) == a && Trim(a) == a
  {
    var y := a + ".";
    assert TitleSafe('.');
    assert forall i :: 0 <= i < |y| ==> y[i] == (if i < |a| then a[i] else '.');
    assert y[..|y| - 1] == a;
    assert TrailDotCount(a) == 0;
    assert TrailDotCount(y) == 1;
    assert Trimmed(y) && Trimmed(a);
    TrimOfTrimmed(y);
    TrimOfTrimmed(a);
  }

  lemma CutEndsInDot(a: string)
    requires |a| == MaxTitleLength - 1 && PlainName(a)
    ensures NormalizeTitleAsWritten(a + ".b") == a + "."
  {
    var x := a + ".b";
    PlainThenDotB(a);
    CleanTitleOfPlain(x);
    assert x[..MaxTitleLength] == a + ".";
    PlainThenDot(a);
  }

  lemma CutDotStripped(a: string)
    requires |a| == MaxTitleLength - 1 && PlainName(a)
    ensures NormalizeTitleAsWritten(a + ".") == a
  {
    PlainThenDot(a);
    CleanTitleOfPlain(a + ".");
  }

  /** The corrected title applied to the same input keeps the plain name and
      drops the dot. */
  lemma NormalizeTitleDropsCutDot(a: string)
    requires |a| == MaxTitleLength - 1 && PlainName(a)
    ensures NormalizeTitle(a + ".b") == a
  {
    var x := a + ".b";
    PlainThenDotB(a);
    CleanTitleOfPlain(x);
    assert x[..MaxTitleLength] == a + ".";
    PlainThenDot(a);
  }

  /** Lower-casing keeps text normalised, since it changes no whitespace. */
  lemma LowerNormalized(t: string)
    requires Normalized(t)
    ensures Normalized(Lower(t))
  {
  }

  // ---------------------------------------------------------------- URLs

  /** `s.split(c)[0]`: the text before the first `c`. */
  function Before(s: string, c: char): string {
    Split(s, [c])[0]
  }

  lemma BeforeProps(s: string, c: char)
    ensures var b := Before(s, c); c !in b && b == s[..|b|]
    ensures var b := Before(s, c); b == s || (|b| < |s| && s[|b|] == c)
    ensures c !in s ==> Before(s, c) == s
  {
    var i := Find(s, [c]);
    if i < |s| {
      assert OccursAt(s, [c], i);
      assert s[i..i + 1] == [c];
    }
    forall j | 0 <= j < i ensures s[j] != c {
      assert !OccursAt(s, [c], j);
      assert s[j..j + 1] == [s[j]];
    }
    if c !in s {
      AbsentByChar(s, [c], c);
      SplitAbsent(s, [c]);
    }
  }

  /** Text a URL may end up as: trimmed, with no query and no fragment. */
  predicate IsClean(u: string) {
    Trimmed(u) && '?' !in u && '#' !in u
  }

  /** `cleanUrl` (main.ts:54-66) by its string fallback: trim, then cut at
      the first `?` and at the first `#`. */
  function CleanUrl(u: string): (r: string)
    ensures '?' !in r && '#' !in r
    ensures |r| <= |Trim(u)| && r == Trim(u)[..|r|]
    ensures r == Trim(u) || (|r| < |Trim(u)| && (Trim(u)[|r|] == '?' || Trim(u)[|r|] == '#'))
    ensures AllSpace(u) ==> r == []
  {
    var s := Trim(u);
    TrimEmptyIffAllSpace(u);
    if s == [] then []
    else
      BeforeProps(s, '?');
      BeforeProps(Before(s, '?'), '#');
      Before(Before(s, '?'), '#')
  }

  /** Everything from the first `#` on is dropped too, even when a `?`
      follows it. */
  lemma CleanUrlDropsFragment(base: string, fragment: string)
    requires Trimmed(base + "#" + fragment)
    requires '?' !in base && '#' !in base
    ensures CleanUrl(base + "#" + fragment) == base
  {
    var u := base + "#" + fragment;
    TrimOfTrimmed(u);
    assert '?' !in base + "#";
    SplitFirstAfterPrefix(base + "#", fragment, '?');
    var f := Before(fragment, '?');
    assert Before(u, '?') == base + ['#'] + f;
    SplitFirstPiece(base, '#', f);
  }

  /** Text without `?` or `#` is only trimmed. */
  lemma CleanUrlOfPlain(u: string)
    requires '?' !in u && '#' !in u
    ensures CleanUrl(u) == Trim(u)
  {
    var s := Trim(u);
    if s != [] {
      TrimIsSlice(u);
      assert forall c :: c in s ==> c in u;
      BeforeProps(s, '?');
      BeforeProps(s, '#');
    }
  }

  /** Clean text is a fixed point, and cleaning twice always gives clean text. */
  lemma CleanUrlTwiceIsClean(u: string)
    ensures IsClean(u) ==> CleanUrl(u) == u
    ensures IsClean(CleanUrl(CleanUrl(u)))
  {
    if IsClean(u) {
      CleanUrlOfPlain(u);
      TrimOfTrimmed(u);
    }
    var c := CleanUrl(u);
    CleanUrlOfPlain(c);
    TrimIsSlice(c);
    assert forall ch :: ch in Trim(c) ==> ch in c;
  }

  /** Everything from the first `?` on is dropped, so a `/search` URL loses
      its query like any other. */
  lemma CleanUrlDropsQuery(base: string, query: string)
    requires Trimmed(base + "?" + query)
    requires '?' !in base && '#' !in base
    ensures CleanUrl(base + "?" + query) == base
  {
    var u := base + "?" + query;
    TrimOfTrimmed(u);
    SplitFirstPiece(base, '?', query);
    BeforeProps(base, '#');
  }

  /** A cleaned URL that is not empty stays non-empty when cleaned again. */
  lemma CleanUrlAgainNonEmpty(u: string)
    requires CleanUrl(u) != []
    ensures CleanUrl(CleanUrl(u)) != []
  {
    var r := CleanUrl(u);
    TrimIsSlice(u);
    assert r[0] == Trim(u)[0];
    CleanUrlOfPlain(r);
    TrimIsSlice(r);
    assert LeadCount(r) == 0;
  }

  const AudibleOrigin: string := "https://www.audible.com"

  /** `absAudibleUrl` (main.ts:138-143). */
  function AbsAudibleUrl(href: string): string {
    var h := Trim(href);
    if h == [] then [] else CleanUrl(if StartsWith(h, "/") then AudibleOrigin + h else h)
  }

  /** The origin has no query or fragment mark and starts with a letter. */
  lemma AudibleOriginPlain()
    ensures '?' !in AudibleOrigin && '#' !in AudibleOrigin
    ensures AudibleOrigin != [] && !IsSpace(AudibleOrigin[0])
  {
    assert forall i :: 0 <= i < |AudibleOrigin| ==> AudibleOrigin[i] != '?' && AudibleOrigin[i] != '#';
  }

  /** The site origin is prefixed exactly when the trimmed href starts with
      `/`; otherwise the href is only cleaned. */
  lemma AbsAudibleUrlPrefix(href: string)
    ensures '?' !in AbsAudibleUrl(href) && '#' !in AbsAudibleUrl(href)
    ensures AbsAudibleUrl(href)
      == (if StartsWith(Trim(href), "/") then AudibleOrigin else []) + CleanUrl(href)
  {
    var h := Trim(href);
    TrimIdempotent(href);
    TrimEmptyIffAllSpace(href);
    if h != [] && StartsWith(h, "/") {
      var o := AudibleOrigin;
      AudibleOriginPlain();
      TrimIsSlice(href);
      assert (o + h)[0] == o[0] && (o + h)[|o + h| - 1] == h[|h| - 1];
      assert Trimmed(o + h);
      TrimOfTrimmed(o + h);
      SplitFirstAfterPrefix(o, h, '?');
      var b := Before(h, '?');
      SplitFirstAfterPrefix(o, b, '#');
    }
  }
}

=== FILE: render.dfy ===
/** The note renderer (main.ts:410-469): the book record is turned into the
    values of seventeen `{{token}}` placeholders, each placeholder is
    replaced everywhere with `split(token).join(value)` in a fixed order,
    runs of four or more newlines are cut to three, and the text is trimmed
    and ended with one newline. The template path is cleaned before the
    file is looked up. */
module Render {
  import opened Wrappers
  import opened Strings
  import opened Normalize
  import Authors
  import Series

  /** The book record handed to the renderer. `kind` is the record's
      `type` field. */
  datatype BookData = BookData(
    title: string,
    url: string,
    coverUrl: string,
    authors: seq<Authors.Person>,
    series: Option<Series.SeriesInfo>,
    description: string,
    category: string,
    status: string,
    acquired: string,
    source: string,
    rating: string,
    tags: seq<string>,
    kind: string)

  // ---------------------------------------------------------------- authors

  /** One author in Markdown: a link when the author has a URL. */
  function AuthorLink(a: Authors.Person): string {
    if a.url != [] then "[" + a.name + "](" + CleanUrl(a.url) + ")" else a.name
  }

  /** The Markdown author list, one author per line; `_Unknown_` for none. */
  function AuthorsMd(authors: seq<Authors.Person>): string {
    if |authors| == 0 then "_Unknown_"
    else Join(seq(|authors|, i requires 0 <= i < |authors| => AuthorLink(authors[i])), ",  \n")
  }

  /** The non-empty author names, in order. */
  function NonEmptyNames(authors: seq<Authors.Person>): seq<string> {
    if authors == [] then []
    else
      var a := authors[|authors| - 1];
      NonEmptyNames(authors[..|authors| - 1]) + (if a.name != [] then [a.name] else [])
  }

  /** The plain author list: non-empty names joined with ", ". */
  function AuthorsPlain(authors: seq<Authors.Person>): string {
    Join(NonEmptyNames(authors), ", ")
  }

  /** An empty list renders as `_Unknown_`; otherwise the first author's
      Markdown comes first, followed by `",  \n"` and the rest. */
  lemma AuthorsMdSpec(authors: seq<Authors.Person>)
    ensures authors == [] ==> AuthorsMd(authors) == "_Unknown_"
    ensures |authors| == 1 ==> AuthorsMd(authors) == AuthorLink(authors[0])
    ensures |authors| > 1 ==> AuthorsMd(authors) == AuthorLink(authors[0]) + ",  \n" + AuthorsMd(authors[1..])
  {
    if |authors| > 1 {
      var links := seq(|authors|, i requires 0 <= i < |authors| => AuthorLink(authors[i]));
      var rest := authors[1..];
      assert links[1..] == seq(|rest|, i requires 0 <= i < |rest| => AuthorLink(rest[i]));
    }
  }

  /** An author with a URL is the link `[name](url)` to the cleaned URL. */
  lemma AuthorWithUrl(name: string, url: string)
    requires url != []
    ensures AuthorsMd([Authors.Person(name, url)]) == "[" + name + "](" + CleanUrl(url) + ")"
  {
    AuthorsMdSpec([Authors.Person(name, url)]);
  }

  // ---------------------------------------------------------------- series and tags

  function SeriesPlain(series: Option<Series.SeriesInfo>): string {
    if series.Some? then series.value.name else ""
  }

  /** The series as a Markdown link when it has a URL. */
  function SeriesMd(series: Option<Series.SeriesInfo>): string {
    if series.None? then ""
    else if series.value.url != [] then "[" + series.value.name + "](" + CleanUrl(series.value.url) + ")"
    else series.value.name
  }

  function BookMd(series: Option<Series.SeriesInfo>): string {
    if series.Some? then series.value.book else ""
  }

  /** The tags as Obsidian hashtags separated by single spaces. */
  function TagsMd(tags: seq<string>): string {
    Join(seq(|tags|, i requires 0 <= i < |tags| => "#" + tags[i]), " ")
  }

  /** A lower-case hexadecimal digit. */
  function Hex(n: nat): char
    requires n < 16
  {
    if n < 10 then ('0' as int + n) as char else ('a' as int + n - 10) as char
  }

  function HexVal(c: char): (n: nat)
    ensures n < 16
  {
    if '0' <= c <= '9' then c as int - '0' as int
    else if 'a' <= c <= 'f' then c as int - 'a' as int + 10
    else 0
  }

  /** How `JSON.stringify` writes one character inside a string literal. */
  function EscapeChar(c: char): string {
    if c == '"' then ['\\', '"']
    else if c == '\\' then ['\\', '\\']
    else if c == '\U{0008}' then ['\\', 'b']
    else if c == '\t' then ['\\', 't']
    else if c == '\n' then ['\\', 'n']
    else if c == '\U{000C}' then ['\\', 'f']
    else if c == '\r' then ['\\', 'r']
    else if c < ' ' then ['\\', 'u', '0', '0', Hex(c as int / 16), Hex(c as int % 16)]
    else [c]
  }

  function Escape(s: string): string {
    if s == [] then [] else EscapeChar(s[0]) + Escape(s[1..])
  }

  /** `JSON.stringify` of a string. */
  function JsonQuote(s: string): string {
    "\"" + Escape(s) + "\""
  }

  /** The character a one-letter escape stands for. */
  function UnescapeChar(e: char): char {
    if e == 'b' then '\U{0008}'
    else if e == 't' then '\t'
    else if e == 'n' then '\n'
    else if e == 'f' then '\U{000C}'
    else if e == 'r' then '\r'
    else e
  }

  /** Reading back the body of a JSON string literal. */
  function Unescape(s: string): string
    decreases |s|
  {
    if |s| >= 2 && s[0] == '\\' then
      if s[1] == 'u' && |s| >= 6 then [(HexVal(s[4]) * 16 + HexVal(s[5])) as char] + Unescape(s[6..])
      else [UnescapeChar(s[1])] + Unescape(s[2..])
    else if s == [] then []
    else [s[0]] + Unescape(s[1..])
  }

  /** The body of a string literal. */
  function Unquote(q: string): string
    requires |q| >= 2
  {
    Unescape(q[1..|q| - 1])
  }

  lemma UnescapeEscapeChar(c: char, rest: string)
    ensures Unescape(EscapeChar(c) + rest) == [c] + Unescape(rest)
  {
    var s := EscapeChar(c) + rest;
    if c < ' ' && c != '\U{0008}' && c != '\t' && c != '\n' && c != '\U{000C}' && c != '\r' {
      assert s[1] == 'u' && s[4] == Hex(c as int / 16) && s[5] == Hex(c as int % 16);
      assert HexVal(s[4]) * 16 + HexVal(s[5]) == c as int;
      assert s[6..] == rest;
    } else if |EscapeChar(c)| == 2 {
      assert s[2..] == rest;
    } else {
      assert s[1..] == rest;
    }
  }

  /** Escaping loses nothing: reading the literal back gives the string. */
  lemma {:induction false} UnescapeEscape(s: string)
    ensures Unescape(Escape(s)) == s
  {
    if s != [] {
      UnescapeEscapeChar(s[0], Escape(s[1..]));
      UnescapeEscape(s[1..]);
    }
  }

  /** `JSON.stringify` of a string can be read back, and the literal holds
      no control character, so a tag never breaks the YAML line. */
  lemma JsonQuoteRoundTrip(s: string)
    ensures Unquote(JsonQuote(s)) == s
    ensures forall i :: 0 <= i < |JsonQuote(s)| ==> JsonQuote(s)[i] >= ' '
  {
    var q := JsonQuote(s);
    assert q[1..|q| - 1] == Escape(s);
    UnescapeEscape(s);
    EscapeNoControl(s);
  }

  lemma {:induction false} EscapeNoControl(s: string)
    ensures forall i :: 0 <= i < |Escape(s)| ==> Escape(s)[i] >= ' '
  {
    if s != [] {
      EscapeNoControl(s[1..]);
      var e := EscapeChar(s[0]);
      assert forall i :: 0 <= i < |e| ==> e[i] >= ' ';
      assert forall i :: |e| <= i < |Escape(s)| ==> Escape(s)[i] == Escape(s[1..])[i - |e|];
    }
  }

  /** The tags as a YAML flow list of JSON strings. */
  function TagsYaml(tags: seq<string>): string {
    "[" + Join(seq(|tags|, i requires 0 <= i < |tags| => JsonQuote(tags[i])), ",") + "]"
  }

  // ---------------------------------------------------------------- substitution

  /** The placeholder for a name. */
  function Tok(name: string): string {
    "{{" + name + "}}"
  }

  /** The names replaced, in the order they are replaced. */
  const TokenNames: seq<string> := [
    "type", "status", "category", "acquired", "source",
    "title", "url", "cover_url",
    "authors_md", "authors_plain",
    "series_md", "series_plain",
    "book_md",
    "description", "rating",
    "tags", "tags_yaml"]

  /** The value of each placeholder, in the order of `TokenNames`. */
  function Values(d: BookData): (vs: seq<string>)
    ensures |vs| == |TokenNames|
  {
    [d.kind, d.status, d.category, d.acquired, d.source,
     d.title, CleanUrl(d.url), CleanUrl(d.coverUrl),
     AuthorsMd(d.authors), AuthorsPlain(d.authors),
     SeriesMd(d.series), SeriesPlain(d.series),
     BookMd(d.series),
     Trim(d.description), d.rating,
     TagsMd(d.tags), TagsYaml(d.tags)]
  }

  /** The placeholder/value pairs, in replacement order. No placeholder is
      empty and no two are the same, so each `rep` call has its own key. */
  function Substitutions(d: BookData): (subs: seq<(string, string)>)
    ensures KeysNonEmpty(subs)
    ensures forall i, j :: 0 <= i < j < |subs| ==> subs[i].0 != subs[j].0
  {
    TokenNamesShape();
    forall i, j | 0 <= i < j < |TokenNames| ensures Tok(TokenNames[i]) != Tok(TokenNames[j]) {
      if Tok(TokenNames[i]) == Tok(TokenNames[j]) {
        TokInjective(TokenNames[i], TokenNames[j]);
      }
    }
    seq(|TokenNames|, i requires 0 <= i < |TokenNames| => (Tok(TokenNames[i]), Values(d)[i]))
  }

  /** Different names give different placeholders. */
  lemma TokInjective(a: string, b: string)
    requires Tok(a) == Tok(b)
    ensures a == b
  {
    assert a == Tok(a)[2..|Tok(a)| - 2];
    assert b == Tok(b)[2..|Tok(b)| - 2];
  }

  predicate KeysNonEmpty(subs: seq<(string, string)>) {
    forall i :: 0 <= i < |subs| ==> subs[i].0 != []
  }

  /** Every pair applied in turn, each to the text the previous ones left. */
  function ApplyAll(s: string, subs: seq<(string, string)>): string
    requires KeysNonEmpty(subs)
    decreases |subs|
  {
    if subs == [] then s else ApplyAll(ReplaceAll(s, subs[0].0, subs[0].1), subs[1..])
  }

  // ---------------------------------------------------------------- finishing

  /** `s.replace(/\n{4,}/g, "\n\n\n")`: every maximal run of four or more
      newlines becomes three. */
  function CollapseNewlines(s: string): string
    decreases |s|
  {
    if s == [] then []
    else
      var n := LeadRun(s, '\n');
      if n >= 4 then "\n\n\n" + CollapseNewlines(s[n..])
      else if n > 0 then s[..n] + CollapseNewlines(s[n..])
      else [s[0]] + CollapseNewlines(s[1..])
  }

  /** Four newlines in a row start at `i`. */
  predicate QuadAt(s: string, i: int) {
    0 <= i && i + 3 < |s| && s[i] == '\n' && s[i + 1] == '\n' && s[i + 2] == '\n' && s[i + 3] == '\n'
  }

  /** No run of four or more newlines. */
  predicate NoQuad(s: string) {
    forall i :: 0 <= i < |s| ==> !QuadAt(s, i)
  }

  /** The last step of `renderFromTemplate`. */
  function Finish(s: string): string {
    Trim(CollapseNewlines(s)) + "\n"
  }

  /** What `renderFromTemplate` returns. */
  function Rendered(tpl: string, d: BookData): string {
    Finish(ApplyAll(tpl, Substitutions(d)))
  }

  // ---------------------------------------------------------------- the renderer

  /** The seventeen `rep` calls: each pair replaced in turn. */
  method ApplySubstitutions(tpl: string, subs: seq<(string, string)>) returns (out: string)
    requires KeysNonEmpty(subs)
    ensures out == ApplyAll(tpl, subs)
  {
    out := tpl;
    for i := 0 to |subs|
      invariant ApplyAll(out, subs[i..]) == ApplyAll(tpl, subs)
    {
      assert subs[i..][1..] == subs[i + 1..];
      out := ReplaceAll(out, subs[i].0, subs[i].1);
    }
    assert subs[|subs|..] == [];
  }

  /** `renderFromTemplate`. */
  method RenderFromTemplate(tpl: string, d: BookData) returns (out: string)
    ensures out == Rendered(tpl, d)
  {
    var subs := Substitutions(d);
    out := ApplySubstitutions(tpl, subs);
    out := CollapseNewlines(out);
    out := Trim(out) + "\n";
  }

  // ---------------------------------------------------------------- properties

  /** A name without braces. */
  predicate BraceFree(name: string) {
    '{' !in name && '}' !in name
  }

  /** A placeholder occurs inside another placeholder only when the two
      names are the same, so no replacement can cut into a later
      placeholder of the template. */
  lemma TokenInToken(a: string, b: string)
    requires BraceFree(a) && BraceFree(b) && Occurs(Tok(b), Tok(a))
    ensures a == b
  {
    var ta, tb := Tok(a), Tok(b);
    var i :| 0 <= i <= |tb| && OccursAt(tb, ta, i);
    assert forall j :: 2 <= j < 2 + |b| ==> tb[j] == b[j - 2];
    assert forall j :: 2 <= j < 2 + |b| ==> tb[j] != '{' && tb[j] != '}';
    assert tb[i + 1] == ta[1] == '{';
    assert i == 0;
    assert tb[2 + |a|] == ta[2 + |a|] == '}';
    assert |a| == |b|;
    assert a == ta[2..2 + |a|] == tb[2..2 + |b|] == b;
  }

  /** The seventeen names are distinct and free of braces. */
  lemma TokenNamesShape()
    ensures forall i :: 0 <= i < |TokenNames| ==> BraceFree(TokenNames[i])
    ensures forall i, j :: 0 <= i < j < |TokenNames| ==> TokenNames[i] != TokenNames[j]
  {
    TokenNamesBraceFree();
    TokenNamesDistinct();
  }

  lemma TokenNamesBraceFree()
    ensures forall i :: 0 <= i < |TokenNames| ==> BraceFree(TokenNames[i])
  {
  }

  lemma TokenNamesDistinct()
    ensures forall i, j :: 0 <= i < j < |TokenNames| ==> TokenNames[i] != TokenNames[j]
  {
  }

  lemma {:induction false} ApplyAllAbsent(s: string, subs: seq<(string, string)>)
    requires KeysNonEmpty(subs)
    requires forall i :: 0 <= i < |subs| ==> !Occurs(s, subs[i].0)
    ensures ApplyAll(s, subs) == s
    decreases |subs|
  {
    if subs != [] {
      ReplaceAllAbsent(s, subs[0].0, subs[0].1);
      ApplyAllAbsent(s, subs[1..]);
    }
  }

  /** A template without placeholders is only collapsed, trimmed and given
      its final newline. */
  lemma NoTokenTemplate(tpl: string, d: BookData)
    requires forall i :: 0 <= i < |TokenNames| ==> !Occurs(tpl, Tok(TokenNames[i]))
    ensures Rendered(tpl, d) == Finish(tpl)
  {
    ApplyAllAbsent(tpl, Substitutions(d));
  }

  /** A template with no `{` at all is a special case. */
  lemma BracelessTemplate(tpl: string, d: BookData)
    requires '{' !in tpl
    ensures Rendered(tpl, d) == Finish(tpl)
  {
    forall i | 0 <= i < |TokenNames|
      ensures !Occurs(tpl, Tok(TokenNames[i]))
    {
      AbsentByChar(tpl, Tok(TokenNames[i]), '{');
    }
    NoTokenTemplate(tpl, d);
  }

  /** The pairs after the first `n` are what remains once the first `n`
      have found nothing to replace. */
  lemma {:induction false} ApplyAllSkip(s: string, subs: seq<(string, string)>, n: nat)
    requires KeysNonEmpty(subs) && n <= |subs|
    requires forall i :: 0 <= i < n ==> !Occurs(s, subs[i].0)
    ensures ApplyAll(s, subs) == ApplyAll(s, subs[n..])
    decreases n
  {
    if n > 0 {
      ReplaceAllAbsent(s, subs[0].0, subs[0].1);
      assert subs[1..][n - 1..] == subs[n..];
      ApplyAllSkip(s, subs[1..], n - 1);
    }
  }

  /** Applied to `{{description}}`, a table whose keys are the seventeen
      placeholders in order and whose description value is `{{rating}}`
      yields the rating value. */
  lemma {:induction false} DescriptionThenRatingTable(subs: seq<(string, string)>, rating: string)
    requires |subs| == |TokenNames| && KeysNonEmpty(subs)
    requires forall i :: 0 <= i < |subs| ==> subs[i].0 == Tok(TokenNames[i])
    requires subs[13].1 == Tok("rating") && subs[14].1 == rating && '{' !in rating
    ensures ApplyAll(Tok("description"), subs) == rating
  {
    var t := Tok("description");
    TokenNamesShape();
    forall i | 0 <= i < 13
      ensures !Occurs(t, subs[i].0)
    {
      if Occurs(t, subs[i].0) {
        TokenInToken(TokenNames[i], "description");
      }
    }
    ApplyAllSkip(t, subs, 13);
    var rest := subs[13..];
    ReplaceAllWhole(t, Tok("rating"));
    assert ApplyAll(t, rest) == ApplyAll(Tok("rating"), rest[1..]);
    ReplaceAllWhole(Tok("rating"), rating);
    var tail := rest[1..][1..];
    assert ApplyAll(Tok("rating"), rest[1..]) == ApplyAll(rating, tail);
    forall i | 0 <= i < |tail|
      ensures !Occurs(rating, tail[i].0)
    {
      assert tail[i].0 == subs[15 + i].0;
      AbsentByChar(rating, tail[i].0, '{');
    }
    ApplyAllAbsent(rating, tail);
  }

  /** Replacement order matters: a description reading `{{rating}}`,
      substituted before the rating, is itself rewritten to the rating. */
  lemma DescriptionThenRating(d: BookData)
    requires d.description == Tok("rating") && '{' !in d.rating
    ensures Rendered(Tok("description"), d) == Finish(d.rating)
  {
    var subs := Substitutions(d);
    SubstitutionsShape(d);
    TokTrimmed("rating");
    DescriptionThenRatingTable(subs, d.rating);
  }

  /** The table pairs each placeholder, in order, with its value. */
  lemma SubstitutionsShape(d: BookData)
    ensures |Substitutions(d)| == |TokenNames|
    ensures forall i :: 0 <= i < |TokenNames| ==> Substitutions(d)[i].0 == Tok(TokenNames[i])
    ensures Substitutions(d)[13].1 == Trim(d.description) && Substitutions(d)[14].1 == d.rating
  {
    ValuesAt(d);
    SubstitutionsPairs(d);
  }

  lemma ValuesAt(d: BookData)
    ensures Values(d)[13] == Trim(d.description) && Values(d)[14] == d.rating
  {
  }

  lemma SubstitutionsPairs(d: BookData)
    ensures |Substitutions(d)| == |TokenNames|
    ensures forall i :: 0 <= i < |TokenNames| ==> Substitutions(d)[i] == (Tok(TokenNames[i]), Values(d)[i])
  {
  }

  /** A placeholder has nothing to trim. */
  lemma TokTrimmed(name: string)
    ensures Trim(Tok(name)) == Tok(name)
  {
    TrimOfTrimmed(Tok(name));
  }

  /** Gluing a short run of newlines, or one other character, in front of a
      text without four newlines in a row keeps it so. */
  lemma QuadJoin(p: string, q: string)
    requires NoQuad(q)
    requires (|p| <= 3 && (forall i :: 0 <= i < |p| ==> p[i] == '\n') && (q == [] || q[0] != '\n'))
      || (|p| == 1 && p[0] != '\n')
    ensures NoQuad(p + q)
  {
    var r := p + q;
    forall i | 0 <= i < |r|
      ensures !QuadAt(r, i)
    {
      if i >= |p| {
        assert forall j :: |p| <= j < |r| ==> r[j] == q[j - |p|];
        assert !QuadAt(q, i - |p|);
      } else if |p| < |r| {
        assert r[|p|] == q[0];
      }
    }
  }

  lemma NoQuadSuffix(s: string, n: nat)
    requires NoQuad(s) && n <= |s|
    ensures NoQuad(s[n..])
  {
    forall i | 0 <= i < |s[n..]|
      ensures !QuadAt(s[n..], i)
    {
      assert !QuadAt(s, i + n);
    }
  }

  lemma {:induction false} CollapseNoQuad(s: string)
    ensures NoQuad(CollapseNewlines(s))
    ensures s == [] || s[0] != '\n' ==> CollapseNewlines(s) == [] || CollapseNewlines(s)[0] != '\n'
    decreases |s|
  {
    if s != [] {
      var n := LeadRun(s, '\n');
      if n > 0 {
        CollapseNoQuad(s[n..]);
        if n >= 4 {
          QuadJoin("\n\n\n", CollapseNewlines(s[n..]));
        } else {
          QuadJoin(s[..n], CollapseNewlines(s[n..]));
        }
      } else {
        CollapseNoQuad(s[1..]);
        QuadJoin([s[0]], CollapseNewlines(s[1..]));
      }
    }
  }

  /** Text already without four newlines in a row is left as it is. */
  lemma {:induction false} CollapseFixed(s: string)
    requires NoQuad(s)
    ensures CollapseNewlines(s) == s
    decreases |s|
  {
    if s != [] {
      var n := LeadRun(s, '\n');
      if n == 0 {
        NoQuadSuffix(s, 1);
        CollapseFixed(s[1..]);
        assert [s[0]] + s[1..] == s;
      } else {
        assert !QuadAt(s, 0);
        NoQuadSuffix(s, n);
        CollapseFixed(s[n..]);
        assert s[..n] + s[n..] == s;
      }
    }
  }

  /** A slice of text with no run of four newlines has none either. */
  lemma NoQuadSlice(c: string, k: nat, t: string)
    requires k + |t| <= |c| && t == c[k..k + |t|] && NoQuad(c)
    ensures NoQuad(t)
  {
    forall i | 0 <= i < |t| ensures !QuadAt(t, i) {
      if i + 3 < |t| {
        assert !QuadAt(c, i + k);
        assert t[i] == c[i + k] && t[i + 1] == c[i + 1 + k];
        assert t[i + 2] == c[i + 2 + k] && t[i + 3] == c[i + 3 + k];
      }
    }
  }

  /** One newline after text that does not end in a newline adds no run of
      four newlines. */
  lemma NoQuadSnocNewline(t: string)
    requires NoQuad(t) && (t == [] || t[|t| - 1] != '\n')
    ensures NoQuad(t + "\n")
  {
    var r := t + "\n";
    forall i | 0 <= i < |r| ensures !QuadAt(r, i) {
      if i + 3 < |t| {
        assert !QuadAt(t, i);
        assert r[i] == t[i] && r[i + 1] == t[i + 1] && r[i + 2] == t[i + 2] && r[i + 3] == t[i + 3];
      } else if i + 3 == |t| {
        assert r[i + 2] == t[|t| - 1];
      }
    }
  }

  /** Trimmed text does not end in a newline. */
  lemma TrimmedEndsOtherThanNewline(t: string)
    requires Trimmed(t)
    ensures t == [] || t[|t| - 1] != '\n'
  {
    assert IsSpace('\n');
  }

  /** The rendered note ends with exactly one newline after trimmed text
      and never holds four newlines in a row. */
  lemma FinishShape(s: string)
    ensures var r := Finish(s);
      && r != [] && r[|r| - 1] == '\n'
      && Trimmed(r[..|r| - 1])
      && NoQuad(r)
  {
    CollapseNoQuad(s);
    TrimThenNewline(CollapseNewlines(s));
  }

  /** Trimming text without four newlines in a row and adding one newline
      gives trimmed text, one newline, and still no such run. */
  lemma TrimThenNewline(c: string)
    requires NoQuad(c)
    ensures var r := Trim(c) + "\n";
      && r[|r| - 1] == '\n'
      && Trimmed(r[..|r| - 1])
      && NoQuad(r)
  {
    TrimIsSlice(c);
    var t := Trim(c);
    NoQuadSlice(c, LeadCount(c), t);
    TrimmedEndsOtherThanNewline(t);
    NoQuadSnocNewline(t);
    var r := t + "\n";
    assert r[..|r| - 1] == t;
  }

  /** Every rendering ends in a newline and has no run of four newlines. */
  lemma RenderedShape(tpl: string, d: BookData)
    ensures var r := Rendered(tpl, d);
      r != [] && r[|r| - 1] == '\n' && NoQuad(r)
  {
    FinishShape(ApplyAll(tpl, Substitutions(d)));
  }

  // ---------------------------------------------------------------- template path

  /** The path `readTemplate` looks up: trimmed, backslashes turned into
      slashes, leading slashes dropped; a blank path is an error. */
  function TemplatePath(input: string): Result<string, string> {
    var raw := Trim(input);
    if raw == [] then Err("Template path is empty.")
    else
      var norm := ReplaceAll(raw, "\\", "/");
      Ok(norm[LeadRun(norm, '/')..])
  }

  /** A blank path is refused; any other gives a path without backslashes
      that does not start with `/`. */
  lemma TemplatePathSpec(input: string)
    ensures TemplatePath(input).Err? <==> AllSpace(input)
    ensures TemplatePath(input).Ok? ==>
      var p := TemplatePath(input).value;
      '\\' !in p && (p == [] || p[0] != '/')
  {
    TrimEmptyIffAllSpace(input);
    var raw := Trim(input);
    if raw != [] {
      var norm := ReplaceAll(raw, "\\", "/");
      ReplaceAllRemovesChar(raw, '\\', "/");
      assert forall c :: c in norm[LeadRun(norm, '/')..] ==> c in norm;
    }
  }

  /** A clean relative path is used as it is. */
  lemma TemplatePathOfClean(p: string)
    requires p != [] && Trimmed(p) && '\\' !in p && p[0] != '/'
    ensures TemplatePath(p) == Ok(p)
  {
    TrimOfTrimmed(p);
    AbsentByChar(p, "\\", '\\');
    ReplaceAllAbsent(p, "\\", "/");
  }
}

=== FILE: series.dfy ===
/** Series (main.ts:317-371): the series name and link come from the
    product-details line, or else from the first series link on the page;
    the book number comes from "Book N" in the line's text, or else from the
    text of up to four ancestors of that link. */
module Series {
  import opened Wrappers
  import opened Strings
  import opened Normalize

  datatype SeriesInfo = SeriesInfo(name: string, url: string, book: string)

  /** An anchor: its text and its `href` attribute ("" when missing). */
  datatype Link = Link(text: string, href: string)

  /** A `div[data-testid="line"]` element: the text of its `.label` child
      ("" when it has none), its whole text, and its first
      `a.link[href*="/series/"]`. */
  datatype Line = Line(labelText: string, text: string, seriesLink: Option<Link>)

  /** The first `a[href*="/series/"]` of the page and the texts of its
      ancestors, nearest first. */
  datatype PageLink = PageLink(link: Link, ancestors: seq<string>)

  // ---------------------------------------------------------------- findBookNum

  /** The number of leading ASCII digits. */
  function DigitRun(s: string): (n: nat)
    ensures n <= |s|
    ensures forall i :: 0 <= i < n ==> IsDigit(s[i])
    ensures n < |s| ==> !IsDigit(s[n])
  {
    if s != [] && IsDigit(s[0]) then 1 + DigitRun(s[1..]) else 0
  }

  /** Whether `/\bBook\s+(\d+)\b/i` matches at position `i` of `t`, and the
      digits it captures. The whitespace and digit runs are maximal: a
      shorter digit run would end between two digits, where `\b` fails. */
  function BookNumAt(t: string, i: nat): Option<string>
    requires i <= |t|
  {
    if (i == 0 || !IsWordChar(t[i - 1])) && i + 4 <= |t| && Lower(t[i..i + 4]) == "book" then
      var rest := t[i + 4..];
      var w := LeadCount(rest);
      var d := DigitRun(rest[w..]);
      if w == 0 || d == 0 then None
      else if w + d < |rest| && IsWordChar(rest[w + d]) then None
      else Some(rest[w..w + d])
    else None
  }

  /** The match at every position of `t`, the end included. */
  function Matches(t: string): (ms: seq<Option<string>>)
    ensures |ms| == |t| + 1
    ensures forall k :: 0 <= k <= |t| ==> ms[k] == BookNumAt(t, k)
  {
    seq(|t| + 1, k requires 0 <= k <= |t| => BookNumAt(t, k))
  }

  /** The leftmost match: the first present entry. */
  function Leftmost(ms: seq<Option<string>>): Option<string> {
    if ms == [] then None
    else if ms[0].Some? then ms[0]
    else Leftmost(ms[1..])
  }

  /** `findBookNum`: the capture of the leftmost match of the space-normalised
      text, or "". */
  function FindBookNum(text: string): string {
    var m := Leftmost(Matches(NormalizeSpace(text)));
    if m.Some? then m.value else ""
  }

  predicate AllDigits(s: string) {
    forall i :: 0 <= i < |s| ==> IsDigit(s[i])
  }

  lemma BookNumAtDigits(t: string, i: nat)
    requires i <= |t|
    ensures BookNumAt(t, i).Some? ==> BookNumAt(t, i).value != [] && AllDigits(BookNumAt(t, i).value)
  {
  }

  /** `Leftmost` finds nothing exactly when every entry is absent, and
      otherwise returns the first present entry. */
  lemma {:induction false} LeftmostSpec(ms: seq<Option<string>>)
    ensures Leftmost(ms).None? <==> forall k :: 0 <= k < |ms| ==> ms[k].None?
    ensures Leftmost(ms).Some? ==>
      exists k :: 0 <= k < |ms| && ms[k] == Leftmost(ms) && forall j :: 0 <= j < k ==> ms[j].None?
  {
    if ms != [] && ms[0].None? {
      var tl := ms[1..];
      LeftmostSpec(tl);
      assert forall k :: 1 <= k < |ms| ==> ms[k] == tl[k - 1];
      if Leftmost(tl).Some? {
        var k :| 0 <= k < |tl| && tl[k] == Leftmost(tl) && forall j :: 0 <= j < k ==> tl[j].None?;
        assert ms[k + 1] == tl[k];
      }
    }
  }

  /** The book number is "" exactly when the normalised text has no match,
      and otherwise the digits of its leftmost match. */
  lemma FindBookNumSpec(text: string)
    ensures var t := NormalizeSpace(text);
      FindBookNum(text) == [] <==> forall k :: 0 <= k <= |t| ==> BookNumAt(t, k).None?
    ensures var t := NormalizeSpace(text);
      FindBookNum(text) != [] ==>
        exists k :: (0 <= k <= |t| && BookNumAt(t, k) == Some(FindBookNum(text))
          && forall j :: 0 <= j < k ==> BookNumAt(t, j).None?)
  {
    var t := NormalizeSpace(text);
    var ms := Matches(t);
    LeftmostSpec(ms);
    if Leftmost(ms).Some? {
      var k :| 0 <= k < |ms| && ms[k] == Leftmost(ms) && forall j :: 0 <= j < k ==> ms[j].None?;
      BookNumAtDigits(t, k);
      assert BookNumAt(t, k) == Some(FindBookNum(text)) && FindBookNum(text) != [];
      assert forall j :: 0 <= j < k ==> BookNumAt(t, j).None? by {
        forall j | 0 <= j < k ensures BookNumAt(t, j).None? {
          assert ms[j] == BookNumAt(t, j);
        }
      }
    } else {
      assert forall k :: 0 <= k <= |t| ==> BookNumAt(t, k).None? by {
        forall k | 0 <= k <= |t| ensures BookNumAt(t, k).None? {
          assert ms[k] == BookNumAt(t, k);
        }
      }
    }
  }

  /** The book number is empty or a run of digits. */
  lemma FindBookNumDigits(text: string)
    ensures AllDigits(FindBookNum(text))
  {
    var t := NormalizeSpace(text);
    FindBookNumSpec(text);
    if FindBookNum(text) != [] {
      var j :| 0 <= j <= |t| && BookNumAt(t, j) == Some(FindBookNum(text));
      BookNumAtDigits(t, j);
    }
  }

  /** "Book" in any letter case, one space and a digit run at the start of
      the text give that digit run. */
  lemma BookWordThenDigits(b: string, d: string)
    requires |b| == 4 && Lower(b) == "book" && NoSpace(b)
    requires d != [] && AllDigits(d)
    ensures FindBookNum(b + " " + d) == d
  {
    var t := b + " " + d;
    assert Normalized(t) by {
      assert forall i :: 0 <= i < |t| && IsSpace(t[i]) ==> i == 4;
    }
    NormalizeSpaceFixed(t);
    BookNumAtStart(b, d);
    assert Matches(t)[0] == Some(d);
  }

  /** The match at the start of "Book", a space and a digit run. */
  lemma BookNumAtStart(b: string, d: string)
    requires |b| == 4 && Lower(b) == "book"
    requires d != [] && AllDigits(d)
    ensures BookNumAt(b + " " + d, 0) == Some(d)
  {
    var t := b + " " + d;
    assert t[0..0 + 4] == b;
    var rest := t[4..];
    assert rest == " " + d;
    assert LeadCount(rest) == 1;
    assert rest[1..] == d;
    assert DigitRun(d) == |d|;
    assert rest[1..1 + |d|] == d;
  }

  // ---------------------------------------------------------------- line and link choice

  /** A line whose label reads "Series", ignoring case and spacing. */
  predicate IsSeriesLabel(l: Line) {
    Lower(NormalizeSpace(l.labelText)) == "series"
  }

  /** The first line labelled "Series". */
  function LabeledLine(lines: seq<Line>): Option<Line> {
    if lines == [] then None
    else if IsSeriesLabel(lines[0]) then Some(lines[0])
    else LabeledLine(lines[1..])
  }

  /** The `for` loop over the lines, with its `break`. */
  method FindLabeledLine(lines: seq<Line>) returns (r: Option<Line>)
    ensures r == LabeledLine(lines)
  {
    r := None;
    var i := 0;
    while i < |lines|
      invariant 0 <= i <= |lines|
      invariant LabeledLine(lines) == LabeledLine(lines[i..])
    {
      assert lines[i..][1..] == lines[i + 1..];
      if IsSeriesLabel(lines[i]) {
        r := Some(lines[i]);
        break;
      }
      i := i + 1;
    }
    if i == |lines| {
      assert lines[i..] == [];
    }
  }

  /** The line is the product-details line when the page has one, else the
      first line labelled "Series". */
  function SeriesLine(detail: Option<Line>, lines: seq<Line>): Option<Line> {
    if detail.Some? then detail else LabeledLine(lines)
  }

  /** The ancestor loop: from ancestor `i` on, while fewer than four have
      been read and no number has been found. */
  function AncestorBookNum(ancestors: seq<string>, bookNum: string, i: nat): string
    requires i <= 4
    decreases 4 - i
  {
    if i < 4 && i < |ancestors| && bookNum == [] then AncestorBookNum(ancestors, FindBookNum(ancestors[i]), i + 1)
    else bookNum
  }

  /** The name, URL and number found before the check at the end. */
  datatype Found = Found(name: string, url: string, book: string)

  /** What the details or labelled line gives. */
  function FromLine(line: Option<Line>): Found {
    if line.None? then Found("", "", "")
    else
      var l := line.value;
      if l.seriesLink.Some? then
        Found(NormalizeSpace(l.seriesLink.value.text), AbsAudibleUrl(l.seriesLink.value.href), FindBookNum(l.text))
      else Found("", "", FindBookNum(l.text))
  }

  /** The page-link fallback, taken when the line gave no URL. */
  function WithFallback(f: Found, page: Option<PageLink>): Found {
    if f.url == [] && page.Some? then
      var p := page.value;
      Found(NormalizeSpace(p.link.text), AbsAudibleUrl(p.link.href), AncestorBookNum(p.ancestors, f.book, 0))
    else f
  }

  /** `scrapeSeries`. */
  function SeriesOf(detail: Option<Line>, lines: seq<Line>, page: Option<PageLink>): Option<SeriesInfo> {
    var f := WithFallback(FromLine(SeriesLine(detail, lines)), page);
    if f.name == [] || f.url == [] then None else Some(SeriesInfo(f.name, CleanUrl(f.url), f.book))
  }

  /** The first half of `scrapeSeries`: name, URL and number from the
      chosen line. */
  method ReadLine(seriesLine: Option<Line>) returns (seriesName: string, seriesUrl: string, bookNum: string)
    ensures Found(seriesName, seriesUrl, bookNum) == FromLine(seriesLine)
  {
    seriesName := "";
    seriesUrl := "";
    bookNum := "";
    if seriesLine.Some? {
      var a := seriesLine.value.seriesLink;
      if a.Some? {
        seriesName := NormalizeSpace(a.value.text);
        seriesUrl := AbsAudibleUrl(a.value.href);
      }
      bookNum := FindBookNum(seriesLine.value.text);
    }
  }

  /** The ancestor loop of the page-link fallback. */
  method ReadAncestors(ancestors: seq<string>, lineBook: string) returns (bookNum: string)
    ensures bookNum == AncestorBookNum(ancestors, lineBook, 0)
  {
    bookNum := lineBook;
    var i := 0;
    while i < 4 && i < |ancestors| && bookNum == []
      invariant 0 <= i <= 4
      invariant AncestorBookNum(ancestors, bookNum, i) == AncestorBookNum(ancestors, lineBook, 0)
      decreases 4 - i
    {
      bookNum := FindBookNum(ancestors[i]);
      i := i + 1;
    }
  }

  /** `scrapeSeries`. */
  method ScrapeSeries(detail: Option<Line>, lines: seq<Line>, page: Option<PageLink>) returns (r: Option<SeriesInfo>)
    ensures r == SeriesOf(detail, lines, page)
  {
    var seriesLine := detail;
    if seriesLine.None? {
      seriesLine := FindLabeledLine(lines);
    }
    var seriesName, seriesUrl, bookNum := ReadLine(seriesLine);
    if seriesUrl == [] && page.Some? {
      var p := page.value;
      seriesName := NormalizeSpace(p.link.text);
      seriesUrl := AbsAudibleUrl(p.link.href);
      bookNum := ReadAncestors(p.ancestors, bookNum);
    }
    if seriesName == [] || seriesUrl == [] {
      return None;
    }
    return Some(SeriesInfo(seriesName, CleanUrl(seriesUrl), bookNum));
  }

  // ---------------------------------------------------------------- properties

  lemma AbsAudibleUrlClean(h: string)
    requires AbsAudibleUrl(h) != []
    ensures CleanUrl(AbsAudibleUrl(h)) != []
    ensures '?' !in CleanUrl(AbsAudibleUrl(h)) && '#' !in CleanUrl(AbsAudibleUrl(h))
  {
    var t := Trim(h);
    CleanUrlAgainNonEmpty(if StartsWith(t, "/") then AudibleOrigin + t else t);
  }

  lemma {:induction false} AncestorBookNumDigits(ancestors: seq<string>, bookNum: string, i: nat)
    requires i <= 4 && AllDigits(bookNum)
    ensures AllDigits(AncestorBookNum(ancestors, bookNum, i))
    decreases 4 - i
  {
    if i < 4 && i < |ancestors| && bookNum == [] {
      FindBookNumDigits(ancestors[i]);
      AncestorBookNumDigits(ancestors, FindBookNum(ancestors[i]), i + 1);
    }
  }

  /** A series is returned exactly when both a name and a link were
      found; its name is normalised, its URL non-empty without query or
      fragment, and its book number empty or digits. */
  lemma SeriesShape(detail: Option<Line>, lines: seq<Line>, page: Option<PageLink>)
    ensures var f := WithFallback(FromLine(SeriesLine(detail, lines)), page);
      SeriesOf(detail, lines, page).Some? <==> f.name != [] && f.url != []
    ensures var r := SeriesOf(detail, lines, page);
      r.Some? ==>
        && r.value.name != [] && Normalized(r.value.name)
        && r.value.url != [] && '?' !in r.value.url && '#' !in r.value.url
        && AllDigits(r.value.book)
  {
    var line := SeriesLine(detail, lines);
    var f0 := FromLine(line);
    var f := WithFallback(f0, page);
    if line.Some? {
      FindBookNumDigits(line.value.text);
      if line.value.seriesLink.Some? && f0.url != [] {
        AbsAudibleUrlClean(line.value.seriesLink.value.href);
      }
    }
    if f0.url == [] && page.Some? {
      AncestorBookNumDigits(page.value.ancestors, f0.book, 0);
      if f.url != [] {
        AbsAudibleUrlClean(page.value.link.href);
      }
    }
  }

  /** A details line with a series link that yields a URL makes the page
      link irrelevant. */
  lemma LineLinkWins(detail: Option<Line>, lines: seq<Line>, p1: Option<PageLink>, p2: Option<PageLink>)
    requires FromLine(SeriesLine(detail, lines)).url != []
    ensures SeriesOf(detail, lines, p1) == SeriesOf(detail, lines, p2)
  {
  }

  /** The details line is preferred over any labelled line. */
  lemma DetailLineFirst(d: Line, lines: seq<Line>, page: Option<PageLink>)
    ensures SeriesOf(Some(d), lines, page) == SeriesOf(Some(d), [], page)
  {
  }

  /** The first labelled line is the one used, whatever follows it. */
  lemma {:induction false} FirstLabeledLine(lines: seq<Line>, i: nat)
    requires i < |lines| && IsSeriesLabel(lines[i])
    requires forall j :: 0 <= j < i ==> !IsSeriesLabel(lines[j])
    ensures LabeledLine(lines) == Some(lines[i])
    decreases i
  {
    if i > 0 {
      var tl := lines[1..];
      assert !IsSeriesLabel(lines[0]);
      assert tl[i - 1] == lines[i];
      forall j | 0 <= j < i - 1
        ensures !IsSeriesLabel(tl[j])
      {
        assert tl[j] == lines[j + 1];
      }
      FirstLabeledLine(tl, i - 1);
    }
  }

  /** A number found in the line is kept: the ancestors are read only when
      the line gave none. */
  lemma LineBookNumKept(ancestors: seq<string>, bookNum: string)
    requires bookNum != []
    ensures AncestorBookNum(ancestors, bookNum, 0) == bookNum
  {
  }

  /** Only the four nearest ancestors are read, and the first of them with
      a number gives it. */
  lemma {:induction false} AncestorsFirstFour(ancestors: seq<string>, i: nat)
    requires i <= 4
    ensures AncestorBookNum(ancestors, [], i) == AncestorBookNum(ancestors[..if |ancestors| < 4 then |ancestors| else 4], [], i)
    decreases 4 - i
  {
    var short := ancestors[..if |ancestors| < 4 then |ancestors| else 4];
    if i < 4 && i < |ancestors| {
      assert i < |short| && short[i] == ancestors[i];
      var b := FindBookNum(ancestors[i]);
      assert AncestorBookNum(ancestors, [], i) == AncestorBookNum(ancestors, b, i + 1);
      assert AncestorBookNum(short, [], i) == AncestorBookNum(short, b, i + 1);
      if b == [] {
        AncestorsFirstFour(ancestors, i + 1);
      }
    }
  }

  /** The number comes from the first of the four nearest ancestors that
      has one; with none, it stays empty. */
  lemma {:induction false} AncestorFirstMatch(ancestors: seq<string>, i: nat, k: nat)
    requires i <= k < 4 && k < |ancestors| && FindBookNum(ancestors[k]) != []
    requires forall j :: i <= j < k ==> FindBookNum(ancestors[j]) == []
    ensures AncestorBookNum(ancestors, [], i) == FindBookNum(ancestors[k])
    decreases k - i
  {
    if i < k {
      AncestorFirstMatch(ancestors, i + 1, k);
    }
  }
}

=== FILE: settings.dfy ===
/** The settings helpers of settings.ts: the vault-path normaliser, the
    tag-rules parser (post-processing of the value `JSON.parse` returns, or
    of the error it throws) and the per-category tag builder. */
module Settings {
  import opened Wrappers
  import opened Strings
  import opened Dedupe
  import opened JsonLd

  // ---------------------------------------------------------------- safeNormalizePath

  /** The steps of `safeNormalizePath` after the backslash rewrite, as
      written (settings.ts:88-90): leading and then trailing slashes are
      dropped, and the result is trimmed last. */
  function StripSlashesThenTrim(norm: string): string {
    var a := norm[LeadRun(norm, '/')..];
    Trim(a[..|a| - TrailRun(a, '/')])
  }

  /** `safeNormalizePath` as written (settings.ts:85-91). */
  function SafeNormalizePathAsWritten(p: string): string {
    StripSlashesThenTrim(ReplaceAll(p, "\\", "/"))
  }

  /** Converting backslashes to slashes leaves no backslash, adds no
      whitespace, and keeps the empty path empty. */
  lemma SlashConverted(p: string)
    ensures '\\' !in ReplaceAll(p, "\\", "/")
    ensures NoSpace(p) ==> NoSpace(ReplaceAll(p, "\\", "/"))
    ensures p == [] ==> ReplaceAll(p, "\\", "/") == []
  {
    var norm := ReplaceAll(p, "\\", "/");
    ReplaceAllRemovesChar(p, '\\', "/");
    ReplaceAllChars(p, "\\", "/");
    if NoSpace(p) {
      forall i | 0 <= i < |norm|
        ensures !IsSpace(norm[i])
      {
        assert norm[i] in norm;
      }
    }
  }

  /** The as-written steps keep a contiguous part of their input, so they
      bring in no backslash. */
  lemma StripSlashesThenTrimPart(norm: string)
    requires '\\' !in norm
    ensures '\\' !in StripSlashesThenTrim(norm)
  {
    var n := LeadRun(norm, '/');
    SliceLacks(norm, n, |norm|, '\\');
    var a := norm[n..];
    var b := a[..|a| - TrailRun(a, '/')];
    SliceLacks(a, 0, |a| - TrailRun(a, '/'), '\\');
    TrimIsSlice(b);
    SliceLacks(b, LeadCount(b), LeadCount(b) + |Trim(b)|, '\\');
  }

  /** Without whitespace, the as-written steps strip exactly the slashes at
      both ends. */
  lemma StripSlashesThenTrimNoSpace(norm: string)
    requires NoSpace(norm)
    ensures StripSlashesThenTrim(norm) == StripEdges(norm)
  {
    var n := LeadRun(norm, '/');
    LeadSlashesAreEdges(norm);
    NoSpaceSlice(norm, n, |norm|);
    var a := norm[n..];
    var t := TrailRun(a, '/');
    TrailSlashesAreEdges(a);
    NoSpaceSlice(a, 0, |a| - t);
    var b := a[..|a| - t];
    NoSpaceTrimmed(b);
    assert StripEdges(norm) == b;
  }

  /** Without whitespace the leading edge run is the leading slash run. */
  lemma LeadSlashesAreEdges(s: string)
    requires NoSpace(s)
    ensures LeadRun(s, '/') == EdgeRun(s)
  {
    EdgeRunUnique(s, LeadRun(s, '/'));
  }

  /** Without whitespace the trailing edge run is the trailing slash run. */
  lemma TrailSlashesAreEdges(s: string)
    requires NoSpace(s)
    ensures TrailRun(s, '/') == TrailEdgeRun(s)
  {
    TrailEdgeRunUnique(s, TrailRun(s, '/'));
  }

  lemma NoSpaceSlice(s: string, i: int, j: int)
    requires NoSpace(s) && 0 <= i <= j <= |s|
    ensures NoSpace(s[i..j])
  {
    assert forall k :: 0 <= k < j - i ==> s[i..j][k] == s[i + k];
  }

  /** Text without whitespace is its own trim. */
  lemma NoSpaceTrimmed(s: string)
    requires NoSpace(s)
    ensures Trim(s) == s
  {
    TrimOfTrimmed(s);
  }

  /** The as-written path has no backslash, an empty input gives "", and an
      input without any whitespace comes back with no `/` at either end. */
  lemma SafeNormalizePathAsWrittenSpec(p: string)
    ensures var r := SafeNormalizePathAsWritten(p);
      && '\\' !in r
      && (p == [] ==> r == [])
      && (NoSpace(p) ==> r == [] || (r[0] != '/' && r[|r| - 1] != '/'))
  {
    var norm := ReplaceAll(p, "\\", "/");
    SlashConverted(p);
    StripSlashesThenTrimPart(norm);
    if NoSpace(p) {
      StripSlashesThenTrimNoSpace(norm);
      StripEdgesClean(norm);
    }
  }

  /** As written, the trailing slash is dropped, then the trim removes the
      space before it and exposes the next slash: `c/ /` becomes `c/`. */
  lemma StripSlashesThenTrimKeepsSlash(c: char)
    requires !IsPathEdge(c)
    ensures StripSlashesThenTrim([c, '/', ' ', '/']) == [c, '/']
  {
    var p := [c, '/', ' ', '/'];
    assert LeadRun(p, '/') == 0;
    assert p[0..] == p;
    TrailRunUnique(p, 1);
    assert p[..3] == [c, '/', ' '];
    TrimIsSlice(p[..3]);
    assert LeadCount(p[..3]) == 0;
    assert TrailCount(p[..3]) == 1 by {
      assert p[..3][..2] == [c, '/'];
    }
  }

  /** The corrected steps strip `c/ /` down to `c`. */
  lemma StripEdgesOfSpacedSlash(c: char)
    requires !IsPathEdge(c)
    ensures StripEdges([c, '/', ' ', '/']) == [c]
  {
    var p := [c, '/', ' ', '/'];
    EdgeRunUnique(p, 0);
    assert p[0..] == p;
    TrailEdgeRunUnique(p, 3);
  }

  /** The trailing whitespace left after the trailing slashes are stripped
      is trimmed away and exposes another slash: for any ordinary first
      character `c`, "c/ /" has no surrounding whitespace, yet its as-written
      normal form "c/" ends with `/`. The corrected form gives "c". */
  lemma SafeNormalizePathTrailingSlashKept(c: char)
    requires !IsPathEdge(c) && c != '\\'
    ensures SafeNormalizePathAsWritten([c, '/', ' ', '/']) == [c, '/']
    ensures SafeNormalizePath([c, '/', ' ', '/']) == [c]
  {
    var p := [c, '/', ' ', '/'];
    AbsentByChar(p, "\\", '\\');
    ReplaceAllAbsent(p, "\\", "/");
    StripSlashesThenTrimKeepsSlash(c);
    StripEdgesOfSpacedSlash(c);
  }

  /** The input "a/ /" shows it. */
  lemma SafeNormalizePathAsWrittenEndsInSlash()
    ensures var r := SafeNormalizePathAsWritten("a/ /"); r != [] && r[|r| - 1] == '/'
    ensures SafeNormalizePath("a/ /") == "a"
  {
    SafeNormalizePathTrailingSlashKept('a');
  }

  /** A path character that the corrected normaliser strips from either
      end: a slash or whitespace. */
  predicate IsPathEdge(c: char) {
    c == '/' || IsSpace(c)
  }

  function EdgeRun(s: string): (n: nat)
    ensures n <= |s|
    ensures forall i :: 0 <= i < n ==> IsPathEdge(s[i])
    ensures n < |s| ==> !IsPathEdge(s[n])
  {
    if s != [] && IsPathEdge(s[0]) then 1 + EdgeRun(s[1..]) else 0
  }

  function TrailEdgeRun(s: string): (n: nat)
    ensures n <= |s|
    ensures forall i :: |s| - n <= i < |s| ==> IsPathEdge(s[i])
    ensures n < |s| ==> !IsPathEdge(s[|s| - 1 - n])
  {
    if s != [] && IsPathEdge(s[|s| - 1]) then 1 + TrailEdgeRun(s[..|s| - 1]) else 0
  }

  /** `s` without the slashes and whitespace at either end. */
  function StripEdges(s: string): string {
    var a := s[EdgeRun(s)..];
    a[..|a| - TrailEdgeRun(a)]
  }

  /** What `StripEdges` leaves is the part of `s` after its leading edge run. */
  lemma StripEdgesSlice(s: string)
    ensures var r := StripEdges(s);
      EdgeRun(s) + |r| <= |s| && r == s[EdgeRun(s)..EdgeRun(s) + |r|]
  {
    var n := EdgeRun(s);
    var a := s[n..];
    var r := a[..|a| - TrailEdgeRun(a)];
    assert r == s[n..n + |r|];
  }

  /** What `StripEdges` leaves has no slash or whitespace at either end. */
  lemma StripEdgesEnds(s: string)
    ensures var r := StripEdges(s);
      r == [] || (!IsPathEdge(r[0]) && !IsPathEdge(r[|r| - 1]))
  {
    var a := s[EdgeRun(s)..];
    var t := TrailEdgeRun(a);
    var r := a[..|a| - t];
    if r != [] {
      assert r[0] == a[0];
      assert r[|r| - 1] == a[|a| - 1 - t];
    }
  }

  /** What `StripEdges` leaves is a contiguous part of `s` with no slash or
      whitespace at either end. */
  lemma StripEdgesSpec(s: string)
    ensures var r := StripEdges(s);
      && (r == [] || (!IsPathEdge(r[0]) && !IsPathEdge(r[|r| - 1])))
      && |r| <= |s| && r == s[EdgeRun(s)..EdgeRun(s) + |r|]
  {
    StripEdgesSlice(s);
    StripEdgesEnds(s);
  }

  /** Stripping the edges of text without backslashes leaves trimmed text
      without backslashes and without a `/` at either end. */
  lemma StripEdgesClean(s: string)
    requires '\\' !in s
    ensures var r := StripEdges(s);
      && '\\' !in r && Trimmed(r)
      && (r == [] || (r[0] != '/' && r[|r| - 1] != '/'))
  {
    var r := StripEdges(s);
    StripEdgesSpec(s);
    var n := EdgeRun(s);
    forall i | 0 <= i < |r|
      ensures r[i] != '\\'
    {
      assert r[i] == s[n + i];
    }
  }

  /** `safeNormalizePath` as evidently intended: backslashes become slashes
      and every slash and whitespace character is stripped from both ends,
      so neither can be left at an end whatever order they come in. */
  function SafeNormalizePath(p: string): string {
    StripEdges(ReplaceAll(p, "\\", "/"))
  }

  /** The corrected path has no backslash, is trimmed, has no `/` at either
      end, is "" for an empty input, and is the part of the slash-converted
      input that follows its leading slashes and whitespace. */
  lemma SafeNormalizePathSpec(p: string)
    ensures var r := SafeNormalizePath(p);
      && '\\' !in r
      && Trimmed(r)
      && (r == [] || (r[0] != '/' && r[|r| - 1] != '/'))
      && (p == [] ==> r == [])
      && var norm := ReplaceAll(p, "\\", "/");
         EdgeRun(norm) + |r| <= |norm| && r == norm[EdgeRun(norm)..EdgeRun(norm) + |r|]
  {
    var norm := ReplaceAll(p, "\\", "/");
    ReplaceAllRemovesChar(p, '\\', "/");
    StripEdgesOfConverted(norm);
    assert SafeNormalizePath(p) == StripEdges(norm);
  }

  /** Everything `SafeNormalizePathSpec` states, for a plain string without
      backslashes. */
  lemma StripEdgesOfConverted(norm: string)
    requires '\\' !in norm
    ensures var r := StripEdges(norm);
      && '\\' !in r
      && Trimmed(r)
      && (r == [] || (r[0] != '/' && r[|r| - 1] != '/'))
      && (norm == [] ==> r == [])
      && EdgeRun(norm) + |r| <= |norm| && r == norm[EdgeRun(norm)..EdgeRun(norm) + |r|]
  {
    StripEdgesSlice(norm);
    StripEdgesClean(norm);
  }

  /** Normalising a normalised path changes nothing. */
  lemma SafeNormalizePathIdempotent(p: string)
    ensures SafeNormalizePath(SafeNormalizePath(p)) == SafeNormalizePath(p)
  {
    var r := SafeNormalizePath(p);
    SafeNormalizePathSpec(p);
    AbsentByChar(r, "\\", '\\');
    ReplaceAllAbsent(r, "\\", "/");
    EdgeRunUnique(r, 0);
    assert r[0..] == r;
    TrailEdgeRunUnique(r, 0);
  }

  /** The leading run is the only prefix of edge characters followed by a
      non-edge character. */
  lemma {:induction false} EdgeRunUnique(s: string, n: nat)
    requires n <= |s|
    requires forall i :: 0 <= i < n ==> IsPathEdge(s[i])
    requires n < |s| ==> !IsPathEdge(s[n])
    ensures EdgeRun(s) == n
  {
    if n > 0 {
      EdgeRunUnique(s[1..], n - 1);
    }
  }

  lemma {:induction false} TrailRunUnique(s: string, n: nat)
    requires n <= |s|
    requires forall i :: |s| - n <= i < |s| ==> s[i] == '/'
    requires n < |s| ==> s[|s| - 1 - n] != '/'
    ensures TrailRun(s, '/') == n
  {
    if n > 0 {
      TrailRunUnique(s[..|s| - 1], n - 1);
    }
  }

  lemma {:induction false} TrailEdgeRunUnique(s: string, n: nat)
    requires n <= |s|
    requires forall i :: |s| - n <= i < |s| ==> IsPathEdge(s[i])
    requires n < |s| ==> !IsPathEdge(s[|s| - 1 - n])
    ensures TrailEdgeRun(s) == n
  {
    if n > 0 {
      TrailEdgeRunUnique(s[..|s| - 1], n - 1);
    }
  }

  /** On an input without whitespace the corrected and the as-written
      normalisers agree. */
  lemma SafeNormalizePathAgrees(p: string)
    requires NoSpace(p)
    ensures SafeNormalizePath(p) == SafeNormalizePathAsWritten(p)
  {
    SlashConverted(p);
    StripSlashesThenTrimNoSpace(ReplaceAll(p, "\\", "/"));
  }

  // ---------------------------------------------------------------- parseTagRules

  /** `TagRules` (settings.ts:6-9): tags every book gets, and extra tags per
      category folder name. */
  datatype TagRules = TagRules(baseTags: seq<string>, categoryTags: map<string, seq<string>>)

  /** What `JSON.parse` did with the rules text: the value it returned, or
      the `message` of the error it threw ("" when the error has none). */
  datatype ParseOutcome = Parsed(value: Json) | Failed(message: string)

  /** `parseTagRules`'s result: the rules and an error text, "" on success. */
  datatype ParsedRules = ParsedRules(rules: TagRules, error: string)

  const NoRules := TagRules([], map[])

  const InvalidJson := "Invalid JSON"

  /** `v.map(String)`. */
  function StringsOf(items: seq<Json>): seq<string> {
    seq(|items|, i requires 0 <= i < |items| => JsString(items[i]))
  }

  /** `Array.isArray(raw?.baseTags) ? raw.baseTags.map(String) : []`. */
  function BaseTagsOf(raw: Json): seq<string> {
    match Get(raw, "baseTags")
    case Some(JArr(items)) => StringsOf(items)
    case _ => []
  }

  /** The decimal text of a natural number, as an array index key reads. */
  function DecimalString(n: nat): string
    decreases n
  {
    var d := ['0' + (n % 10) as char];
    if n < 10 then d else DecimalString(n / 10) + d
  }

  /** The own enumerable properties of an array: its index keys. */
  function IndexProps(items: seq<Json>): map<string, Json> {
    if items == [] then map[]
    else IndexProps(items[..|items| - 1])[DecimalString(|items| - 1) := items[|items| - 1]]
  }

  /** `raw?.categoryTags && typeof raw.categoryTags === "object" ? … : {}`,
      seen through `Object.keys`: the properties of an object, the index
      keys of an array, and nothing for any other value. */
  function CategorySource(raw: Json): map<string, Json> {
    match Get(raw, "categoryTags")
    case Some(JObj(fields)) => fields
    case Some(JArr(items)) => IndexProps(items)
    case _ => map[]
  }

  /** The entries of `src` among `done` whose values are arrays, each
      coerced to strings. */
  function ArrayEntries(src: map<string, Json>, done: set<string>): map<string, seq<string>> {
    map k | k in src.Keys && k in done && src[k].JArr? :: StringsOf(src[k].items)
  }

  /** The `baseTags` array, if any, converts to strings. */
  predicate BaseConverts(raw: Json) {
    match Get(raw, "baseTags")
    case Some(JArr(items)) => Stringable(JArr(items))
    case _ => true
  }

  /** Every array among the entries of `src` in `done` converts to strings. */
  predicate EntriesConvert(src: map<string, Json>, done: set<string>) {
    forall k :: k in src.Keys && k in done && src[k].JArr? ==> Stringable(src[k])
  }

  /** Every `map(String)` of `parseTagRules` returns. */
  predicate RulesConvert(raw: Json) {
    BaseConverts(raw) && EntriesConvert(CategorySource(raw), CategorySource(raw).Keys)
  }

  /** `parseTagRules`: the catch path for a failed parse and for a
      conversion that throws, and the rules otherwise. */
  function TagRulesOf(outcome: ParseOutcome): ParsedRules {
    match outcome
    case Failed(message) =>
      ParsedRules(NoRules, if message != [] then message else InvalidJson)
    case Parsed(raw) =>
      if !RulesConvert(raw) then ParsedRules(NoRules, ToPrimitiveError)
      else
        var src := CategorySource(raw);
        ParsedRules(TagRules(BaseTagsOf(raw), ArrayEntries(src, src.Keys)), "")
  }

  /** The `for (const k of Object.keys(categoryTagsRaw))` loop of
      `parseTagRules`, over the keys in any order; a `map(String)` that
      throws leaves for the catch. */
  method ParseTagRules(outcome: ParseOutcome) returns (res: ParsedRules)
    ensures res == TagRulesOf(outcome)
  {
    match outcome
    case Failed(message) =>
      res := ParsedRules(NoRules, if message != [] then message else InvalidJson);
    case Parsed(raw) =>
      if !BaseConverts(raw) {
        return ParsedRules(NoRules, ToPrimitiveError);
      }
      var baseTags := BaseTagsOf(raw);
      var src := CategorySource(raw);
      var categoryTags: map<string, seq<string>> := map[];
      var todo := src.Keys;
      while todo != {}
        invariant todo <= src.Keys
        invariant EntriesConvert(src, src.Keys - todo)
        invariant categoryTags == ArrayEntries(src, src.Keys - todo)
        decreases |todo|
      {
        var k :| k in todo;
        var v := src[k];
        if v.JArr? && !Stringable(v) {
          return ParsedRules(NoRules, ToPrimitiveError);
        }
        EntryStep(src, src.Keys - todo, k);
        if v.JArr? {
          categoryTags := categoryTags[k := StringsOf(v.items)];
        }
        assert src.Keys - (todo - {k}) == (src.Keys - todo) + {k};
        todo := todo - {k};
      }
      assert src.Keys - todo == src.Keys;
      res := ParsedRules(TagRules(baseTags, categoryTags), "");
  }

  /** One more key of the loop: its entry joins the converted ones. */
  lemma EntryStep(src: map<string, Json>, done: set<string>, k: string)
    requires k in src.Keys && k !in done
    requires EntriesConvert(src, done)
    requires src[k].JArr? ==> Stringable(src[k])
    ensures EntriesConvert(src, done + {k})
    ensures src[k].JArr? ==> ArrayEntries(src, done + {k}) == ArrayEntries(src, done)[k := StringsOf(src[k].items)]
    ensures !src[k].JArr? ==> ArrayEntries(src, done + {k}) == ArrayEntries(src, done)
  {
  }

  /** The error text is empty exactly when the text parsed and every
      conversion returned; on any error there are no rules at all. */
  lemma ParseErrorPath(outcome: ParseOutcome)
    ensures TagRulesOf(outcome).error == [] <==> outcome.Parsed? && RulesConvert(outcome.value)
    ensures TagRulesOf(outcome).error != [] ==> TagRulesOf(outcome).rules == NoRules
    ensures outcome.Failed? && outcome.message != [] ==> TagRulesOf(outcome).error == outcome.message
    ensures outcome.Parsed? && !RulesConvert(outcome.value) ==> TagRulesOf(outcome).error == ToPrimitiveError
  {
  }

  /** An object with its own `toString` key among the base tags sends the
      parse to the catch path, with the TypeError's message. */
  lemma ToStringBaseTagFails(x: Json)
    requires x.JObj? && "toString" in x.fields
    ensures TagRulesOf(Parsed(JObj(map["baseTags" := JArr([x])]))) == ParsedRules(NoRules, ToPrimitiveError)
  {
    assert !Stringable([x][0]);
  }

  /** `baseTags` is [] unless the parsed value has an array there. */
  lemma BaseTagsField(raw: Json)
    ensures var base := TagRulesOf(Parsed(raw)).rules.baseTags;
      && (forall items :: Get(raw, "baseTags") != Some(JArr(items))) ==> base == []
  {
  }

  /** An array `baseTags` gives one entry per element, with string elements
      kept as they are, when every conversion returns; otherwise the parse
      fails and there are no base tags. */
  lemma BaseTagsArray(raw: Json, items: seq<Json>)
    requires Get(raw, "baseTags") == Some(JArr(items))
    ensures var base := TagRulesOf(Parsed(raw)).rules.baseTags;
      && (RulesConvert(raw) ==>
            && |base| == |items|
            && forall i :: 0 <= i < |items| && items[i].JStr? ==> base[i] == items[i].s)
      && (!RulesConvert(raw) ==> base == [])
  {
  }

  /** With an object for `categoryTags`, exactly its array-valued keys are
      kept, each with one string per element, when every conversion
      returns; otherwise the parse fails and no category is kept. */
  lemma CategoryTagsKeys(raw: Json, fields: map<string, Json>)
    requires Get(raw, "categoryTags") == Some(JObj(fields))
    ensures var ct := TagRulesOf(Parsed(raw)).rules.categoryTags;
      && (RulesConvert(raw) ==>
            && (forall k :: k in ct <==> k in fields && fields[k].JArr?)
            && forall k :: k in ct ==> |ct[k]| == |fields[k].items|)
      && (!RulesConvert(raw) ==> ct == map[])
  {
  }

  /** A missing `categoryTags`, or one that is neither an object nor an
      array, gives no category tags. */
  lemma CategoryTagsAbsent(raw: Json)
    requires forall v :: Get(raw, "categoryTags") == Some(v) ==> !IsObjectLike(v)
    ensures TagRulesOf(Parsed(raw)).rules.categoryTags == map[]
  {
  }

  // ---------------------------------------------------------------- buildTagsForCategory

  /** `buildTagsForCategory`: the base tags, then the tags of the category
      looked up by its exact trimmed name, deduplicated. */
  function TagsForCategory(category: string, rules: TagRules): seq<string> {
    var key := Trim(category);
    var extra := if key != [] && key in rules.categoryTags then rules.categoryTags[key] else [];
    Deduped(rules.baseTags + extra)
  }

  /** The pushes into `tags` and the final `dedupeKeepOrder`. */
  method BuildTagsForCategory(category: string, rules: TagRules) returns (out: seq<string>)
    ensures out == TagsForCategory(category, rules)
  {
    var tags: seq<string> := [];
    tags := tags + rules.baseTags;
    var key := Trim(category);
    if key != [] && key in rules.categoryTags {
      tags := tags + rules.categoryTags[key];
    }
    assert tags == rules.baseTags + (if key != [] && key in rules.categoryTags then rules.categoryTags[key] else []);
    out := DedupeKeepOrder(tags);
  }

  /** The deduplicated base tags come first; the output is trimmed,
      non-empty and duplicate-free. */
  lemma BaseTagsFirst(category: string, rules: TagRules)
    ensures Deduped(rules.baseTags) <= TagsForCategory(category, rules)
    ensures AllTrimmedNonEmpty(TagsForCategory(category, rules)) && Distinct(TagsForCategory(category, rules))
  {
    var key := Trim(category);
    DedupePrefix(rules.baseTags, if key != [] && key in rules.categoryTags then rules.categoryTags[key] else []);
    DedupeWellFormed(rules.baseTags + (if key != [] && key in rules.categoryTags then rules.categoryTags[key] else []));
  }

  /** A blank category adds nothing. */
  lemma BlankCategory(category: string, rules: TagRules)
    requires AllSpace(category)
    ensures TagsForCategory(category, rules) == Deduped(rules.baseTags)
  {
    TrimEmptyIffAllSpace(category);
    assert rules.baseTags + [] == rules.baseTags;
  }

  /** The lookup is by the exact trimmed name: the category's tags are added
      when that name is a key, and nothing is added otherwise. */
  lemma CategoryLookup(category: string, rules: TagRules)
    ensures Trim(category) != [] && Trim(category) in rules.categoryTags ==>
      TagsForCategory(category, rules) == Deduped(rules.baseTags + rules.categoryTags[Trim(category)])
    ensures Trim(category) !in rules.categoryTags ==>
      TagsForCategory(category, rules) == Deduped(rules.baseTags)
  {
    assert rules.baseTags + [] == rules.baseTags;
  }

  /** A tag is in the output exactly when it is the non-empty trimmed form
      of a base tag or of one of the category's tags. */
  lemma CategoryTagsMembers(category: string, rules: TagRules, v: string)
    ensures var extra := if Trim(category) != [] && Trim(category) in rules.categoryTags then rules.categoryTags[Trim(category)] else [];
      v in TagsForCategory(category, rules) <==>
        v != [] && ((exists i :: 0 <= i < |rules.baseTags| && Trim(rules.baseTags[i]) == v)
                    || (exists i :: 0 <= i < |extra| && Trim(extra[i]) == v))
  {
    var key := Trim(category);
    DedupeConcatMembers(rules.baseTags, if key != [] && key in rules.categoryTags then rules.categoryTags[key] else [], v);
  }

  // ---------------------------------------------------------------- default rules

  /** The value the default `tagRulesJson` text (settings.ts:73-83) parses
      to. */
  const DefaultRulesJson: Json :=
    JObj(map[
      "baseTags" := JArr([JStr("Book"), JStr("Audible")]),
      "categoryTags" := JObj(map["Adult Fantasy" := JArr([JStr("Adult"), JStr("Fantasy"), JStr("Erotic")])])
    ])

  const DefaultRules := TagRules(["Book", "Audible"], map["Adult Fantasy" := ["Adult", "Fantasy", "Erotic"]])

  /** The default text parses, without error, to the base tags Book and
      Audible and one category, "Adult Fantasy". */
  lemma DefaultRulesParse()
    ensures TagRulesOf(Parsed(DefaultRulesJson)) == ParsedRules(DefaultRules, "")
  {
    var src := CategorySource(DefaultRulesJson);
    assert src == map["Adult Fantasy" := JArr([JStr("Adult"), JStr("Fantasy"), JStr("Erotic")])];
    assert StringsOf([JStr("Adult"), JStr("Fantasy"), JStr("Erotic")]) == ["Adult", "Fantasy", "Erotic"];
    assert BaseTagsOf(DefaultRulesJson) == ["Book", "Audible"];
    assert ArrayEntries(src, src.Keys) == DefaultRules.categoryTags;
  }

  /** A trimmed category name that is a key, with clean tags, gives the base
      tags followed by the category's tags, unchanged. */
  lemma CleanCategoryTags(category: string, rules: TagRules)
    requires category != [] && Trimmed(category) && category in rules.categoryTags
    requires AllTrimmedNonEmpty(rules.baseTags + rules.categoryTags[category])
    requires Distinct(rules.baseTags + rules.categoryTags[category])
    ensures TagsForCategory(category, rules) == rules.baseTags + rules.categoryTags[category]
  {
    TrimOfTrimmed(category);
    DedupeOfDeduped(rules.baseTags + rules.categoryTags[category]);
  }

  /** A trimmed category name that is not a key, with clean base tags, gives
      the base tags unchanged. */
  lemma UnknownCategoryTags(category: string, rules: TagRules)
    requires Trimmed(category) && category !in rules.categoryTags
    requires AllTrimmedNonEmpty(rules.baseTags) && Distinct(rules.baseTags)
    ensures TagsForCategory(category, rules) == rules.baseTags
  {
    TrimOfTrimmed(category);
    assert rules.baseTags + [] == rules.baseTags;
    DedupeOfDeduped(rules.baseTags);
  }

  /** With the default rules, the "Adult Fantasy" folder gets the base tags
      and then its own three. */
  lemma DefaultAdultFantasy()
    ensures TagsForCategory("Adult Fantasy", DefaultRules) == ["Book", "Audible", "Adult", "Fantasy", "Erotic"]
  {
    var all := ["Book", "Audible", "Adult", "Fantasy", "Erotic"];
    assert DefaultRules.baseTags + DefaultRules.categoryTags["Adult Fantasy"] == all;
    DefaultAdultFantasyTagsClean();
    CleanCategoryTags("Adult Fantasy", DefaultRules);
  }

  /** The default base and "Adult Fantasy" tags are trimmed, non-empty and
      distinct. */
  lemma DefaultAdultFantasyTagsClean()
    ensures var all := ["Book", "Audible", "Adult", "Fantasy", "Erotic"];
      AllTrimmedNonEmpty(all) && Distinct(all)
  {
    var all := ["Book", "Audible", "Adult", "Fantasy", "Erotic"];
    assert forall i :: 0 <= i < |all| ==> all[i] != [] && !IsSpace(all[i][0]) && !IsSpace(all[i][|all[i]| - 1]);
    assert forall i, j :: 0 <= i < j < |all| ==> all[i][0] != all[j][0] || all[i][1] != all[j][1];
  }

  /** The lookup is case-sensitive: with the default rules the lower-case
      "adult fantasy" folder is another key and gets only the base tags. */
  lemma DefaultLowerCaseCategory()
    ensures TagsForCategory("adult fantasy", DefaultRules) == ["Book", "Audible"]
  {
    UnknownCategoryTags("adult fantasy", DefaultRules);
  }
}

=== FILE: strings.dfy ===
/** Optional values and results, used for JavaScript's `undefined`/`null`
    and for operations that either succeed or report an error. */
module Wrappers {
  datatype Option<T> = None | Some(value: T)

  datatype Result<T, E> = Ok(value: T) | Err(error: E)
}

/** Character classes and the string primitives the plugin builds on
    (`trim`, `toLowerCase`, `split`/`join`, `split(k).join(v)`).
    A string is a sequence of characters, and `|s|` counts characters. */
module Strings {

  /** JavaScript's `\s` (and the set `trim` removes), restricted to ASCII
      whitespace plus the three space variants the plugin names. */
  predicate IsSpace(c: char) {
    c == ' ' || c == '\t' || c == '\n' || c == '\U{000B}' || c == '\U{000C}' || c == '\r'
    || c == '\U{00A0}' || c == '\U{202F}' || c == '\U{2009}'
  }

  /** JavaScript's `\w` (ASCII letters, digits and underscore). */
  predicate IsWordChar(c: char) {
    'a' <= c <= 'z' || 'A' <= c <= 'Z' || '0' <= c <= '9' || c == '_'
  }

  predicate IsDigit(c: char) { '0' <= c <= '9' }

  predicate IsLowerAscii(c: char) { 'a' <= c <= 'z' }

  predicate IsUpperAscii(c: char) { 'A' <= c <= 'Z' }

  function ToLower(c: char): char {
    if IsUpperAscii(c) then (c as int + 32) as char else c
  }

  function ToUpper(c: char): char {
    if IsLowerAscii(c) then (c as int - 32) as char else c
  }

  /** `toLowerCase`, on ASCII letters only. */
  function Lower(s: string): string {
    seq(|s|, i requires 0 <= i < |s| => ToLower(s[i]))
  }

  /** Lower-casing twice is lower-casing once. */
  lemma LowerIdempotent(s: string)
    ensures Lower(Lower(s)) == Lower(s)
  {
  }

  /** No character of `s` is whitespace. */
  predicate NoSpace(s: string) {
    forall i :: 0 <= i < |s| ==> !IsSpace(s[i])
  }

  predicate AllSpace(s: string) {
    forall i :: 0 <= i < |s| ==> IsSpace(s[i])
  }

  // ---------------------------------------------------------------- trim

  /** Number of leading whitespace characters. */
  function LeadCount(s: string): (n: nat)
    ensures n <= |s|
    ensures forall i :: 0 <= i < n ==> IsSpace(s[i])
    ensures n < |s| ==> !IsSpace(s[n])
  {
    if s != [] && IsSpace(s[0]) then 1 + LeadCount(s[1..]) else 0
  }

  /** Number of trailing whitespace characters. */
  function TrailCount(s: string): (n: nat)
    ensures n <= |s|
    ensures forall i :: |s| - n <= i < |s| ==> IsSpace(s[i])
    ensures n < |s| ==> !IsSpace(s[|s| - 1 - n])
  {
    if s != [] && IsSpace(s[|s| - 1]) then 1 + TrailCount(s[..|s| - 1]) else 0
  }

  function TrimStart(s: string): string {
    s[LeadCount(s)..]
  }

  function TrimEnd(s: string): string {
    s[..|s| - TrailCount(s)]
  }

  /** Neither end of `s` is whitespace. */
  predicate Trimmed(s: string) {
    s == [] || (!IsSpace(s[0]) && !IsSpace(s[|s| - 1]))
  }

  /** `String.prototype.trim`. */
  function Trim(s: string): string {
    TrimEnd(TrimStart(s))
  }

  /** Trim removes a whitespace prefix and a whitespace suffix and nothing else. */
  lemma TrimIsSlice(s: string)
    ensures LeadCount(s) + |Trim(s)| <= |s|
    ensures Trim(s) == s[LeadCount(s)..LeadCount(s) + |Trim(s)|]
    ensures forall i :: 0 <= i < LeadCount(s) ==> IsSpace(s[i])
    ensures forall i :: LeadCount(s) + |Trim(s)| <= i < |s| ==> IsSpace(s[i])
    ensures Trimmed(Trim(s))
  {
  }

  /** Joining two trimmed, non-empty strings around anything stays trimmed. */
  lemma TrimmedJoin(a: string, m: string, b: string)
    requires a != [] && b != [] && Trimmed(a) && Trimmed(b)
    ensures Trimmed(a + m + b)
  {
    assert (a + m + b)[0] == a[0];
    assert (a + m + b)[|a + m + b| - 1] == b[|b| - 1];
  }

  lemma TrimOfTrimmed(s: string)
    requires Trimmed(s)
    ensures Trim(s) == s
  {
  }

  lemma TrimEmptyIffAllSpace(s: string)
    ensures Trim(s) == [] <==> AllSpace(s)
  {
    TrimIsSlice(s);
  }

  lemma TrimIdempotent(s: string)
    ensures Trim(Trim(s)) == Trim(s)
  {
    TrimIsSlice(s);
    TrimOfTrimmed(Trim(s));
  }

  /** The non-whitespace characters of `s`, in order. */
  function NonSpace(s: string): string {
    if s == [] then [] else (if IsSpace(s[0]) then [] else [s[0]]) + NonSpace(s[1..])
  }

  lemma {:induction false} NonSpaceAppend(a: string, b: string)
    ensures NonSpace(a + b) == NonSpace(a) + NonSpace(b)
  {
    if a != [] {
      assert (a + b)[1..] == a[1..] + b;
      NonSpaceAppend(a[1..], b);
    } else {
      assert a + b == b;
    }
  }

  lemma {:induction false} NonSpaceOfAllSpace(s: string)
    requires AllSpace(s)
    ensures NonSpace(s) == []
  {
    if s != [] {
      NonSpaceOfAllSpace(s[1..]);
    }
  }

  lemma {:induction false} NonSpaceMembers(s: string)
    ensures forall c :: c in NonSpace(s) <==> c in s && !IsSpace(c)
  {
    if s != [] {
      NonSpaceMembers(s[1..]);
      assert s == [s[0]] + s[1..];
    }
  }

  lemma NonSpaceTrimStart(s: string)
    ensures NonSpace(TrimStart(s)) == NonSpace(s)
  {
    var n := LeadCount(s);
    assert s == s[..n] + s[n..];
    NonSpaceAppend(s[..n], s[n..]);
    NonSpaceOfAllSpace(s[..n]);
  }

  lemma NonSpaceTrimEnd(s: string)
    ensures NonSpace(TrimEnd(s)) == NonSpace(s)
  {
    var k := |s| - TrailCount(s);
    assert s == s[..k] + s[k..];
    NonSpaceAppend(s[..k], s[k..]);
    NonSpaceOfAllSpace(s[k..]);
  }

  lemma NonSpaceTrim(s: string)
    ensures NonSpace(Trim(s)) == NonSpace(s)
  {
    NonSpaceTrimStart(s);
    NonSpaceTrimEnd(TrimStart(s));
  }

  // ---------------------------------------------------------------- runs

  /** The number of leading `c` characters (what `/^c+/` matches). */
  function LeadRun(s: string, c: char): (n: nat)
    ensures n <= |s|
    ensures forall i :: 0 <= i < n ==> s[i] == c
    ensures n < |s| ==> s[n] != c
  {
    if s != [] && s[0] == c then 1 + LeadRun(s[1..], c) else 0
  }

  /** The number of trailing `c` characters (what `/c+$/` matches). */
  function TrailRun(s: string, c: char): (n: nat)
    ensures n <= |s|
    ensures forall i :: |s| - n <= i < |s| ==> s[i] == c
    ensures n < |s| ==> s[|s| - 1 - n] != c
  {
    if s != [] && s[|s| - 1] == c then 1 + TrailRun(s[..|s| - 1], c) else 0
  }

  // ---------------------------------------------------------------- search

  /** `s.startsWith(p)`. */
  predicate StartsWith(s: string, p: string) {
    |p| <= |s| && s[..|p|] == p
  }

  /** `k` occurs in `s` at position `i`. */
  predicate OccursAt(s: string, k: string, i: int) {
    0 <= i && i + |k| <= |s| && s[i..i + |k|] == k
  }

  /** `s.includes(k)`. */
  predicate Occurs(s: string, k: string) {
    exists i :: 0 <= i <= |s| && OccursAt(s, k, i)
  }

  /** Position of the first occurrence of `k` in `s`, or `|s|` when there is none. */
  function Find(s: string, k: string): (i: nat)
    requires k != []
    ensures i <= |s|
    ensures i < |s| ==> OccursAt(s, k, i)
    ensures forall j :: 0 <= j < i ==> !OccursAt(s, k, j)
    decreases |s|
  {
    if |s| < |k| then
      assert forall j :: 0 <= j ==> !OccursAt(s, k, j);
      |s|
    else if s[..|k|] == k then 0
    else
      var i := Find(s[1..], k);
      assert forall j :: 1 <= j ==> OccursAt(s, k, j) == OccursAt(s[1..], k, j - 1);
      1 + i
  }

  lemma FindNone(s: string, k: string)
    requires k != []
    ensures Find(s, k) == |s| <==> !Occurs(s, k)
  {
    var i := Find(s, k);
    if i < |s| {
      assert OccursAt(s, k, i);
    } else {
      assert !OccursAt(s, k, |s|);
    }
  }

  // ---------------------------------------------------------------- split/join

  /** `s.split(k)` for a non-empty separator. */
  function Split(s: string, k: string): (parts: seq<string>)
    requires k != []
    ensures |parts| >= 1
    decreases |s|
  {
    var i := Find(s, k);
    if i == |s| then [s] else [s[..i]] + Split(s[i + |k|..], k)
  }

  lemma SplitAbsent(s: string, k: string)
    requires k != [] && !Occurs(s, k)
    ensures Split(s, k) == [s]
  {
    FindNone(s, k);
  }

  /** Searching for a character past a prefix that lacks it. */
  lemma {:induction false} FindAfterPrefix(a: string, h: string, c: char)
    requires c !in a
    ensures Find(a + h, [c]) == |a| + Find(h, [c])
  {
    if a != [] {
      assert (a + h)[..1] == [a[0]];
      assert (a + h)[1..] == a[1..] + h;
      FindAfterPrefix(a[1..], h, c);
    } else {
      assert a + h == h;
    }
  }

  /** `(a + c + b).split(c)[0]` is `a` when `a` lacks `c`. */
  lemma SplitFirstPiece(a: string, c: char, b: string)
    requires c !in a
    ensures Split(a + [c] + b, [c])[0] == a
  {
    FindAfterPrefix(a, [c] + b, c);
    assert a + [c] + b == a + ([c] + b);
  }

  /** `(a + h).split(c)[0]` is `a + h.split(c)[0]` when `a` lacks `c`. */
  lemma SplitFirstAfterPrefix(a: string, h: string, c: char)
    requires c !in a
    ensures Split(a + h, [c])[0] == a + Split(h, [c])[0]
  {
    FindAfterPrefix(a, h, c);
    assert (a + h)[..|a| + Find(h, [c])] == a + h[..Find(h, [c])];
  }

  /** Splitting `a + k + b` on `k`, where `a` lacks the first character of
      `k`, cuts right after `a`. */
  lemma SplitAtFirst(a: string, k: string, b: string)
    requires k != [] && k[0] !in a
    ensures Split(a + k + b, k) == [a] + Split(b, k)
  {
    var s := a + k + b;
    assert s[|a|..|a| + |k|] == k;
    assert OccursAt(s, k, |a|);
    forall j | 0 <= j < |a| ensures !OccursAt(s, k, j) {
      if j + |k| <= |s| {
        assert s[j..j + |k|][0] == a[j];
      }
    }
    assert Find(s, k) == |a|;
    assert s[..|a|] == a;
    assert s[|a| + |k|..] == b;
  }

  /** `parts.join(sep)`. */
  function Join(parts: seq<string>, sep: string): string {
    if parts == [] then []
    else if |parts| == 1 then parts[0]
    else parts[0] + sep + Join(parts[1..], sep)
  }

  /** `parts.join("")`. */
  function Concat(parts: seq<string>): string {
    if parts == [] then [] else parts[0] + Concat(parts[1..])
  }

  /** The elements of the inner sequences, in order. */
  function Flatten<T>(xss: seq<seq<T>>): seq<T> {
    if xss == [] then [] else Flatten(xss[..|xss| - 1]) + xss[|xss| - 1]
  }

  /** A prefix one longer is the shorter prefix and the next element. */
  lemma PrefixSnoc<T>(xs: seq<T>, i: nat)
    requires i < |xs|
    ensures xs[..i + 1] == xs[..i] + [xs[i]]
  {
  }

  /** Concatenation is associative. */
  lemma AppendAssoc<T>(a: seq<T>, b: seq<T>, c: seq<T>)
    ensures (a + b) + c == a + (b + c)
  {
  }

  lemma FlattenAppendOne<T>(xss: seq<seq<T>>, xs: seq<T>)
    ensures Flatten(xss + [xs]) == Flatten(xss) + xs
  {
    assert (xss + [xs])[..|xss|] == xss;
  }

  // ---------------------------------------------------------------- replace

  /** `s.split(k).join(v)`: every non-overlapping occurrence of `k`, scanned
      from the left, is replaced by `v`. */
  function ReplaceAll(s: string, k: string, v: string): string
    requires k != []
    decreases |s|
  {
    if |s| < |k| then s
    else if s[..|k|] == k then v + ReplaceAll(s[|k|..], k, v)
    else [s[0]] + ReplaceAll(s[1..], k, v)
  }

  /** Replacing a pattern that does not occur changes nothing. */
  lemma {:induction false} ReplaceAllAbsent(s: string, k: string, v: string)
    requires k != [] && !Occurs(s, k)
    ensures ReplaceAll(s, k, v) == s
    decreases |s|
  {
    if |s| >= |k| {
      assert !OccursAt(s, k, 0);
      assert forall j :: 0 <= j <= |s[1..]| ==> (OccursAt(s[1..], k, j) <==> OccursAt(s, k, j + 1));
      ReplaceAllAbsent(s[1..], k, v);
    }
  }

  /** A slice lacks whatever the whole sequence lacks. */
  lemma SliceLacks<T>(s: seq<T>, i: nat, j: nat, c: T)
    requires i <= j <= |s| && c !in s
    ensures c !in s[i..j]
  {
    forall k | 0 <= k < j - i
      ensures s[i..j][k] != c
    {
      assert s[i..j][k] == s[i + k];
    }
  }

  /** A pattern holding a character that `s` lacks does not occur in `s`. */
  lemma AbsentByChar(s: string, k: string, c: char)
    requires c in k && c !in s
    ensures !Occurs(s, k)
  {
    var j :| 0 <= j < |k| && k[j] == c;
    forall i | 0 <= i <= |s| ensures !OccursAt(s, k, i) {
      if i + |k| <= |s| {
        assert s[i..i + |k|][j] == s[i + j] != c;
      }
    }
  }

  /** Every character of `ReplaceAll(s, k, v)` comes from `s` or from `v`. */
  lemma {:induction false} ReplaceAllChars(s: string, k: string, v: string)
    requires k != []
    ensures forall c :: c in ReplaceAll(s, k, v) ==> c in s || c in v
    decreases |s|
  {
    if |s| >= |k| {
      if s[..|k|] == k {
        ReplaceAllChars(s[|k|..], k, v);
        assert forall c :: c in s[|k|..] ==> c in s;
      } else {
        ReplaceAllChars(s[1..], k, v);
        assert forall c :: c in s[1..] ==> c in s;
      }
    }
  }

  /** Replacing a single character by text without it removes it entirely. */
  lemma {:induction false} ReplaceAllRemovesChar(s: string, c: char, v: string)
    requires c !in v
    ensures c !in ReplaceAll(s, [c], v)
    decreases |s|
  {
    if |s| >= 1 {
      if s[..1] == [c] {
        ReplaceAllRemovesChar(s[1..], c, v);
      } else {
        assert s[0] != c by { assert s[..1] == [s[0]]; }
        ReplaceAllRemovesChar(s[1..], c, v);
      }
    }
  }

  /** `ReplaceAll(k, k, v)` is `v`. */
  lemma ReplaceAllWhole(k: string, v: string)
    requires k != []
    ensures ReplaceAll(k, k, v) == v
  {
    assert k[|k|..] == [];
  }
}

=== FILE: tagify.dfy ===
/** `tagify` (main.ts:105-136): one free-text genre or topic label becomes a
    list of PascalCase tag tokens. */
module TagTokens {
  import opened Strings
  import opened Normalize
  import opened Dedupe

  // ---------------------------------------------------------------- separators

  /** The list separators `, | / • ·`, each unified to a comma. */
  const ListSeps: set<char> := {',', '|', '/', '\U{2022}', '\U{00B7}'}

  /** The ampersand, rewritten to `" & "`. */
  const AmpSeps: set<char> := {'&'}

  // The regular-expression replacement `\s*(X)\s*` -> rep (global), where X is
  // one character of `seps`: scanning from the left, a separator together
  // with the whitespace on both sides of it becomes `rep`; whitespace not
  // followed by a separator is kept.
  function Absorb(s: string, seps: set<char>, rep: string): string
    decreases |s|
  {
    if s == [] then []
    else
      var n := LeadCount(s);
      if n < |s| && s[n] in seps then rep + Absorb(TrimStart(s[n + 1..]), seps, rep)
      else [s[0]] + Absorb(s[1..], seps, rep)
  }

  /** Text without separators is left alone. */
  lemma {:induction false} AbsorbNoSep(s: string, seps: set<char>, rep: string)
    requires forall i :: 0 <= i < |s| ==> s[i] !in seps
    ensures Absorb(s, seps, rep) == s
    decreases |s|
  {
    if s != [] {
      AbsorbNoSep(s[1..], seps, rep);
    }
  }

  lemma AbsorbNoSepChars(s: string, seps: set<char>, rep: string)
    requires forall c :: c in seps ==> c !in s
    ensures Absorb(s, seps, rep) == s
  {
    AbsorbNoSep(s, seps, rep);
  }

  /** A leading run with neither whitespace nor separators is copied as is. */
  lemma {:induction false} AbsorbPrefix(a: string, h: string, seps: set<char>, rep: string)
    requires forall i :: 0 <= i < |a| ==> a[i] !in seps && !IsSpace(a[i])
    ensures Absorb(a + h, seps, rep) == a + Absorb(h, seps, rep)
  {
    if a == [] {
      assert a + h == h;
    } else {
      assert (a + h)[1..] == a[1..] + h;
      AbsorbPrefix(a[1..], h, seps, rep);
    }
  }

  /** A separator between single spaces, before a word, becomes `rep`. */
  lemma AbsorbAt(pre: string, c: char, b: string, seps: set<char>, rep: string)
    requires pre == [] || pre == " "
    requires c in seps && !IsSpace(c) && (b == [] || !IsSpace(b[0]))
    ensures Absorb(pre + [c] + " " + b, seps, rep) == rep + Absorb(b, seps, rep)
  {
    var s := pre + [c] + " " + b;
    assert LeadCount(s) == |pre| by {
      if pre == " " {
        assert s[1..] == [c] + " " + b;
      }
    }
    assert s[|pre| + 1..] == " " + b;
    assert (" " + b)[1..] == b;
  }

  /** A word, a separator with its spaces, and a separator-free rest: the
      separator and its spaces become `rep`. */
  lemma AbsorbSep(a: string, pre: string, c: char, b: string, seps: set<char>, rep: string)
    requires forall i :: 0 <= i < |a| ==> a[i] !in seps && !IsSpace(a[i])
    requires forall i :: 0 <= i < |b| ==> b[i] !in seps
    requires pre == [] || pre == " "
    requires c in seps && !IsSpace(c) && (b == [] || !IsSpace(b[0]))
    ensures Absorb(a + pre + [c] + " " + b, seps, rep) == a + rep + b
  {
    var h := pre + [c] + " " + b;
    assert a + pre + [c] + " " + b == a + h;
    AbsorbSepTail(pre, c, b, seps, rep);
    AbsorbPrefix(a, h, seps, rep);
    AppendAssoc(a, rep, b);
  }

  /** The separator with its spaces, then a separator-free rest. */
  lemma AbsorbSepTail(pre: string, c: char, b: string, seps: set<char>, rep: string)
    requires forall i :: 0 <= i < |b| ==> b[i] !in seps
    requires pre == [] || pre == " "
    requires c in seps && !IsSpace(c) && (b == [] || !IsSpace(b[0]))
    ensures Absorb(pre + [c] + " " + b, seps, rep) == rep + b
  {
    AbsorbAt(pre, c, b, seps, rep);
    AbsorbNoSep(b, seps, rep);
  }

  /** Joining separator-free pieces gives separator-free text. */
  lemma JoinNoSep(a: string, m: string, b: string, seps: set<char>)
    requires forall i :: 0 <= i < |a| ==> a[i] !in seps
    requires forall i :: 0 <= i < |m| ==> m[i] !in seps
    requires forall i :: 0 <= i < |b| ==> b[i] !in seps
    ensures forall i :: 0 <= i < |a + m + b| ==> (a + m + b)[i] !in seps
  {
  }

  // ---------------------------------------------------------------- tokens

  /** `xs.map(x => x.trim()).filter(Boolean)`. */
  function TrimNonEmpty(xs: seq<string>): (r: seq<string>)
    ensures forall i :: 0 <= i < |r| ==> r[i] != [] && Trimmed(r[i])
  {
    if xs == [] then []
    else
      var t := Trim(xs[0]);
      TrimIsSlice(xs[0]);
      (if t == [] then [] else [t]) + TrimNonEmpty(xs[1..])
  }

  /** Entries that are already trimmed and non-empty pass through. */
  lemma {:induction false} TrimNonEmptyOfClean(xs: seq<string>)
    requires forall i :: 0 <= i < |xs| ==> xs[i] != [] && Trimmed(xs[i])
    ensures TrimNonEmpty(xs) == xs
  {
    if xs != [] {
      TrimOfTrimmed(xs[0]);
      TrimNonEmptyOfClean(xs[1..]);
    }
  }

  /** Characters `tagify` keeps in a token: `\w` and the hyphen. */
  predicate IsTagChar(c: char) {
    IsWordChar(c) || c == '-'
  }

  predicate AllTagChars(s: string) {
    forall i :: 0 <= i < |s| ==> IsTagChar(s[i])
  }

  /** `x.replace(/[^\w\s-]/g, "")`. */
  function KeepTagChars(s: string): (r: string)
    ensures TagOrSpace(r)
  {
    if s == [] then []
    else (if IsTagChar(s[0]) || IsSpace(s[0]) then [s[0]] else []) + KeepTagChars(s[1..])
  }

  /** Index of the first whitespace character, or `|s|`. */
  function SpaceIndex(s: string): (n: nat)
    ensures n <= |s|
    ensures forall i :: 0 <= i < n ==> !IsSpace(s[i])
    ensures n < |s| ==> IsSpace(s[n])
  {
    if s == [] || IsSpace(s[0]) then 0 else 1 + SpaceIndex(s[1..])
  }

  /** `x.split(/\s+/)`: the pieces between maximal whitespace runs. */
  function Words(x: string): seq<string>
    decreases |x|
  {
    var n := SpaceIndex(x);
    if n == |x| then [x] else [x[..n]] + Words(TrimStart(x[n + 1..]))
  }

  /** `w.charAt(0).toUpperCase() + w.slice(1)`. */
  function Capitalize(w: string): string {
    if w == [] then [] else [ToUpper(w[0])] + w[1..]
  }

  function Capitalized(ws: seq<string>): seq<string> {
    seq(|ws|, i requires 0 <= i < |ws| => Capitalize(ws[i]))
  }

  /** The PascalCase token built from one cleaned piece of text. */
  function Token(x: string): string {
    Concat(Capitalized(Words(x)))
  }

  /** `x0` cleaned to tag characters and trimmed. */
  function Cleaned(x0: string): string {
    Trim(KeepTagChars(x0))
  }

  /** Tokens of the sub-parts of one part, in order; a sub-part that cleans
      to nothing, or whose token is empty, contributes nothing. */
  function SubTokens(subs: seq<string>): seq<string> {
    if subs == [] then []
    else
      var x := Cleaned(subs[|subs| - 1]);
      var t := Token(x);
      SubTokens(subs[..|subs| - 1]) + (if x == [] || t == [] then [] else [t])
  }

  /** A part holding `" & "` is split there; otherwise it is its own sub-part. */
  function Subs(p: string): seq<string> {
    if Occurs(p, " & ") then TrimNonEmpty(Split(p, " & ")) else [p]
  }

  /** Tokens of every part, in order. */
  function PartTokens(parts: seq<string>): seq<string> {
    if parts == [] then []
    else PartTokens(parts[..|parts| - 1]) + SubTokens(Subs(parts[|parts| - 1]))
  }

  lemma PartTokensSnoc(parts: seq<string>, p: string)
    ensures PartTokens(parts + [p]) == PartTokens(parts) + SubTokens(Subs(p))
  {
    assert (parts + [p])[..|parts|] == parts;
  }

  /** `normalizeSpace(value).replace(/&amp;/g, "&")`. */
  function Decoded(value: string): string {
    ReplaceAll(NormalizeSpace(value), "&amp;", "&")
  }

  /** The comma-separated parts after both separator rewrites. */
  function Parts(s0: string): seq<string> {
    TrimNonEmpty(Split(Absorb(Absorb(s0, ListSeps, ","), AmpSeps, " & "), ","))
  }

  /** What `tagify(value)` returns. */
  function Tagify(value: string): seq<string> {
    var s0 := Decoded(value);
    if s0 == [] then [] else Deduped(PartTokens(Parts(s0)))
  }

  /** The inner loop of `tagify`: the tokens of one part's sub-parts. */
  method SubPartTokens(subs: seq<string>) returns (toks: seq<string>)
    ensures toks == SubTokens(subs)
  {
    toks := [];
    for j := 0 to |subs|
      invariant toks == SubTokens(subs[..j])
    {
      assert subs[..j + 1][..j] == subs[..j];
      var x := Cleaned(subs[j]);
      if x != [] {
        var token := Token(x);
        if token != [] {
          toks := toks + [token];
        }
      }
    }
    assert subs[..|subs|] == subs;
  }

  /** The outer loop of `tagify`: the tokens of every part, in order. */
  method CollectTokens(parts: seq<string>) returns (out: seq<string>)
    ensures out == PartTokens(parts)
  {
    out := [];
    for i := 0 to |parts|
      invariant out == PartTokens(parts[..i])
    {
      assert parts[..i + 1][..i] == parts[..i];
      var toks := SubPartTokens(Subs(parts[i]));
      out := out + toks;
    }
    assert parts[..|parts|] == parts;
  }

  /** `tagify`: decode, split into parts, collect the tokens, then
      `dedupeKeepOrder`. */
  method TagifyValue(value: string) returns (tags: seq<string>)
    ensures tags == Tagify(value)
  {
    var s0 := Decoded(value);
    if s0 == [] {
      return [];
    }
    var out := CollectTokens(Parts(s0));
    tags := DedupeKeepOrder(out);
  }

  // ---------------------------------------------------------------- token shape

  /** A well-formed tag: non-empty, only `[A-Za-z0-9_-]`, and not starting
      with a lower-case letter. */
  predicate IsTag(t: string) {
    t != [] && AllTagChars(t) && !IsLowerAscii(t[0])
  }

  /** Only tag characters and whitespace. */
  predicate TagOrSpace(s: string) {
    forall i :: 0 <= i < |s| ==> IsTagChar(s[i]) || IsSpace(s[i])
  }

  lemma {:induction false} WordsTagChars(x: string)
    requires TagOrSpace(x)
    ensures forall i :: 0 <= i < |Words(x)| ==> AllTagChars(Words(x)[i])
    decreases |x|
  {
    var n := SpaceIndex(x);
    if n < |x| {
      var rest := TrimStart(x[n + 1..]);
      assert TagOrSpace(rest) by {
        assert forall i :: 0 <= i < |rest| ==> rest[i] == x[n + 1 + LeadCount(x[n + 1..]) + i];
      }
      WordsTagChars(rest);
      assert AllTagChars(x[..n]);
      AllTagCharsCons(x[..n], Words(rest));
    } else {
      assert x[..n] == x;
    }
  }

  lemma AllTagCharsCons(w: string, ws: seq<string>)
    requires AllTagChars(w)
    requires forall i :: 0 <= i < |ws| ==> AllTagChars(ws[i])
    ensures forall i :: 0 <= i < |[w] + ws| ==> AllTagChars(([w] + ws)[i])
  {
  }

  /** The first word of text that starts with a non-space is non-empty and
      starts with that character. */
  lemma FirstWord(x: string)
    requires x != [] && !IsSpace(x[0])
    ensures Words(x) != [] && Words(x)[0] != [] && Words(x)[0][0] == x[0]
  {
  }

  lemma CapitalizeTagChars(w: string)
    requires AllTagChars(w)
    ensures AllTagChars(Capitalize(w))
  {
  }

  lemma {:induction false} ConcatTagChars(ws: seq<string>)
    requires forall i :: 0 <= i < |ws| ==> AllTagChars(ws[i])
    ensures AllTagChars(Concat(ws))
  {
    if ws != [] {
      ConcatTagChars(ws[1..]);
    }
  }

  /** A cleaned, non-empty piece of text gives a well-formed tag, so the
      `if (token)` guard in `tagify` never rejects one. */
  lemma TokenIsTag(x: string)
    requires x != [] && Trimmed(x)
    requires TagOrSpace(x)
    ensures IsTag(Token(x))
  {
    var ws := Words(x);
    WordsTagChars(x);
    FirstWord(x);
    var cs := Capitalized(ws);
    forall i | 0 <= i < |cs| ensures AllTagChars(cs[i]) {
      CapitalizeTagChars(ws[i]);
    }
    ConcatTagChars(cs);
    assert Concat(cs) == cs[0] + Concat(cs[1..]);
  }

  lemma CleanedProps(x0: string)
    ensures Trimmed(Cleaned(x0))
    ensures TagOrSpace(Cleaned(x0))
  {
    var k := KeepTagChars(x0);
    TrimIsSlice(k);
    assert forall i :: 0 <= i < |Cleaned(x0)| ==> Cleaned(x0)[i] == k[LeadCount(k) + i];
  }

  lemma {:induction false} SubTokensAreTags(subs: seq<string>)
    ensures forall i :: 0 <= i < |SubTokens(subs)| ==> IsTag(SubTokens(subs)[i])
  {
    if subs != [] {
      SubTokensAreTags(subs[..|subs| - 1]);
      var x := Cleaned(subs[|subs| - 1]);
      CleanedProps(subs[|subs| - 1]);
      if x != [] {
        TokenIsTag(x);
      }
    }
  }

  lemma {:induction false} PartTokensAreTags(parts: seq<string>)
    ensures forall i :: 0 <= i < |PartTokens(parts)| ==> IsTag(PartTokens(parts)[i])
  {
    if parts != [] {
      PartTokensAreTags(parts[..|parts| - 1]);
      SubTokensAreTags(Subs(parts[|parts| - 1]));
    }
  }

  /** Deduplicating well-formed tags keeps them well formed and makes them
      distinct. */
  lemma DedupedTags(items: seq<string>)
    requires forall i :: 0 <= i < |items| ==> IsTag(items[i])
    ensures forall k :: 0 <= k < |Deduped(items)| ==> IsTag(Deduped(items)[k])
    ensures Distinct(Deduped(items))
  {
    DedupeWellFormed(items);
    DedupeFromInputs(items);
  }

  /** Every token `tagify` returns is a well-formed tag, and no token is
      repeated. */
  lemma TagifyWellFormed(value: string)
    ensures forall i :: 0 <= i < |Tagify(value)| ==> IsTag(Tagify(value)[i])
    ensures Distinct(Tagify(value))
  {
    var s0 := Decoded(value);
    if s0 != [] {
      PartTokensAreTags(Parts(s0));
      DedupedTags(PartTokens(Parts(s0)));
    }
  }

  /** Blank input gives no tags. */
  lemma TagifyBlank(value: string)
    requires AllSpace(value)
    ensures Tagify(value) == []
  {
    NormalizeSpaceBlank(value);
  }

  // ---------------------------------------------------------------- examples

  /** A single word made of tag characters. */
  predicate TagWord(w: string) {
    w != [] && AllTagChars(w)
  }

  /** A tag word has no whitespace, no separator and no `;`. */
  predicate Plain(s: string) {
    forall i :: 0 <= i < |s| ==> !IsSpace(s[i]) && s[i] !in ListSeps && s[i] !in AmpSeps && s[i] != ';'
  }

  lemma TagWordPlain(w: string)
    requires TagWord(w)
    ensures Plain(w) && NoSpace(w) && Trimmed(w)
  {
  }

  lemma {:induction false} KeepAll(w: string)
    requires AllTagChars(w)
    ensures KeepTagChars(w) == w
  {
    if w != [] {
      KeepAll(w[1..]);
    }
  }

  /** A tag word is its own cleaned text, and its token is the word
      capitalised. */
  lemma TagWordToken(w: string)
    requires TagWord(w)
    ensures Cleaned(w) == w && Token(w) == Capitalize(w)
  {
    KeepAll(w);
    TrimOfTrimmed(w);
    TagWordPlain(w);
    OneWord(w);
    assert Capitalized([w]) == [Capitalize(w)];
    assert Concat([Capitalize(w)]) == Capitalize(w);
  }

  /** Text without whitespace is one word. */
  lemma OneWord(w: string)
    requires NoSpace(w)
    ensures Words(w) == [w]
  {
    assert SpaceIndex(w) == |w|;
  }

  /** A tag word appended to the sub-parts adds its capitalised token. */
  lemma SubTokensSnoc(subs: seq<string>, w: string)
    requires TagWord(w)
    ensures SubTokens(subs + [w]) == SubTokens(subs) + [Capitalize(w)]
  {
    TagWordToken(w);
    assert (subs + [w])[..|subs|] == subs;
  }

  lemma TwoSubTokens(a: string, b: string)
    requires TagWord(a) && TagWord(b)
    ensures SubTokens([a, b]) == [Capitalize(a), Capitalize(b)]
  {
    assert SubTokens([a]) == [Capitalize(a)] by {
      SubTokensSnoc([], a);
      assert [] + [a] == [a];
    }
    assert SubTokens([a, b]) == SubTokens([a]) + [Capitalize(b)] by {
      SubTokensSnoc([a], b);
      assert [a] + [b] == [a, b];
    }
  }

  lemma OneSubTokens(a: string)
    requires TagWord(a)
    ensures Subs(a) == [a] && SubTokens([a]) == [Capitalize(a)]
  {
    TagWordPlain(a);
    assert ' ' !in a;
    AbsentByChar(a, " & ", ' ');
    SubTokensSnoc([], a);
    assert [] + [a] == [a];
  }

  /** Text that `normalizeSpace` leaves alone and that holds no `;` is not
      changed by decoding. */
  lemma DecodedPlain(s: string)
    requires Normalized(s) && ';' !in s
    ensures Decoded(s) == s
  {
    NormalizeSpaceFixed(s);
    AbsentByChar(s, "&amp;", ';');
    ReplaceAllAbsent(s, "&amp;", "&");
  }

  /** Two tag words joined by " & " or ", " pass the `&amp;` decoding
      unchanged. */
  lemma PairDecoded(a: string, sep: string, b: string)
    requires TagWord(a) && TagWord(b)
    requires sep == " & " || sep == ", "
    ensures Decoded(a + sep + b) == a + sep + b
  {
    TagWordPlain(a);
    TagWordPlain(b);
    var s := a + sep + b;
    assert Normalized(s);
    assert ';' !in s;
    DecodedPlain(s);
  }

  lemma AmpPairAbsorbed(a: string, b: string)
    requires TagWord(a) && TagWord(b)
    ensures Absorb(Absorb(a + " & " + b, ListSeps, ","), AmpSeps, " & ") == a + " & " + b
  {
    TagWordPlain(a);
    TagWordPlain(b);
    var s := a + " " + ['&'] + " " + b;
    assert s == a + " & " + b;
    JoinNoSep(a, " & ", b, ListSeps);
    AbsorbNoSep(s, ListSeps, ",");
    AbsorbSep(a, " ", '&', b, AmpSeps, " & ");
  }

  lemma AmpPairParts(a: string, b: string)
    requires TagWord(a) && TagWord(b)
    ensures Parts(a + " & " + b) == [a + " & " + b]
  {
    TagWordPlain(a);
    TagWordPlain(b);
    AmpPairAbsorbed(a, b);
    var s := a + " & " + b;
    assert ',' !in a && ',' !in b;
    AbsentByChar(s, ",", ',');
    SplitAbsent(s, ",");
    TrimmedJoin(a, " & ", b);
    TrimNonEmptyOfClean([s]);
  }

  lemma AmpPairSubs(a: string, b: string)
    requires TagWord(a) && TagWord(b)
    ensures Subs(a + " & " + b) == [a, b]
  {
    TagWordPlain(a);
    TagWordPlain(b);
    var s := a + " & " + b;
    assert OccursAt(s, " & ", |a|) by {
      assert s[|a|..|a| + 3] == " & ";
    }
    assert Split(s, " & ") == [a, b] by {
      assert ' ' !in a && ' ' !in b;
      SplitAtFirst(a, " & ", b);
      AbsentByChar(b, " & ", ' ');
      SplitAbsent(b, " & ");
    }
    TrimNonEmptyOfClean([a, b]);
  }

  /** Two tag words separated by `" & "` become the two capitalised tokens
      (deduplicated); words that already start with a capital and differ,
      such as `Sci-Fi & Fantasy`, come back as they are. */
  lemma TagifyAmpersandPair(a: string, b: string)
    requires TagWord(a) && TagWord(b)
    ensures Tagify(a + " & " + b) == Deduped([Capitalize(a), Capitalize(b)])
    ensures !IsLowerAscii(a[0]) && !IsLowerAscii(b[0]) && a != b ==> Tagify(a + " & " + b) == [a, b]
  {
    var s := a + " & " + b;
    PairDecoded(a, " & ", b);
    AmpPairParts(a, b);
    AmpPairSubs(a, b);
    TwoSubTokens(a, b);
    PartTokensSnoc([], s);
    assert [] + [s] == [s];
    assert PartTokens([s]) == [Capitalize(a), Capitalize(b)];
    assert Parts(Decoded(s)) == [s];
    assert Decoded(s) != [];
    if !IsLowerAscii(a[0]) && !IsLowerAscii(b[0]) && a != b {
      CapitalizedPair(a, b);
    }
  }

  /** Distinct tag words that need no capitalising pass deduplication. */
  lemma CapitalizedPair(a: string, b: string)
    requires TagWord(a) && TagWord(b) && !IsLowerAscii(a[0]) && !IsLowerAscii(b[0]) && a != b
    ensures Deduped([Capitalize(a), Capitalize(b)]) == [a, b]
  {
    assert Capitalize(a) == a && Capitalize(b) == b;
    TagWordPlain(a);
    TagWordPlain(b);
    DedupeOfDeduped([a, b]);
  }

  lemma CommaPairAbsorbed(a: string, b: string)
    requires TagWord(a) && TagWord(b)
    ensures Absorb(Absorb(a + ", " + b, ListSeps, ","), AmpSeps, " & ") == a + "," + b
  {
    TagWordPlain(a);
    TagWordPlain(b);
    var s := a + [] + [','] + " " + b;
    assert s == a + ", " + b;
    AbsorbSep(a, [], ',', b, ListSeps, ",");
    JoinNoSep(a, ",", b, AmpSeps);
    AbsorbNoSep(a + "," + b, AmpSeps, " & ");
  }

  lemma CommaPairParts(a: string, b: string)
    requires TagWord(a) && TagWord(b)
    ensures Parts(a + ", " + b) == [a, b]
  {
    TagWordPlain(a);
    TagWordPlain(b);
    CommaPairAbsorbed(a, b);
    assert ',' !in a && ',' !in b;
    SplitAtFirst(a, ",", b);
    AbsentByChar(b, ",", ',');
    SplitAbsent(b, ",");
    TrimNonEmptyOfClean([a, b]);
  }

  /** Two tag words separated by `", "` become the two capitalised tokens
      (deduplicated), so `self-help, Productivity` gives `Self-help` and
      `Productivity`. */
  lemma TagifyCommaPair(a: string, b: string)
    requires TagWord(a) && TagWord(b)
    ensures Tagify(a + ", " + b) == Deduped([Capitalize(a), Capitalize(b)])
  {
    var s := a + ", " + b;
    PairDecoded(a, ", ", b);
    CommaPairParts(a, b);
    TwoPartTokens(a, b);
    TagifyOfDecoded(s, [a, b]);
  }

  /** Two parts of one tag word each give that word capitalised. */
  lemma TwoPartTokens(a: string, b: string)
    requires TagWord(a) && TagWord(b)
    ensures PartTokens([a, b]) == [Capitalize(a), Capitalize(b)]
  {
    PartTokensPair(a, b);
    OneSubTokens(a);
    OneSubTokens(b);
  }

  /** The tokens of two parts are those of the first, then the second. */
  lemma PartTokensPair(x: string, y: string)
    ensures PartTokens([x, y]) == SubTokens(Subs(x)) + SubTokens(Subs(y))
  {
    assert PartTokens([x]) == SubTokens(Subs(x)) by {
      PartTokensSnoc([], x);
      assert [] + [x] == [x];
    }
    assert PartTokens([x, y]) == PartTokens([x]) + SubTokens(Subs(y)) by {
      PartTokensSnoc([x], y);
      assert [x] + [y] == [x, y];
    }
  }

  /** Non-empty text that decoding leaves alone is tagified through its
      parts. */
  lemma TagifyOfDecoded(s: string, parts: seq<string>)
    requires s != [] && Decoded(s) == s && Parts(s) == parts
    ensures Tagify(s) == Deduped(PartTokens(parts))
  {
  }
}

=== FILE: tags.dfy ===
/** Tags (main.ts:373-407 and 493-501): `scrapeTags` tagifies the topic
    chips, the category links and the JSON-LD `genre`, drops the junk
    tags and deduplicates; the book's tags then put the configured base
    tags first and add the "Adult Fantasy" tags for that category. */
module PageTags {
  import opened Wrappers
  import opened Strings
  import opened Normalize
  import opened Dedupe
  import opened TagTokens
  import opened JsonLd

  // ---------------------------------------------------------------- sources

  /** The tags of one chip or category link: its space-normalised text,
      tagified when it is not empty. */
  function TextTagsOf(text: string): seq<string> {
    var t := NormalizeSpace(text);
    if t != [] then Tagify(t) else []
  }

  /** The tags of the element texts, in document order. */
  function TextTags(texts: seq<string>): seq<string> {
    if texts == [] then []
    else TextTags(texts[..|texts| - 1]) + TextTagsOf(texts[|texts| - 1])
  }

  /** `jsonld?.genre`. */
  function GenreOf(jsonld: Option<Json>): Option<Json> {
    if jsonld.Some? then Get(jsonld.value, "genre") else None
  }

  /** The tags of the string elements of an array `genre`; other elements
      are skipped. The strings are tagified as they are, without the
      emptiness check the element texts get. */
  function StringTags(xs: seq<Json>): seq<string> {
    if xs == [] then []
    else
      var x := xs[|xs| - 1];
      StringTags(xs[..|xs| - 1]) + (if x.JStr? then Tagify(x.s) else [])
  }

  /** The tags of a `genre` value: a string, an array of strings, or
      nothing. */
  function GenreTags(genre: Option<Json>): seq<string> {
    if genre.Some? && genre.value.JStr? then Tagify(genre.value.s)
    else if genre.Some? && genre.value.JArr? then StringTags(genre.value.items)
    else []
  }

  // ---------------------------------------------------------------- junk filter

  /** Tags removed whatever their letter case. */
  const JunkTags: set<string> := {"audible", "audiobooks", "audiobook"}

  /** `t && !bad.has(t.toLowerCase())`. */
  predicate Kept(t: string) {
    t != [] && Lower(t) !in JunkTags
  }

  /** The `filter` of the junk tags. */
  function Unjunked(tags: seq<string>): seq<string> {
    if tags == [] then []
    else
      var t := tags[|tags| - 1];
      Unjunked(tags[..|tags| - 1]) + (if Kept(t) then [t] else [])
  }

  /** All tags of the page before the junk filter, chips first. */
  function RawTags(chips: seq<string>, categoryLinks: seq<string>, jsonld: Option<Json>): seq<string> {
    TextTags(chips) + TextTags(categoryLinks) + GenreTags(GenreOf(jsonld))
  }

  /** What `scrapeTags` returns. A page without a categories row has no
      category links. */
  function ScrapedTags(chips: seq<string>, categoryLinks: seq<string>, jsonld: Option<Json>): seq<string> {
    Deduped(Unjunked(RawTags(chips, categoryLinks, jsonld)))
  }

  // ---------------------------------------------------------------- loops

  lemma TextTagsSnoc(texts: seq<string>, text: string)
    ensures TextTags(texts + [text]) == TextTags(texts) + TextTagsOf(text)
  {
    assert (texts + [text])[..|texts|] == texts;
  }

  lemma StringTagsSnoc(xs: seq<Json>, x: Json)
    ensures StringTags(xs + [x]) == StringTags(xs) + (if x.JStr? then Tagify(x.s) else [])
  {
    assert (xs + [x])[..|xs|] == xs;
  }

  /** The body of a chip or category loop: tagify the normalised text when
      it is not empty. */
  method TagsOfText(text: string) returns (toks: seq<string>)
    ensures toks == TextTagsOf(text)
  {
    var t := NormalizeSpace(text);
    toks := [];
    if t != [] {
      toks := TagifyValue(t);
    }
  }

  /** A chip or category loop: every text's tags are pushed on `tags0`. */
  method PushTextTags(tags0: seq<string>, texts: seq<string>) returns (tags: seq<string>)
    ensures tags == tags0 + TextTags(texts)
  {
    tags := tags0;
    for i := 0 to |texts|
      invariant tags == tags0 + TextTags(texts[..i])
    {
      var toks := TagsOfText(texts[i]);
      TextTagsSnoc(texts[..i], texts[i]);
      PrefixSnoc(texts, i);
      AppendAssoc(tags0, TextTags(texts[..i]), toks);
      tags := tags + toks;
    }
    assert texts[..|texts|] == texts;
  }

  /** The body of the loop over an array `genre`. */
  method TagsOfGenreItem(x: Json) returns (toks: seq<string>)
    ensures toks == (if x.JStr? then Tagify(x.s) else [])
  {
    toks := [];
    if x.JStr? {
      toks := TagifyValue(x.s);
    }
  }

  /** The loop over an array `genre`. */
  method PushStringTags(tags0: seq<string>, xs: seq<Json>) returns (tags: seq<string>)
    ensures tags == tags0 + StringTags(xs)
  {
    tags := tags0;
    for i := 0 to |xs|
      invariant tags == tags0 + StringTags(xs[..i])
    {
      var toks := TagsOfGenreItem(xs[i]);
      StringTagsSnoc(xs[..i], xs[i]);
      PrefixSnoc(xs, i);
      AppendAssoc(tags0, StringTags(xs[..i]), toks);
      tags := tags + toks;
    }
    assert xs[..|xs|] == xs;
  }

  /** The junk filter, element by element. */
  method RemoveJunk(tags: seq<string>) returns (out: seq<string>)
    ensures out == Unjunked(tags)
  {
    out := [];
    for i := 0 to |tags|
      invariant out == Unjunked(tags[..i])
    {
      assert tags[..i + 1][..i] == tags[..i];
      if tags[i] != [] && Lower(tags[i]) !in JunkTags {
        out := out + [tags[i]];
      }
    }
    assert tags[..|tags|] == tags;
  }

  /** Step 3 of `scrapeTags`: the tags of the JSON-LD `genre`. */
  method GenreTagsOf(genre: Option<Json>) returns (toks: seq<string>)
    ensures toks == GenreTags(genre)
  {
    toks := [];
    if genre.Some? && genre.value.JStr? {
      toks := TagifyValue(genre.value.s);
    } else if genre.Some? && genre.value.JArr? {
      toks := PushStringTags([], genre.value.items);
    }
  }

  /** `scrapeTags`. */
  method ScrapeTags(chips: seq<string>, categoryLinks: seq<string>, jsonld: Option<Json>) returns (tags: seq<string>)
    ensures tags == ScrapedTags(chips, categoryLinks, jsonld)
  {
    tags := PushTextTags([], chips);
    assert tags == TextTags(chips);
    tags := PushTextTags(tags, categoryLinks);
    var genreTags := GenreTagsOf(GenreOf(jsonld));
    tags := tags + genreTags;
    assert tags == RawTags(chips, categoryLinks, jsonld);
    tags := RemoveJunk(tags);
    tags := DedupeKeepOrder(tags);
  }

  // ---------------------------------------------------------------- properties

  /** Every element of `xs` is a well-formed tag. */
  predicate AllTags(xs: seq<string>) {
    forall i :: 0 <= i < |xs| ==> IsTag(xs[i])
  }

  lemma AllTagsAppend(a: seq<string>, b: seq<string>)
    requires AllTags(a) && AllTags(b)
    ensures AllTags(a + b)
  {
    assert forall i :: |a| <= i < |a + b| ==> (a + b)[i] == b[i - |a|];
  }

  lemma {:induction false} TextTagsAreTags(texts: seq<string>)
    ensures AllTags(TextTags(texts))
  {
    if texts != [] {
      TextTagsAreTags(texts[..|texts| - 1]);
      var t := NormalizeSpace(texts[|texts| - 1]);
      TagifyWellFormed(t);
      AllTagsAppend(TextTags(texts[..|texts| - 1]), TextTagsOf(texts[|texts| - 1]));
    }
  }

  lemma {:induction false} StringTagsAreTags(xs: seq<Json>)
    ensures AllTags(StringTags(xs))
  {
    if xs != [] {
      StringTagsAreTags(xs[..|xs| - 1]);
      var x := xs[|xs| - 1];
      if x.JStr? {
        TagifyWellFormed(x.s);
      }
      AllTagsAppend(StringTags(xs[..|xs| - 1]), if x.JStr? then Tagify(x.s) else []);
    }
  }

  lemma RawTagsAreTags(chips: seq<string>, categoryLinks: seq<string>, jsonld: Option<Json>)
    ensures AllTags(RawTags(chips, categoryLinks, jsonld))
  {
    TextTagsAreTags(chips);
    TextTagsAreTags(categoryLinks);
    var g := GenreOf(jsonld);
    if g.Some? && g.value.JStr? {
      TagifyWellFormed(g.value.s);
    } else if g.Some? && g.value.JArr? {
      StringTagsAreTags(g.value.items);
    }
    AllTagsAppend(TextTags(chips), TextTags(categoryLinks));
    AllTagsAppend(TextTags(chips) + TextTags(categoryLinks), GenreTags(g));
  }

  /** The filter keeps exactly the non-junk tags, in order. */
  lemma {:induction false} UnjunkedMembers(tags: seq<string>)
    ensures forall t :: t in Unjunked(tags) <==> t in tags && Kept(t)
  {
    if tags != [] {
      var init := tags[..|tags| - 1];
      UnjunkedMembers(init);
      assert tags == init + [tags[|tags| - 1]];
    }
  }

  /** The filter distributes over concatenation. */
  lemma {:induction false} UnjunkedAppend(a: seq<string>, b: seq<string>)
    ensures Unjunked(a + b) == Unjunked(a) + Unjunked(b)
    decreases |b|
  {
    if b == [] {
      assert a + b == a;
    } else {
      var b' := b[..|b| - 1];
      assert (a + b)[..|a + b| - 1] == a + b';
      UnjunkedAppend(a, b');
    }
  }

  lemma UnjunkedAreTags(tags: seq<string>)
    requires AllTags(tags)
    ensures AllTags(Unjunked(tags))
  {
    UnjunkedMembers(tags);
    forall i | 0 <= i < |Unjunked(tags)|
      ensures IsTag(Unjunked(tags)[i])
    {
      var t := Unjunked(tags)[i];
      assert t in tags;
    }
  }

  /** Every scraped tag is a well-formed tag, none is junk in any letter
      case, and none repeats. */
  lemma ScrapedTagsWellFormed(chips: seq<string>, categoryLinks: seq<string>, jsonld: Option<Json>)
    ensures var r := ScrapedTags(chips, categoryLinks, jsonld);
      && AllTags(r) && Distinct(r)
      && forall i :: 0 <= i < |r| ==> Lower(r[i]) !in JunkTags
  {
    var raw := RawTags(chips, categoryLinks, jsonld);
    RawTagsAreTags(chips, categoryLinks, jsonld);
    UnjunkedAreTags(raw);
    UnjunkedMembers(raw);
    var kept := Unjunked(raw);
    DedupedTags(kept);
    TagsTrimmed(kept);
    DedupeFromInputs(kept);
    var r := Deduped(kept);
    forall i | 0 <= i < |r|
      ensures Lower(r[i]) !in JunkTags
    {
      assert r[i] in r;
      assert r[i] in kept;
    }
  }

  /** Well-formed tags are already trimmed. */
  lemma TagsTrimmed(xs: seq<string>)
    requires AllTags(xs)
    ensures forall i :: 0 <= i < |xs| ==> Trimmed(xs[i])
  {
    forall i | 0 <= i < |xs|
      ensures Trimmed(xs[i])
    {
      var t := xs[i];
      assert IsTagChar(t[0]) && IsTagChar(t[|t| - 1]);
    }
  }

  /** A tag is scraped exactly when some source yields it and it is not
      junk. */
  lemma ScrapedTagsMembers(chips: seq<string>, categoryLinks: seq<string>, jsonld: Option<Json>, t: string)
    ensures t in ScrapedTags(chips, categoryLinks, jsonld) <==>
      t in RawTags(chips, categoryLinks, jsonld) && Kept(t)
  {
    var raw := RawTags(chips, categoryLinks, jsonld);
    RawTagsAreTags(chips, categoryLinks, jsonld);
    UnjunkedAreTags(raw);
    UnjunkedMembers(raw);
    var kept := Unjunked(raw);
    TagsTrimmed(kept);
    DedupeMembers(kept, t);
    if t in kept {
      var i :| 0 <= i < |kept| && kept[i] == t;
      TrimOfTrimmed(kept[i]);
    }
    if exists i :: 0 <= i < |kept| && Trim(kept[i]) == t {
      var i :| 0 <= i < |kept| && Trim(kept[i]) == t;
      TrimOfTrimmed(kept[i]);
    }
  }

  /** The chip tags come first: the output for the chips alone is a prefix
      of the output for the whole page. */
  lemma ChipTagsFirst(chips: seq<string>, categoryLinks: seq<string>, jsonld: Option<Json>)
    ensures Deduped(Unjunked(TextTags(chips))) <= ScrapedTags(chips, categoryLinks, jsonld)
  {
    var rest := TextTags(categoryLinks) + GenreTags(GenreOf(jsonld));
    assert RawTags(chips, categoryLinks, jsonld) == TextTags(chips) + rest;
    UnjunkedAppend(TextTags(chips), rest);
    DedupePrefix(Unjunked(TextTags(chips)), Unjunked(rest));
  }

  /** The categories row comes next: the output for the chips and the
      category links alone is a prefix of the output for the whole page. */
  lemma ChipAndCategoryTagsFirst(chips: seq<string>, categoryLinks: seq<string>, jsonld: Option<Json>)
    ensures Deduped(Unjunked(TextTags(chips) + TextTags(categoryLinks))) <= ScrapedTags(chips, categoryLinks, jsonld)
  {
    var front := TextTags(chips) + TextTags(categoryLinks);
    var genre := GenreTags(GenreOf(jsonld));
    assert RawTags(chips, categoryLinks, jsonld) == front + genre;
    UnjunkedAppend(front, genre);
    DedupePrefix(Unjunked(front), Unjunked(genre));
  }

  /** The three sources in page order: chips, then the categories row, then
      the JSON-LD genre, each filtered for junk, then deduplicated. */
  lemma ScrapedTagsInOrder(chips: seq<string>, categoryLinks: seq<string>, jsonld: Option<Json>)
    ensures ScrapedTags(chips, categoryLinks, jsonld)
      == Deduped(Unjunked(TextTags(chips)) + Unjunked(TextTags(categoryLinks)) + Unjunked(GenreTags(GenreOf(jsonld))))
  {
    var a, b, c := TextTags(chips), TextTags(categoryLinks), GenreTags(GenreOf(jsonld));
    UnjunkedAppend(a + b, c);
    UnjunkedAppend(a, b);
  }

  /** A one-string `genre` and a one-element array holding that string give
      the same tags. */
  lemma GenreStringOrArray(s: string)
    ensures GenreTags(Some(JStr(s))) == GenreTags(Some(JArr([JStr(s)])))
  {
    StringTagsSnoc([], JStr(s));
    assert [] + [JStr(s)] == [JStr(s)];
    assert StringTags([]) + Tagify(s) == Tagify(s);
  }

  // ---------------------------------------------------------------- book tags

  /** The category folder whose books get the "Adult Fantasy" tags,
      compared after trimming and lower-casing. */
  const AdultFantasy: string := "adult fantasy"

  /** The tags `scrapeAudible` gives the book: base tags, scraped tags and,
      for the adult-fantasy folder, the adult-fantasy tags, deduplicated. */
  function BookTags(baseTags: seq<string>, scraped: seq<string>, category: string, adultTags: seq<string>): seq<string> {
    Deduped(baseTags + scraped + (if Lower(Trim(category)) == AdultFantasy then adultTags else []))
  }

  /** The book's tags are trimmed, non-empty and distinct; the base tags
      come first; and a tag is present exactly when it is the trimmed form of
      one of the inputs. */
  lemma BookTagsSpec(baseTags: seq<string>, scraped: seq<string>, category: string, adultTags: seq<string>, v: string)
    ensures var r := BookTags(baseTags, scraped, category, adultTags);
      && AllTrimmedNonEmpty(r) && Distinct(r)
      && Deduped(baseTags) <= r
    ensures var all := baseTags + scraped + (if Lower(Trim(category)) == AdultFantasy then adultTags else []);
      v in BookTags(baseTags, scraped, category, adultTags) <==>
        v != [] && exists i :: 0 <= i < |all| && Trim(all[i]) == v
  {
    var extra := if Lower(Trim(category)) == AdultFantasy then adultTags else [];
    DedupedConcatShape(baseTags, scraped, extra);
    DedupeMembers(baseTags + scraped + extra, v);
  }

  /** Deduplicating base tags followed by more tags gives clean, distinct
      tags that start with the deduplicated base tags. */
  lemma DedupedConcatShape(baseTags: seq<string>, scraped: seq<string>, extra: seq<string>)
    ensures var r := Deduped(baseTags + scraped + extra);
      AllTrimmedNonEmpty(r) && Distinct(r) && Deduped(baseTags) <= r
  {
    DedupeWellFormed(baseTags + scraped + extra);
    assert baseTags + scraped + extra == baseTags + (scraped + extra);
    DedupePrefix(baseTags, scraped + extra);
  }

  /** Base tags that are already trimmed, non-empty and distinct come
      first in the book's tags exactly as given. */
  lemma CleanBaseTagsFirst(baseTags: seq<string>, scraped: seq<string>, category: string, adultTags: seq<string>)
    requires AllTrimmedNonEmpty(baseTags) && Distinct(baseTags)
    ensures var r := BookTags(baseTags, scraped, category, adultTags);
      |baseTags| <= |r| && r[..|baseTags|] == baseTags
  {
    BookTagsSpec(baseTags, scraped, category, adultTags, []);
    DedupeOfDeduped(baseTags);
  }

  /** Outside the adult-fantasy folder the adult-fantasy tags are never
      added; inside it, whatever the spacing and letter case of the folder
      name, they are. */
  lemma AdultFantasyOnly(baseTags: seq<string>, scraped: seq<string>, category: string, adultTags: seq<string>)
    ensures Lower(Trim(category)) != AdultFantasy ==>
      BookTags(baseTags, scraped, category, adultTags) == Deduped(baseTags + scraped)
    ensures Lower(Trim(category)) == AdultFantasy ==>
      BookTags(baseTags, scraped, category, adultTags) == Deduped(baseTags + scraped + adultTags)
  {
    assert baseTags + scraped + [] == baseTags + scraped;
  }
}
